=== FILE: README.md ===
# AtlasNet core, modelled in Dafny

This project models the bookkeeping at the heart of AtlasNet, a sharded game
server framework, and proves properties of the model. It covers:

- **Cartograph database snapshot** (`snapshot_*.dfy`). Redis keys are
  scanned up to a cap and sorted. Each key's type and TTL are loaded. Keys
  are bucketed by type, and each bucket is read in one batch: MGET for
  strings, and a pipeline for hashes, sets, sorted sets, lists and the JSON
  fallback. Payloads are formatted and truncated. The source shown is the
  requested one, or else the first running one.
- **Cartograph network telemetry** (`network_telemetry.dfy`). Connection
  rows are decoded, grouped per shard and averaged.
- **Entity handoff on a shard:**
  - the entity authority tracker (`entity_authority_tracker.dfy`);
  - the pair-wise connection lease kept in the shared store
    (`lease_coordinator.dfy`);
  - the one-slot transfer mailbox (`transfer_mailbox.dfy`);
  - the connection flap-test manager (`connection_manager.dfy`).
- **God's outlier messages** (`god_messages.dfy`): `OutliersDetected:` and
  `EntityRemoved:` are parsed at their colons.
- **Interlink identifiers** (`interlink_identifier.dfy`): the factories,
  text form, comparison and serialization.
- **The static AABB tree** (`aabb_tree.dfy`): bulk build, box queries and
  point queries.
- **Cartograph front-end helpers:**
  - the circular node graph's edge aggregation (`node_graph.dfy`);
  - the entity inspector's response equality and poll rule
    (`entity_details.dfy`).
- **Database connection** (`redis_connect.dfy`, `internal_db.dfy`): Redis
  connection caching and retry, the "not a cluster" error test, and how the
  internal database resolves its host and port from the environment.

The shared modules are:

- `wrappers.dfy` (Option, Result);
- `js_number.dfy` (JavaScript numbers: NaN, the infinities, `!==`);
- `js_text.dfy` (JavaScript strings as UTF-16 code units);
- `text.dfy` (digits, searching, splitting, lower-casing, string order);
- `sorting.dfy` (an insertion sort by a caller-given order);
- `network_identity.dfy` (the identity of a server).

Functions are pure. State-changing operations take the state and return the
new state together with the effects they perform, such as connects, closes,
packets and sleeps.

## Model

| member | source | states |
|---|---|---|
| SnapshotFormat.TruncatePayload | AtlasNet/runtime/cartograph/native-server/services/databaseSnapshot.js:10-18 | a non-string payload becomes empty; a payload whose UTF-16 length is within the budget is unchanged; a longer one keeps exactly its first maxChars code units and gains the marker |
| SnapshotFormat.Truncate | AtlasNet/runtime/cartograph/native-server/services/databaseSnapshot.js:14-17 | on code units: a sequence within the budget is unchanged, a longer one keeps its first maxChars units followed by a marker |
| SnapshotFormat.TruncationIsRecoverable | AtlasNet/runtime/cartograph/native-server/services/databaseSnapshot.js:17 | the marker of a truncated payload reads back as exactly the number of UTF-16 code units removed; an untruncated payload carries no marker |
| SnapshotFormat.CutIsRecoverable | AtlasNet/runtime/cartograph/native-server/services/databaseSnapshot.js:17 | the count read back from a cut sequence is its length minus the budget |
| SnapshotFormat.BmpPayloadCountsCharacters | AtlasNet/runtime/cartograph/native-server/services/databaseSnapshot.js:14-17 | for text whose characters all lie below U+10000 the budget and the reported count are in characters |
| SnapshotFormat.AstralCharacterCountsTwice | AtlasNet/runtime/cartograph/native-server/services/databaseSnapshot.js:14-17 | with a budget of one, a single character above U+FFFF keeps only its high surrogate and reports one unit cut |
| SnapshotFormat.MarkerCountReadBack | AtlasNet/runtime/cartograph/native-server/services/databaseSnapshot.js:17 | whatever precedes it, the elided count written in the marker is read back unchanged |
| JsText.CharUnits | AtlasNet/runtime/cartograph/native-server/services/databaseSnapshot.js:14-17 | a character is one code unit equal to it below U+10000, otherwise a high surrogate followed by a low surrogate |
| JsText.Utf16Length | AtlasNet/runtime/cartograph/native-server/services/databaseSnapshot.js:14 | a string's `length` is at least its number of characters, and equal to it exactly when every character lies below U+10000 |
| JsText.Utf16OfBmp | AtlasNet/runtime/cartograph/native-server/services/databaseSnapshot.js:14-17 | text below U+10000 has one code unit per character, equal to it |
| JsText.AsciiText | AtlasNet/runtime/cartograph/native-server/services/databaseSnapshot.js:17 | code units read back as text exactly when each is below 0x80, unit by unit |
| JsText.AsciiTextOfUtf16 | AtlasNet/runtime/cartograph/native-server/services/databaseSnapshot.js:17 | ASCII text, such as the marker, reads back from its code units |
| SnapshotFormat.PairPayloadRoundTrip | AtlasNet/runtime/cartograph/native-server/services/databaseSnapshot.js:23-24 | tab-separated pair lines joined by newlines parse back to the same pairs |
| SnapshotFormat.ByFieldIsTotalPreorder | AtlasNet/runtime/cartograph/native-server/services/databaseSnapshot.js:22 | ordering pairs by field name under a total order on names is a total preorder, so sorting is well defined |
| SnapshotFormat.HashPayloadReadsBack | AtlasNet/runtime/cartograph/native-server/services/databaseSnapshot.js:20-25 | the hash payload parses back to a permutation of the fields, ordered by field name |
| SnapshotFormat.SetPayloadReadsBack | AtlasNet/runtime/cartograph/native-server/services/databaseSnapshot.js:27-29 | the set payload's lines are a sorted permutation of the members |
| SnapshotFormat.ListPairs | AtlasNet/runtime/cartograph/native-server/services/databaseSnapshot.js:32 | the i-th list line pairs the decimal index i with the i-th value |
| SnapshotFormat.ListPayloadRoundTrip | AtlasNet/runtime/cartograph/native-server/services/databaseSnapshot.js:31-33 | the list payload parses back to the values in order |
| SnapshotFormat.ZSetPairs | AtlasNet/runtime/cartograph/native-server/services/databaseSnapshot.js:37-39 | each sorted-set line puts the score before its member; an odd trailing element is dropped |
| SnapshotFormat.ZSetPayloadRoundTrip | AtlasNet/runtime/cartograph/native-server/services/databaseSnapshot.js:35-41 | the sorted-set payload reads back to the reply's member/score list, minus any odd trailing element |
| SnapshotReplies.JsNumberOf | AtlasNet/runtime/cartograph/native-server/services/databaseSnapshot.js:56 | `Number()` of a reply value: undefined is NaN, null is 0, an integer is itself, a string goes through the number parser |
| SnapshotReplies.FieldsOf | AtlasNet/runtime/cartograph/native-server/services/databaseSnapshot.js:272 | an object reply gives its entries, an array gives index/value pairs, anything else gives no fields |
| SnapshotReplies.ArrayOf | AtlasNet/runtime/cartograph/native-server/services/databaseSnapshot.js:291 | an array reply gives its items and anything else gives none |
| SnapshotReplies.ReplyAt | AtlasNet/runtime/cartograph/native-server/services/databaseSnapshot.js:168 | a missing pipeline result reads as no error with an undefined value |
| SnapshotScan.ToFiniteNumber | AtlasNet/runtime/cartograph/native-server/services/databaseSnapshot.js:55-58 | the number when it is finite, otherwise the fallback |
| SnapshotScan.Limit | AtlasNet/runtime/cartograph/native-server/services/databaseSnapshot.js:121 | at most max(1, MAX_KEYS_PER_DB) keys are kept: the cap is checked after a key is pushed, so a cap of 0 still keeps one |
| SnapshotScan.AddPage | AtlasNet/runtime/cartograph/native-server/services/databaseSnapshot.js:119-124 | a page's keys are appended in order until the cap; the cap is hit exactly when the result reaches it |
| SnapshotScan.StopIndex | AtlasNet/runtime/cartograph/native-server/services/databaseSnapshot.js:125 | the first reply that ends the cursor loop (cursor "0" or a failure), and none before it |
| SnapshotScan.ScanSpecKeepsOfferedPrefix | AtlasNet/runtime/cartograph/native-server/services/databaseSnapshot.js:116-125 | the keys gathered are a prefix of all the keys the pages offered |
| SnapshotScan.ScanSpecShortOfCapCompleted | AtlasNet/runtime/cartograph/native-server/services/databaseSnapshot.js:125-127 | a result short of the cap means the cursor returned to "0", and every key up to that page was kept |
| SnapshotScan.ScanKeysShape | AtlasNet/runtime/cartograph/native-server/services/databaseSnapshot.js:112-128 | the scanned keys are sorted, at most the cap, and a permutation of a prefix of the offered keys (of all of them when short of the cap) |
| SnapshotScan.ScanAllKeys | AtlasNet/runtime/cartograph/native-server/services/databaseSnapshot.js:112-128 | the loop computes the scan specification: sorted, capped, a permutation of the offered prefix |
| SnapshotScan.TypeOfReply | AtlasNet/runtime/cartograph/native-server/services/databaseSnapshot.js:148 | a failed or nullish TYPE reply gives "unknown", otherwise the reply's text |
| SnapshotScan.TtlOfReply | AtlasNet/runtime/cartograph/native-server/services/databaseSnapshot.js:149 | a failed or non-finite TTL reply gives -2, an integer reply gives itself |
| SnapshotScan.LoadKeyMetadata | AtlasNet/runtime/cartograph/native-server/services/databaseSnapshot.js:130-154 | no keys means no pipeline; a thrown pipeline fails the load; otherwise one entry per key, in key order |
| SnapshotScan.MetadataIsPerKey | AtlasNet/runtime/cartograph/native-server/services/databaseSnapshot.js:143-151 | a key's metadata depends only on its own two replies |
| SnapshotScan.MetadataReadsOwnReplies | AtlasNet/runtime/cartograph/native-server/services/databaseSnapshot.js:143-151 | for any results, key i's type comes from result 2i and its TTL from result 2i+1: a failed or nullish type reads "unknown", a text type reads as itself, a failed or non-finite TTL reads -2, an integer TTL reads as itself, and a missing result reads as a failed one |
| SnapshotRecords.ReadErrorOutcome | AtlasNet/runtime/cartograph/native-server/services/databaseSnapshot.js:76-79 | a read error shows `<read error: message>` with count 0 and keeps the type |
| SnapshotRecords.ApplyOutcome | AtlasNet/runtime/cartograph/native-server/services/databaseSnapshot.js:71-74 | setting a payload truncates it, records the count, keeps source, key and TTL, and changes the type only for JSON |
| SnapshotRecords.Update | AtlasNet/runtime/cartograph/native-server/services/databaseSnapshot.js:184-187 | a record is updated only when its key is present, and other records are untouched |
| SnapshotRecords.ApplyOutcomes | AtlasNet/runtime/cartograph/native-server/services/databaseSnapshot.js:167-170 | applying a batch's results keeps the key set and updates each record through its own outcomes |
| SnapshotRecords.ApplyAllToAbsent | AtlasNet/runtime/cartograph/native-server/services/databaseSnapshot.js:167-170 | a record whose key is not in the batch is unchanged |
| SnapshotRecords.ApplyAllToOnce | AtlasNet/runtime/cartograph/native-server/services/databaseSnapshot.js:167-170 | a key that occurs once in the batch gets exactly its own outcome |
| SnapshotRecords.ApplyAllToDependsOnOwnOutcomes | AtlasNet/runtime/cartograph/native-server/services/databaseSnapshot.js:167-170 | a record's result depends only on the outcomes at its own key's positions |
| SnapshotPopulate.BucketItems | AtlasNet/runtime/cartograph/native-server/services/databaseSnapshot.js:200-235 | a bucket holds the tracked items of its types, in metadata order |
| SnapshotPopulate.BucketKeysDistinct | AtlasNet/runtime/cartograph/native-server/services/databaseSnapshot.js:200-235 | with distinct metadata keys, no key appears twice in a bucket |
| SnapshotPopulate.BucketPosition | AtlasNet/runtime/cartograph/native-server/services/databaseSnapshot.js:200-235 | item i sits in its bucket at the position counted by the earlier items of that bucket |
| SnapshotPopulate.StringOutcome | AtlasNet/runtime/cartograph/native-server/services/databaseSnapshot.js:245-246 | a nullish string value shows empty with count 0, any other shows its text with count 1 |
| SnapshotPopulate.JsonOutcome | AtlasNet/runtime/cartograph/native-server/services/databaseSnapshot.js:343-364 | JSON.GET errors and nulls show `<unsupported type>`; otherwise the text is shown, the type becomes json, and the count is 0 only for "null" or empty text |
| SnapshotPopulate.ReplyOutcome | AtlasNet/runtime/cartograph/native-server/services/databaseSnapshot.js:258-336 | each pipelined type's reply maps to its formatter and entry count; an error reply becomes a read error |
| SnapshotPopulate.OutcomesFor | AtlasNet/runtime/cartograph/native-server/services/databaseSnapshot.js:237-365 | every item of a bucket gets the outcome of its own reply, or the bucket's thrown error |
| SnapshotPopulate.Populate | AtlasNet/runtime/cartograph/native-server/services/databaseSnapshot.js:192-366 | populating keeps every record's key set, source, key and TTL, and keeps payloads within the budget |
| SnapshotPopulate.PopulateOfDistinctKey | AtlasNet/runtime/cartograph/native-server/services/databaseSnapshot.js:192-366 | with distinct keys, each record ends with exactly the outcome of its own item |
| SnapshotPopulate.NoFetchMarker | AtlasNet/runtime/cartograph/native-server/services/databaseSnapshot.js:206-234 | expired, stream and vectorset keys get their fixed marker text and count 0 without any fetch |
| SnapshotPopulate.StringValue | AtlasNet/runtime/cartograph/native-server/services/databaseSnapshot.js:237-247 | a string key shows the MGET value at its position in the string bucket |
| SnapshotPopulate.BucketFailureMarksItsKeys | AtlasNet/runtime/cartograph/native-server/services/databaseSnapshot.js:173-190 | when a bucket's batch throws, each of its keys shows the read error |
| SnapshotPopulate.PipelinedKeyReadsItsReply | AtlasNet/runtime/cartograph/native-server/services/databaseSnapshot.js:156-171 | a pipelined key's record reflects the reply at its own index in its bucket's batch |
| SnapshotPopulate.BucketIsolation | AtlasNet/runtime/cartograph/native-server/services/databaseSnapshot.js:237-365 | whatever any one bucket's request returns or throws, the MGET included, a key of another bucket ends the same |
| SnapshotPopulate.StringBucketIsolation | AtlasNet/runtime/cartograph/native-server/services/databaseSnapshot.js:237-256 | a throwing MGET leaves every key outside the string bucket as a succeeding one would |
| SnapshotRead.BuildRecords | AtlasNet/runtime/cartograph/native-server/services/databaseSnapshot.js:375-382 | one fresh record per metadata key, carrying the source name and an empty payload |
| SnapshotRead.BuildRecordsKeepsLast | AtlasNet/runtime/cartograph/native-server/services/databaseSnapshot.js:377-382 | a key listed more than once keeps the record built from its last item; in particular, with distinct keys each key's record is built from its own metadata |
| SnapshotRead.RecordsInOrder | AtlasNet/runtime/cartograph/native-server/services/databaseSnapshot.js:386-388 | the records are returned in metadata order |
| SnapshotRead.AssembleRecords | AtlasNet/runtime/cartograph/native-server/services/databaseSnapshot.js:374-388 | the records follow the keys in order, carry the source name and keep payloads within the budget |
| SnapshotRead.PopulateKeepsTableWellFormed | AtlasNet/runtime/cartograph/native-server/services/databaseSnapshot.js:384 | populating keeps every record keyed by its own key and within budget |
| SnapshotRead.ReadDatabaseRecords | AtlasNet/runtime/cartograph/native-server/services/databaseSnapshot.js:368-394 | a connect, scan or metadata failure is reported as such; when all three succeed the read succeeds, and the records are the scanned keys in sorted order, at most the cap, within the budget |
| SnapshotRead.FirstMatch | AtlasNet/runtime/cartograph/native-server/services/databaseSnapshot.js:398-400 | the first source whose id or name equals the request, and no earlier one |
| SnapshotRead.ResolveSelectedSource | AtlasNet/runtime/cartograph/native-server/services/databaseSnapshot.js:396-407 | a non-empty request picks the first matching source; otherwise the first running source; no running sources gives none |
| NetworkTelemetry.DecodeConnectionRow | AtlasNet/runtime/cartograph/native-server/services/networkTelemetry.js:1-21 | a row with the extra leading column gives the shard id and shifts every field by one; the rates go through Number() |
| NetworkTelemetry.ShardColumnIsOnlyAPrefix | AtlasNet/runtime/cartograph/native-server/services/networkTelemetry.js:3-8 | decoding a row with a shard column is decoding the rest with that shard id |
| NetworkTelemetry.TrailingColumnsIgnored | AtlasNet/runtime/cartograph/native-server/services/networkTelemetry.js:1-21 | columns past the known fields never change the decoded row |
| NetworkTelemetry.DecodeRows | AtlasNet/runtime/cartograph/native-server/services/networkTelemetry.js:74-86 | no more rows than were given; if every row is short nothing is decoded, and if every row is long each is decoded in place |
| NetworkTelemetry.LongRows | AtlasNet/runtime/cartograph/native-server/services/networkTelemetry.js:75-77 | no more rows than given, each of at least 13 fields; a row is kept iff it is an input row of at least 13 fields |
| NetworkTelemetry.DecodeRowsDecodesLongRows | AtlasNet/runtime/cartograph/native-server/services/networkTelemetry.js:74-86 | decoding drops exactly the rows shorter than 13 fields and decodes the rest one for one, in order |
| NetworkTelemetry.RowsFor | AtlasNet/runtime/cartograph/native-server/services/networkTelemetry.js:80-85 | a shard's group holds only rows keyed to that shard |
| NetworkTelemetry.GroupRows | AtlasNet/runtime/cartograph/native-server/services/networkTelemetry.js:74-86 | the grouping has a key exactly for each shard with rows, holding those rows in order |
| NetworkTelemetry.RowsForPartition | AtlasNet/runtime/cartograph/native-server/services/networkTelemetry.js:80-85 | each decoded row lands in its own shard's group as often as it occurs |
| NetworkTelemetry.ComputeShardAverages | AtlasNet/runtime/cartograph/native-server/services/networkTelemetry.js:23-40 | no rows averages to 0; an average is finite iff every rate is, and then, in exact arithmetic, it times the row count is the sum |
| NetworkTelemetry.AverageOfEqualRates | AtlasNet/runtime/cartograph/native-server/services/networkTelemetry.js:23-40 | rows that all share one rate average to that rate |
| NetworkTelemetry.ReadNetworkTelemetry | AtlasNet/runtime/cartograph/native-server/services/networkTelemetry.js:55-98 | one entry per id/health pair, each with its shard's rows and their averages |
| EntityAuthorityTracker.Absorb | AtlasNet/runtime/shard/src/EntityHandoff/EntityAuthorityTracker.cpp:36-45 | an incoming snapshot replaces the stored one; a handoff in progress is kept, anything else becomes authoritative |
| EntityAuthorityTracker.AbsorbTwice | AtlasNet/runtime/shard/src/EntityHandoff/EntityAuthorityTracker.cpp:36-45 | absorbing two snapshots in turn is absorbing the later one |
| EntityAuthorityTracker.AbsorbAllSettles | AtlasNet/runtime/shard/src/EntityHandoff/EntityAuthorityTracker.cpp:36-45 | after the pass, each entity's entry is its prior entry settled by its last incoming snapshot |
| EntityAuthorityTracker.SetOwnedEntitiesResult | AtlasNet/runtime/shard/src/EntityHandoff/EntityAuthorityTracker.cpp:16-46 | the tracked ids become exactly the incoming ids, each with its last snapshot, keeping any handoff in progress |
| EntityAuthorityTracker.SetOwnedKeepsHandoff | AtlasNet/runtime/shard/src/EntityHandoff/EntityAuthorityTracker.cpp:38-44 | an entity being passed stays passing to the same target across a refresh |
| EntityAuthorityTracker.SetOwnedIsIdempotent | AtlasNet/runtime/shard/src/EntityHandoff/EntityAuthorityTracker.cpp:16-46 | refreshing twice with the same entities is refreshing once |
| EntityAuthorityTracker.SetAuthorityState | AtlasNet/runtime/shard/src/EntityHandoff/EntityAuthorityTracker.cpp:66-78 | only the named, tracked entity changes state and target; its snapshot and every other entry stay |
| EntityAuthorityTracker.RemoveEntity | AtlasNet/runtime/shard/src/EntityHandoff/EntityAuthorityTracker.cpp:80-83 | exactly that id is dropped |
| EntityAuthorityTracker.Reset | AtlasNet/runtime/shard/src/EntityHandoff/EntityAuthorityTracker.cpp:11-14 | nothing is tracked afterwards |
| EntityAuthorityTracker.MarkPassing | AtlasNet/runtime/shard/src/EntityHandoff/EntityAuthorityTracker.cpp:85-101 | an untracked id is refused; otherwise the entity is passing to the target, and the call reports whether that changed anything |
| EntityAuthorityTracker.MarkAuthoritative | AtlasNet/runtime/shard/src/EntityHandoff/EntityAuthorityTracker.cpp:103-113 | the entity returns to authoritative with no target |
| EntityAuthorityTracker.MarkPassingRepeat | AtlasNet/runtime/shard/src/EntityHandoff/EntityAuthorityTracker.cpp:94-100 | repeating the same mark changes nothing and reports no change |
| EntityAuthorityTracker.MarkPassingAfterAuthoritative | AtlasNet/runtime/shard/src/EntityHandoff/EntityAuthorityTracker.cpp:85-113 | marking a tracked entity passing after it was made authoritative reports a change |
| EntityAuthorityTracker.MarkPassingAfterRemoval | AtlasNet/runtime/shard/src/EntityHandoff/EntityAuthorityTracker.cpp:80-101 | a removed or reset entity cannot be marked |
| EntityAuthorityTracker.CollectTelemetryRows | AtlasNet/runtime/shard/src/EntityHandoff/EntityAuthorityTracker.cpp:48-64 | one row per tracked entity, none twice, each describing that entity |
| EntityAuthorityTracker.GetOwnedEntitySnapshots | AtlasNet/runtime/shard/src/EntityHandoff/EntityAuthorityTracker.cpp:143-153 | every tracked entity's snapshot, once each, in the map's iteration order |
| LeaseCoordinator.LeaseKey | AtlasNet/runtime/shard/src/EntityHandoff/HandoffConnectionLeaseCoordinator.cpp:13-23 | the key names the two peers, lower first, after the prefix |
| LeaseCoordinator.LeaseKeyIsSymmetric | AtlasNet/runtime/shard/src/EntityHandoff/HandoffConnectionLeaseCoordinator.cpp:13-23 | both peers compute the same key |
| LeaseCoordinator.LeaseKeyOrdersNames | AtlasNet/runtime/shard/src/EntityHandoff/HandoffConnectionLeaseCoordinator.cpp:18-22 | the key holds exactly the two names, in order |
| LeaseCoordinator.ReadLease | AtlasNet/runtime/shard/src/EntityHandoff/HandoffConnectionLeaseCoordinator.cpp:36 | the first step reads whether the pair's key is present and whose name it holds |
| LeaseCoordinator.Expire | AtlasNet/runtime/shard/src/EntityHandoff/HandoffConnectionLeaseCoordinator.cpp:40 | EXPIRE renews an existing key's TTL and leaves its value; an absent key stays absent |
| LeaseCoordinator.WriteLeaseAsWritten | AtlasNet/runtime/shard/src/EntityHandoff/HandoffConnectionLeaseCoordinator.cpp:37-53 | the second step as written succeeds iff the reading was absent or ours; an absent reading overwrites whatever the key holds by then with our name and the TTL |
| LeaseCoordinator.WriteLease | AtlasNet/runtime/shard/src/EntityHandoff/HandoffConnectionLeaseCoordinator.cpp:37-53 | the corrected second step: an absent reading takes the key iff it is still absent (SET NX); other readings act as written |
| LeaseCoordinator.TryAcquireOrRefresh | AtlasNet/runtime/shard/src/EntityHandoff/HandoffConnectionLeaseCoordinator.cpp:25-54 | the two steps with nothing in between: with leases off it always succeeds; otherwise it succeeds iff the lease is free or already ours, and then it holds the lease with the TTL |
| LeaseCoordinator.AcquireAsWrittenWhenAlone | AtlasNet/runtime/shard/src/EntityHandoff/HandoffConnectionLeaseCoordinator.cpp:36-53 | run without interleaving, the plain SET and SET NX give the same store and answer |
| LeaseCoordinator.InterleavedAcquiresBothSucceed | AtlasNet/runtime/shard/src/EntityHandoff/HandoffConnectionLeaseCoordinator.cpp:36-43 | as written, two peers whose GETs both see a free key both succeed, and the later SET's name is left in the key |
| LeaseCoordinator.InterleavedAcquiresExclusive | AtlasNet/runtime/shard/src/EntityHandoff/HandoffConnectionLeaseCoordinator.cpp:36-53 | with SET NX, two peers whose GETs read the same store never both succeed |
| LeaseCoordinator.ReleaseIfOwned | AtlasNet/runtime/shard/src/EntityHandoff/HandoffConnectionLeaseCoordinator.cpp:56-71 | the lease is deleted only when it is ours |
| LeaseCoordinator.LeaseIsExclusive | AtlasNet/runtime/shard/src/EntityHandoff/HandoffConnectionLeaseCoordinator.cpp:25-54 | once one peer's acquisition has finished, the other's later attempt fails and changes nothing |
| LeaseCoordinator.AcquireIsIdempotent | AtlasNet/runtime/shard/src/EntityHandoff/HandoffConnectionLeaseCoordinator.cpp:46-51 | refreshing a held lease succeeds and changes nothing |
| LeaseCoordinator.AcquireThenRelease | AtlasNet/runtime/shard/src/EntityHandoff/HandoffConnectionLeaseCoordinator.cpp:25-71 | acquiring and then releasing leaves the pair's key absent |
| LeaseCoordinator.ReleaseRespectsOtherOwner | AtlasNet/runtime/shard/src/EntityHandoff/HandoffConnectionLeaseCoordinator.cpp:64-70 | a peer cannot release the other's lease |
| LeaseCoordinator.MarkConnectionActivity | AtlasNet/runtime/shard/src/EntityHandoff/HandoffConnectionLeaseCoordinator.cpp:73-82 | activity records the time for the peer and acquires or refreshes the pair's lease |
| LeaseCoordinator.WholeSecondsBounds | AtlasNet/runtime/shard/src/EntityHandoff/HandoffConnectionLeaseCoordinator.cpp:103 | milliseconds become whole seconds, truncated toward zero |
| LeaseCoordinator.ActivePeers | AtlasNet/runtime/shard/src/EntityHandoff/HandoffConnectionLeaseCoordinator.cpp:84-107 | exactly the peers that are not idle are kept, with their times |
| LeaseCoordinator.ReapInactiveConnections | AtlasNet/runtime/shard/src/EntityHandoff/HandoffConnectionLeaseCoordinator.cpp:84-107 | idle peers are dropped and their leases released; with a callback, each is reported once with its idle seconds |
| LeaseCoordinator.ReleaseEachIsReleasedAll | AtlasNet/runtime/shard/src/EntityHandoff/HandoffConnectionLeaseCoordinator.cpp:89-106 | releasing the idle peers one by one in any order releases exactly their leases |
| LeaseCoordinator.Clear | AtlasNet/runtime/shard/src/EntityHandoff/HandoffConnectionLeaseCoordinator.cpp:109-112 | no activity is remembered afterwards |
| LeaseCoordinator.FreshPeerSurvivesReap | AtlasNet/runtime/shard/src/EntityHandoff/HandoffConnectionLeaseCoordinator.cpp:73-107 | a peer active just now is never reaped at that instant |
| TransferMailbox.Reset | AtlasNet/lib/Native/Entity/EntityHandoff/ServerHandoff/SH_TransferMailbox.cpp:18-22 | both slots are empty afterwards |
| TransferMailbox.QueueIncoming | AtlasNet/lib/Native/Entity/EntityHandoff/ServerHandoff/SH_TransferMailbox.cpp:24-37 | the incoming slot holds the new transfer and the outgoing slot is untouched |
| TransferMailbox.SetPendingOutgoing | AtlasNet/lib/Native/Entity/EntityHandoff/ServerHandoff/SH_TransferMailbox.cpp:53-57 | the outgoing slot holds the handoff and the incoming slot is untouched |
| TransferMailbox.ClearPendingOutgoing | AtlasNet/lib/Native/Entity/EntityHandoff/ServerHandoff/SH_TransferMailbox.cpp:87-90 | the outgoing slot is empty and the incoming slot is untouched |
| TransferMailbox.AdoptIncomingIfDue | AtlasNet/lib/Native/Entity/EntityHandoff/ServerHandoff/SH_TransferMailbox.cpp:39-51 | the entity is adopted iff a transfer is queued and its tick has come, and then the slot empties |
| TransferMailbox.CommitOutgoingIfDue | AtlasNet/lib/Native/Entity/EntityHandoff/ServerHandoff/SH_TransferMailbox.cpp:59-85 | the handoff commits iff one is pending and due, and then the simulator and tracker reset, telemetry is published and the slot empties |
| TransferMailbox.AdoptsAtMostOnce | AtlasNet/lib/Native/Entity/EntityHandoff/ServerHandoff/SH_TransferMailbox.cpp:39-51 | a transfer is adopted at most once |
| TransferMailbox.LatestQueuedIsAdopted | AtlasNet/lib/Native/Entity/EntityHandoff/ServerHandoff/SH_TransferMailbox.cpp:24-51 | queuing twice replaces the first transfer, so the second entity is the one adopted |
| TransferMailbox.DueIsMonotonic | AtlasNet/lib/Native/Entity/EntityHandoff/ServerHandoff/SH_TransferMailbox.cpp:39-85 | a transfer that is due stays due at every later tick |
| TransferMailbox.SlotsAreIndependent | AtlasNet/lib/Native/Entity/EntityHandoff/ServerHandoff/SH_TransferMailbox.cpp:39-85 | adopting never touches the outgoing slot and committing never touches the incoming one |
| TransferMailbox.NothingPendingAfterCommit | AtlasNet/lib/Native/Entity/EntityHandoff/ServerHandoff/SH_TransferMailbox.cpp:59-90 | after a commit, a clear or a reset no outgoing handoff is pending |
| ConnectionManager.SelectTestTarget | AtlasNet/runtime/shard/src/EntityHandoff/HandoffConnectionManager.cpp:12-40 | the first registered shard other than self, or none when there is no such shard |
| ConnectionManager.Init | AtlasNet/runtime/shard/src/EntityHandoff/HandoffConnectionManager.cpp:43-60 | initialised and inactive, with the last toggle one interval ago and a target chosen |
| ConnectionManager.Tick | AtlasNet/runtime/shard/src/EntityHandoff/HandoffConnectionManager.cpp:62-105 | nothing happens before the interval has passed; then a missing target is chosen, or the test connection toggles with connect+ping or close |
| ConnectionManager.Shutdown | AtlasNet/runtime/shard/src/EntityHandoff/HandoffConnectionManager.cpp:107-128 | an active test connection is closed; the manager ends uninitialised with no target |
| ConnectionManager.OperationsKeepValid | AtlasNet/runtime/shard/src/EntityHandoff/HandoffConnectionManager.cpp:43-128 | the connection is active only while initialised with a target, whatever the operation |
| ConnectionManager.FirstTickActs | AtlasNet/runtime/shard/src/EntityHandoff/HandoffConnectionManager.cpp:50 | the first tick at or after Init acts at once |
| ConnectionManager.TicksAreRateLimited | AtlasNet/runtime/shard/src/EntityHandoff/HandoffConnectionManager.cpp:69-75 | two acting ticks are at least five seconds apart |
| ConnectionManager.TicksAlternate | AtlasNet/runtime/shard/src/EntityHandoff/HandoffConnectionManager.cpp:82-104 | two acting ticks connect and close once each and restore the state |
| ConnectionManager.InertAfterShutdown | AtlasNet/runtime/shard/src/EntityHandoff/HandoffConnectionManager.cpp:64-67 | after shutdown, ticks and shutdowns do nothing |
| GodMessages.ParseInt | src/God/God.Messages.cpp:16-34 | a non-empty run of digits up to the int limit is its value; empty and non-numeric text are told apart |
| GodMessages.ParseIntOfPrinted | src/God/God.Messages.cpp:16-34 | every count in range, printed in decimal, reads back |
| GodMessages.ParseOutliersDetected | src/God/God.Messages.cpp:6-38 | the partition is the text between the prefix and the last colon, and the count follows it; no further colon is an error |
| GodMessages.OutliersDetectedRoundTrip | src/God/God.Messages.cpp:6-38 | a notice printed in the message layout parses back to itself |
| GodMessages.ColonsBelowAreTheColons | src/God/God.Messages.cpp:42-46 | the collected positions are exactly the colons past the first character, each once, in increasing order |
| GodMessages.CollectColons | src/God/God.Messages.cpp:42-46 | the loop collects exactly those colon positions |
| GodMessages.SourcePartition | src/God/God.Messages.cpp:59-65 | the partition is the text from after the prefix to the partition colon, or the whole tail when that colon is inside the prefix |
| GodMessages.ParseEntityRemoved | src/God/God.Messages.cpp:40-132 | fewer than five colons is an error naming the count; success means the last four fields are the id and three valid coordinates |
| GodMessages.ParseWithColons | src/God/God.Messages.cpp:59-118 | a message whose last five colons frame valid fields parses to exactly those fields |
| GodMessages.EntityRemovedRoundTrip | src/God/God.Messages.cpp:40-132 | a removal printed in the full layout parses back to itself |
| GodMessages.ShortLayoutTakesWholeTail | src/God/God.Messages.cpp:59-65 | with exactly five colons the partition colon is the prefix's own, so the partition is the whole tail after the prefix |
| GodMessages.HandleOutlierMessage | src/God/God.Messages.cpp:134-141 | messages are dispatched by prefix, and any other message is ignored |
| InterlinkIdentifiers.TypeOfCode | src/Interlink/InterlinkEnums.hpp:3-12 | the enum's codes -1..5 and nothing else are types, and each reads back to its code |
| InterlinkIdentifiers.TypeFromName | src/Interlink/InterlinkEnums.hpp:13 | a name reads as the one described enumerator bearing it |
| InterlinkIdentifiers.Default | libs/Interlink/src/InterlinkIdentifier.hpp:14-18 | a default identifier is invalid with an empty id |
| InterlinkIdentifiers.Make | libs/Interlink/src/InterlinkIdentifier.hpp:19 | the given type, and the id, empty when omitted |
| InterlinkIdentifiers.MakeIDGod | src/Interlink/InterlinkIdentifier.cpp:4-11 | God, empty id |
| InterlinkIdentifiers.MakeIDPartition | src/Interlink/InterlinkIdentifier.cpp:13-19 | partition with the given id |
| InterlinkIdentifiers.MakeIDGameServer | src/Interlink/InterlinkIdentifier.cpp:21-27 | game server with the given id |
| InterlinkIdentifiers.MakeIDGameClient | src/Interlink/InterlinkIdentifier.cpp:29-35 | game client with the given id |
| InterlinkIdentifiers.MakeIDGodView | src/Interlink/InterlinkIdentifier.cpp:37-43 | a game client with an empty id, not a GodView |
| InterlinkIdentifiers.FromString | src/Interlink/InterlinkIdentifier.cpp:50-86 | blank input fails; a result has a described type and an id without white space |
| InterlinkIdentifiers.RoundTrip | src/Interlink/InterlinkIdentifier.cpp:45-86 | an identifier with a described type and a space-free id is read back from its text |
| InterlinkIdentifiers.UndescribedDoesNotReadBack | src/Interlink/InterlinkIdentifier.cpp:47 | the unknown type prints the fallback name, which does not read back |
| InterlinkIdentifiers.FurtherTokensIgnored | src/Interlink/InterlinkIdentifier.cpp:63-64 | text after the second token is ignored |
| InterlinkIdentifiers.SameIsEquality | libs/Interlink/src/InterlinkIdentifier.hpp:36-40 | comparing the text forms is structural equality |
| InterlinkIdentifiers.LessIsStrictTotalOrder | libs/Interlink/src/InterlinkIdentifier.hpp:41-44 | ordering by text form is a strict total order |
| InterlinkIdentifiers.Deserialize | libs/Interlink/src/InterlinkIdentifier.hpp:50-54 | a scalar then a string are read, in that order, and the rest of the stream is returned; the scalar becomes the type with that underlying value and the string the id |
| InterlinkIdentifiers.SerializeRoundTrip | libs/Interlink/src/InterlinkIdentifier.hpp:45-54 | deserializing what was serialized gives the identifier and leaves the rest of the stream |
| AabbTree.Expand | libs/AtlasNet/Global/src/Types/AABBTree.hpp:94 | the expanded box contains both boxes |
| AabbTree.TestsAreMonotone | libs/AtlasNet/Global/src/Types/AABBTree.hpp:131-167 | a box or point test that hits a box also hits every box containing it |
| AabbTree.EmptyTree | libs/AtlasNet/Global/src/Types/AABBTree.hpp:81-83 | a tree with no nodes and no root is valid |
| AabbTree.HullContainsItems | libs/AtlasNet/Global/src/Types/AABBTree.hpp:93-94 | the node's bounds contain every item's bounds |
| AabbTree.SplitAxis | libs/AtlasNet/Global/src/Types/AABBTree.hpp:106-111 | the first axis of largest extent |
| AabbTree.ByCenterIsTotalPreorder | libs/AtlasNet/Global/src/Types/AABBTree.hpp:115-117 | ordering by centre along an axis is a total preorder |
| AabbTree.Arrange | libs/AtlasNet/Global/src/Types/AABBTree.hpp:113-117 | the items are permuted so that the lower half lies before the median by centre |
| AabbTree.BuildRec | libs/AtlasNet/Global/src/Types/AABBTree.hpp:89-125 | children are appended before their parent, and the new root is the last node |
| AabbTree.SplitRange | libs/AtlasNet/Global/src/Types/AABBTree.hpp:96-119 | a one-item range is a leaf; any other range recurses on two halves meeting at begin + count / 2, both strictly smaller when the range holds two or more items |
| AabbTree.EmptyRangeRecursesOnItself | libs/AtlasNet/Global/src/Types/AABBTree.hpp:96-119 | on an empty range the left recursive call is the same empty range |
| AabbTree.LongRangesShrink | libs/AtlasNet/Global/src/Types/AABBTree.hpp:113-119 | a range of two or more items splits into two non-empty, strictly smaller halves, the left one holding count / 2 items |
| AabbTree.Build | libs/AtlasNet/Global/src/Types/AABBTree.hpp:39-46 | for one or more items the tree is valid, has a root whose bounds are the items' hull, and has 2n-1 nodes |
| AabbTree.BuildTree | libs/AtlasNet/Global/src/Types/AABBTree.hpp:39-46 | the corrected build: the tree is valid and has no root exactly when there are no items; otherwise it is Build's tree |
| AabbTree.BuiltTreeQueriesAreExact | libs/AtlasNet/Global/src/Types/AABBTree.hpp:52-79 | for any item list, empty included, the corrected tree's queries report exactly the matching objects, and a point hit iff there is one |
| AabbTree.BuildRecVisit | libs/AtlasNet/Global/src/Types/AABBTree.hpp:89-147 | visiting the built subtree reports the objects of the items the test hits, up to order |
| AabbTree.ObjectsOfPermutation | libs/AtlasNet/Global/src/Types/AABBTree.hpp:115 | rearranging the items does not change which objects a test reports |
| AabbTree.QueryIsExact | libs/AtlasNet/Global/src/Types/AABBTree.hpp:52-58 | a box query reports exactly the objects whose bounds intersect the box, each as often as it was given |
| AabbTree.QueryPointIsExact | libs/AtlasNet/Global/src/Types/AABBTree.hpp:70-79 | a point query reports exactly the objects whose bounds hold the point, and reports a hit iff there is one |
| AabbTree.LeavesHoldEachItemOnce | libs/AtlasNet/Global/src/Types/AABBTree.hpp:98-104 | the leaves hold each item's object exactly once |
| AabbTree.EmptyTreeFindsNothing | libs/AtlasNet/Global/src/Types/AABBTree.hpp:55-74 | an empty tree reports nothing and no hit |
| NodeGraph.ConnectionTarget | AtlasNet/runtime/cartograph/src/app/components/CircularNodeGraphPanel.tsx:17-23 | an array row's second cell or an object's target, else none |
| NodeGraph.ConnectionRates | AtlasNet/runtime/cartograph/src/app/components/CircularNodeGraphPanel.tsx:25-49 | rates exist only for an array row of at least five cells with finite rates, or an object with both numbers |
| NodeGraph.Contribute | AtlasNet/runtime/cartograph/src/app/components/CircularNodeGraphPanel.tsx:78-89 | a row contributes iff its target is non-empty, a known node and not the source; missing rates count as 0 |
| NodeGraph.Contributions | AtlasNet/runtime/cartograph/src/app/components/CircularNodeGraphPanel.tsx:76-103 | at most one contribution per connection |
| NodeGraph.ConnectionCountCountsEveryShard | AtlasNet/runtime/cartograph/src/app/components/CircularNodeGraphPanel.tsx:61-64 | the count is at least every shard's own connection count |
| NodeGraph.Merge | AtlasNet/runtime/cartograph/src/app/components/CircularNodeGraphPanel.tsx:86-101 | a new key adds an edge and an existing one gains the rates; other keys are untouched and keys stay distinct |
| NodeGraph.Aggregate | AtlasNet/runtime/cartograph/src/app/components/CircularNodeGraphPanel.tsx:76-103 | the edge map has distinct keys, each edge under its own key, no more edges than contributions |
| NodeGraph.AggregateIsPerPairSum | AtlasNet/runtime/cartograph/src/app/components/CircularNodeGraphPanel.tsx:85-101 | when no other contributing pair shares its key, a pair's entry sums exactly that pair's rates, and a pair no contribution joins has no entry |
| NodeGraph.GraphEdgesArePerPairSums | AtlasNet/runtime/cartograph/src/app/components/CircularNodeGraphPanel.tsx:66-106 | for any key under which no other contributing pair shares the key of (s, t): the graph has an edge s to t iff some row links s to t, and that edge sums those rows' rates |
| NodeGraph.ArrowGraphEdgesArePerPairSums | AtlasNet/runtime/cartograph/src/app/components/CircularNodeGraphPanel.tsx:66-106 | the same for the panel as written, keyed by `${from}->${to}`, whenever no other contributing pair spells the key of (s, t) |
| NodeGraph.ArrowFreeGraphEdgesArePerPairSums | AtlasNet/runtime/cartograph/src/app/components/CircularNodeGraphPanel.tsx:66-106 | when neither s nor any shard id contains "->", the panel as written has an edge s to t iff some row links s to t, and that edge sums those rows' rates |
| NodeGraph.ArrowKeyTellsPairsApart | AtlasNet/runtime/cartograph/src/app/components/CircularNodeGraphPanel.tsx:86 | two arrow keys whose source ids hold no "->" are equal iff their pairs are |
| NodeGraph.ShorterSourceDiffers | AtlasNet/runtime/cartograph/src/app/components/CircularNodeGraphPanel.tsx:86 | a key with a shorter source id than an arrow-free one differs from that one's key |
| NodeGraph.ArrowFreeSourcesSeparate | AtlasNet/runtime/cartograph/src/app/components/CircularNodeGraphPanel.tsx:86 | with arrow-free source ids, no other contributing pair shares the arrow key of (s, t) |
| NodeGraph.ContributionSources | AtlasNet/runtime/cartograph/src/app/components/CircularNodeGraphPanel.tsx:76-82 | every contribution comes from one of the reporting shards |
| NodeGraph.EdgesOfKeyedEntries | AtlasNet/runtime/cartograph/src/app/components/CircularNodeGraphPanel.tsx:105 | in a keyed map with distinct keys, an edge joining (s, t) is the entry under their key, and an entry under that key for that pair is one of the edges |
| NodeGraph.GraphEdgesAreDistinctPairs | AtlasNet/runtime/cartograph/src/app/components/CircularNodeGraphPanel.tsx:105 | whatever the key, no two edges join the same ordered pair |
| NodeGraph.PanelEdgesArePerPairSums | AtlasNet/runtime/cartograph/src/app/components/CircularNodeGraphPanel.tsx:66-106 | the graph has an edge s to t iff some row links s to t, and that edge sums those rows' rates |
| NodeGraph.PanelEdgesAreDistinctPairs | AtlasNet/runtime/cartograph/src/app/components/CircularNodeGraphPanel.tsx:105 | no two edges join the same ordered pair |
| NodeGraph.ArrowKeyMergesDistinctPairs | AtlasNet/runtime/cartograph/src/app/components/CircularNodeGraphPanel.tsx:86 | with the string key as written, two different links collapse into one edge where the pair-keyed graph has two |
| EntityDetails.StringArraysEqual | AtlasNet/runtime/cartograph/src/app/map/entityInspector/useEntityDatabaseDetails.ts:21-31 | true iff the arrays are equal |
| EntityDetails.LookupResponsesEqual | AtlasNet/runtime/cartograph/src/app/map/entityInspector/useEntityDatabaseDetails.ts:33-89 | equal responses agree on every string field, the flag, the terms and the lengths |
| EntityDetails.LookupResponsesEqualIsEquality | AtlasNet/runtime/cartograph/src/app/map/entityInspector/useEntityDatabaseDetails.ts:33-89 | the comparison is value equality, except that a response holding a NaN equals nothing |
| EntityDetails.LookupResponsesEqualIsSymmetric | AtlasNet/runtime/cartograph/src/app/map/entityInspector/useEntityDatabaseDetails.ts:33-89 | swapping the arguments never changes the answer |
| EntityDetails.ApplyPayload | AtlasNet/runtime/cartograph/src/app/map/entityInspector/useEntityDatabaseDetails.ts:146-160 | after a fetch the state is settled and shows a response |
| EntityDetails.ApplyPayloadShowsPayload | AtlasNet/runtime/cartograph/src/app/map/entityInspector/useEntityDatabaseDetails.ts:146-160 | the fetched response is always what is shown, NaN fields included; the state is kept only when it already showed that response and holds no NaN |
| EntityDetails.PollIsOnForShortPositiveIntervals | AtlasNet/runtime/cartograph/src/app/map/entityInspector/useEntityDatabaseDetails.ts:178-183 | polling is on exactly for finite intervals strictly between 0 and 5000 ms |
| RedisConnect.NotClusterErrorIgnoresCase | libs/Database/src/Redis/Redis.cpp:11-22 | the test ignores letter case and holds iff either phrase occurs in the lower-cased message |
| RedisConnect.PhraseAnywhereIsRecognised | libs/Database/src/Redis/Redis.cpp:18-21 | either phrase, in any case, anywhere in the message, is recognised |
| RedisConnect.Cached | libs/Database/src/Redis/Redis.cpp:61-67 | a cached connection is reused only while it is still alive |
| RedisConnect.RetryLoop | libs/Database/src/Redis/Redis.cpp:69-114 | the first successful attempt wins; at most max_retries+1 attempts; a sleep follows each failure that is retried, when the interval is positive |
| RedisConnect.ConnectAsWritten | libs/Database/src/Redis/Redis.cpp:51-115 | a live cached connection is returned without any attempt; otherwise the retry loop runs and a new connection is emplaced |
| RedisConnect.EmplaceKeepsDeadEntry | libs/Database/src/Redis/Redis.cpp:95 | once the cached connection has died, the new one is never cached |
| RedisConnect.Connect | libs/Database/src/Redis/Redis.cpp:51-115 | the corrected Connect, with line 95 storing by replacement (see Findings): a live cached connection is returned without any attempt; otherwise the first success replaces the cache entry, so the next call reuses it, or after max_retries+1 failures the error is rethrown with the cache unchanged |
| RedisConnect.StoreCachesNewConnection | libs/Database/src/Redis/Redis.cpp:95 | storing with replacement makes the new connection the one the next call reuses, and leaves other options alone |
| RedisConnect.NonClusterOptions | libs/Database/src/Redis/Redis.cpp:116-125 | the options of a standalone server at the address and port |
| InternalDB.ResolveRedisHost | AtlasNet/lib/Native/InternalDB/InternalDB.cpp:10-18 | a set, non-empty variable wins; otherwise the default |
| InternalDB.StrtolWhole | AtlasNet/lib/Native/InternalDB/InternalDB.cpp:25-27 | a whole-text read gives a signed decimal value taken from a trailing run of digits |
| InternalDB.StrtolWholeIsWholeNumber | AtlasNet/lib/Native/InternalDB/InternalDB.cpp:25-27 | the text is read iff it is white space, at most one sign and at least one digit with nothing after, and the value read is those digits, negated after a minus sign |
| InternalDB.WholeNumberIsUnique | AtlasNet/lib/Native/InternalDB/InternalDB.cpp:25-27 | the sign position of such a text is where strtol's skipping of white space stops, and the read gives that text's signed value |
| InternalDB.SkipSpacesStopsAt | AtlasNet/lib/Native/InternalDB/InternalDB.cpp:26 | skipping white space stops at the first character that is not white space |
| InternalDB.ResolveRedisPort | AtlasNet/lib/Native/InternalDB/InternalDB.cpp:20-33 | the result is the default or a port in 1..65535, and the default when unset or empty |
| InternalDB.PortRoundTrip | AtlasNet/lib/Native/InternalDB/InternalDB.cpp:20-33 | every valid port written in decimal is taken as is |
| InternalDB.LeadingSpaceAndSignAccepted | AtlasNet/lib/Native/InternalDB/InternalDB.cpp:26 | leading white space and a plus sign are accepted |
| InternalDB.TrailingTextRejected | AtlasNet/lib/Native/InternalDB/InternalDB.cpp:27 | text after the digits makes the default win |
| InternalDB.OutOfRangeRejected | AtlasNet/lib/Native/InternalDB/InternalDB.cpp:27 | 0 and values above 65535 make the default win |
| InternalDB.ConstructHonoursEnvironment | AtlasNet/lib/Native/InternalDB/InternalDB.cpp:36-40 | the constructor connects to the environment's host and valid port, or to the defaults when both are unset |

## Left out

- **I/O and clocks.** Redis clients, sockets, HTTP, React state and timers,
  loggers and clocks are not modelled. Every reply, attempt outcome,
  environment variable and current time is a parameter. Sleeps and network
  actions are returned as effects and never performed.
- **Abstract parameters:**
  - JavaScript's `Number()` on strings is the abstract `parse`;
  - `localeCompare` is an abstract total order `le`;
  - `std::stof` is the abstract `floatParses`;
  - a network identity's text form is the abstract `show`.
- **Snapshot limits.** `MAX_PAYLOAD_CHARS` and `MAX_KEYS_PER_DB` come from a
  configuration module that is not part of this model, so they are
  parameters.
- **Snapshot source.** `probeDatabase` and `createRedisClient` are only
  connection plumbing.
- **Snapshot scan.** The cursor value itself is not modelled, only whether a
  page ends the scan. A failed SCAN ends the read with an error. The SCAN
  replies are a finite input list; running out of them before cursor "0"
  stands for a scan that never ends, and is reported as an error.
- **Snapshot record order.** `readDatabaseRecords` returns records by
  metadata order, one per metadata item, so a repeated key yields its
  record once per occurrence.
- **Snapshot duplicate keys.** SCAN may return a key more than once, and
  `scanAllKeys` keeps such repeats. The operations handle repeats as the
  source does: a later map write wins, and every outcome addressed to a key
  is applied to its one record in turn. The per-key lemmas below assume
  distinct keys, and nothing is stated about the payload a repeated key
  ends with:
  - SnapshotPopulate.PopulateOfDistinctKey, StageOfDistinctKey,
    KeyOutsideBucket, NoFetchMarker, StringValue, BucketFailureMarksItsKeys
    and PipelinedKeyReadsItsReply require DistinctKeys;
  - SnapshotPopulate.BucketKeysDistinct carries distinctness from the
    metadata into a bucket;
  - SnapshotRecords.ApplyAllToOnce requires the key to occur once in the
    batch.
- **Entity inspector types.** The response types come from `types.ts`, which
  is not part of this model. Their field types are taken from the
  comparison code.
- **Entity inspector fetch errors.** The error and abort paths of the fetch
  only set `error` or do nothing. They are not modelled beyond the state
  record.
- **Telemetry keys.** The Redis key names and `HGETALL` plumbing of
  `readNetworkTelemetry` are left out. The model starts from the
  id/health/row vectors.
- **Authority tracker.** `std::unordered_map` iteration order is left
  unspecified, and the methods only promise some enumeration of the map.
  The default authority state of a new entry is taken to be other than
  passing, so a new entry becomes authoritative. The header that declares it
  is not part of this model.
- **Lease coordinator.** Failures of the store's SET, EXPIRE and DEL calls
  are ignored by the source, and the store is a map from key to value and
  TTL. Times are integers in milliseconds. The store's own expiry of keys
  is not modelled, so neither is a lease that expires between a GET and
  the write after it (for ReleaseIfOwned, between its GET and its DEL).
  Interleaving is modelled for acquisition only; see Findings.
- **Connection manager.** The header declares members the .cpp never
  uses. The model follows the .cpp. `steady_clock` time is an integer in
  milliseconds.
- **Transfer mailbox.** Ticks are `uint64`, modelled as `nat`. Nothing
  near the wrap-around is reachable in practice.
- **God messages.** Logging of rejected messages is not modelled. Numbers
  above `INT_MAX` fail as `std::stoi` would throw; the source catches that.
- **Interlink identifiers:**
  - the `std::hash` specialisation is left out, because it is only a hash;
  - the 32-byte encoded stream is left out, because its helpers are
    declared but not defined in the files modelled;
  - `ByteWriter`/`ByteReader` are modelled as a sequence of scalar and
    string fields.
- **AABB tree geometry.** `AABB.hpp` is not part of this model. Boxes are
  integer 3-D boxes with inclusive bounds.
- **AABB rayQuery.** It is left out, because ray intersection works on
  floating point.
- **AABB nth_element.** It is modelled as a full sort by centre. That is
  one of the arrangements it may produce, and the query results do not
  depend on the arrangement, as ObjectsOfPermutation shows.
- **Database connection:**
  - `Redis.hpp` is not part of this model; the cache is taken to be a map
    from options to weak pointers, as `.lock()` on its entries shows;
  - the connection pool size is left out;
  - the cluster and standalone client constructors become one abstract
    attempt outcome.
- **InternalDB defaults.** The defaults `_INTERNAL_REDIS_SERVICE_NAME` and
  `_INTERNAL_REDIS_PORT` are compile-time macros, so they are parameters.
  An environment value is the text up to its first NUL.
- InternalDB.StrtolWhole: does not model strtol's clamping of values
  beyond `long`, because such values fail the port range check either way.
- InterlinkIdentifiers.Deserialize: fails on a type code outside -1..5,
  whereas `read_scalar<InterlinkType>` does no check and yields an enum
  value that names no type. The model's InterlinkType has only the seven
  named values, so such a value has no counterpart.
- NetworkTelemetry.ComputeShardAverages: JavaScript numbers are modelled as
  exact reals. IEEE-754 rounding of the sums and quotients is not modelled,
  and neither is overflow to Infinity: in the source, `1e308 + 1e308` is
  Infinity, so such a shard's average is Infinity, not the exact mean.
- NodeGraph.Merge: the same holds for the summed rates of a merged edge.
  They are exact sums of reals, with no IEEE-754 rounding and no overflow
  to Infinity.
- Sorting.Sort: its contract states sortedness and a permutation, but not
  the stability that `Array.prototype.sort` guarantees. Elements the order
  ranks equal may therefore come out in any relative order.
- EntityDetails.LookupResponsesEqual: its own contract states only the
  consequences of equality. The full characterisation is
  LookupResponsesEqualIsEquality.

## Findings

| source | as written | input that shows it | evidently intended | confidence | as-written member | corrected member |
|---|---|---|---|---|---|---|
| AtlasNet/runtime/cartograph/src/app/components/CircularNodeGraphPanel.tsx:86 | edges are keyed by the string `${sourceId}->${targetId}` | shards "a", "a->b", "b->c", "c", with links a to "b->c" and "a->b" to c: both give the key "a->b->c" | one edge per ordered pair of shards | low: shard ids rarely contain "->"; not executed | NodeGraph.ArrowKeyMergesDistinctPairs | NodeGraph.PanelEdgesArePerPairSums |
| libs/Database/src/Redis/Redis.cpp:95 | a new connection is cached with `map::emplace`, which keeps an existing entry | the cached connection for some options has expired, so the next Connect builds a new one, and emplace keeps the dead weak pointer | the new connection replaces the dead entry, so the following call reuses it | medium: the connection still works, but every later call reconnects; not executed | RedisConnect.ConnectAsWritten, RedisConnect.EmplaceKeepsDeadEntry | RedisConnect.Connect, RedisConnect.StoreCachesNewConnection |
| AtlasNet/runtime/shard/src/EntityHandoff/HandoffConnectionLeaseCoordinator.cpp:39 | a free lease is taken with a GET followed by a plain SET (no NX), in separate round trips | shards a and b both GET the absent key, then both SET it: both calls return true and the key ends holding b | SET NX with the TTL, so that only the first writer takes the lease | high: two shards can both believe they own the connection; not executed | LeaseCoordinator.WriteLeaseAsWritten, LeaseCoordinator.InterleavedAcquiresBothSucceed | LeaseCoordinator.WriteLease, LeaseCoordinator.InterleavedAcquiresExclusive |
| libs/AtlasNet/Global/src/Types/AABBTree.hpp:96-119 | buildRecursive stops only at a range of exactly one item | build of an empty list calls buildRecursive(items, 0, 0), whose count 0 gives mid 0 and the same call again, until the stack runs out | an empty list builds a tree with root -1, which every query already treats as empty | medium: a crash on building over no items; not executed | AabbTree.SplitRange, AabbTree.EmptyRangeRecursesOnItself | AabbTree.BuildTree, AabbTree.BuiltTreeQueriesAreExact |

=== FILE: aabb_tree.dfy ===
/**
 * A bounding-volume hierarchy over axis-aligned boxes in three integer
 * dimensions. The tree is a flat array of nodes: a leaf holds one object, an
 * internal node the indices of its two children, and every node the hull of
 * the boxes below it. Building splits the items at the median centre along
 * the longest axis; a query walks down from the root, pruning every subtree
 * whose bounds miss the query.
 */
module AabbTree {
  import opened Wrappers
  import opened Sorting

  // ---------------------------------------------------------------------------
  // Boxes
  // ---------------------------------------------------------------------------

  datatype Point = Point(x: int, y: int, z: int)

  function Coord(p: Point, axis: nat): int
    requires axis < 3
  {
    if axis == 0 then p.x else if axis == 1 then p.y else p.z
  }

  /** A box, or the empty box a node's bounds start from before any item is added. */
  datatype Box = Empty | Box(lo: Point, hi: Point)

  function Min(a: int, b: int): int {
    if a <= b then a else b
  }

  function Max(a: int, b: int): int {
    if a <= b then b else a
  }

  /** `a` lies within `b` on every axis (the empty box lies within everything). */
  predicate Inside(a: Box, b: Box) {
    a.Empty? ||
    (b.Box? && b.lo.x <= a.lo.x && b.lo.y <= a.lo.y && b.lo.z <= a.lo.z
            && a.hi.x <= b.hi.x && a.hi.y <= b.hi.y && a.hi.z <= b.hi.z)
  }

  /** `expand`: the smallest box holding both. */
  function Expand(a: Box, b: Box): (r: Box)
    ensures Inside(a, r) && Inside(b, r)
    ensures forall c :: Inside(a, c) && Inside(b, c) ==> Inside(r, c)
  {
    if a.Empty? then b
    else if b.Empty? then a
    else Box(Point(Min(a.lo.x, b.lo.x), Min(a.lo.y, b.lo.y), Min(a.lo.z, b.lo.z)),
             Point(Max(a.hi.x, b.hi.x), Max(a.hi.y, b.hi.y), Max(a.hi.z, b.hi.z)))
  }

  /** `intersects`: closed intervals overlapping on every axis. */
  predicate Intersects(a: Box, b: Box) {
    a.Box? && b.Box?
    && a.lo.x <= b.hi.x && b.lo.x <= a.hi.x
    && a.lo.y <= b.hi.y && b.lo.y <= a.hi.y
    && a.lo.z <= b.hi.z && b.lo.z <= a.hi.z
  }

  /** `contains` for a point. */
  predicate ContainsPoint(b: Box, p: Point) {
    b.Box? && b.lo.x <= p.x <= b.hi.x && b.lo.y <= p.y <= b.hi.y && b.lo.z <= p.z <= b.hi.z
  }

  /** A test on node bounds that a larger box passes whenever a smaller one does. */
  ghost predicate Monotone(hit: Box -> bool) {
    forall a, b :: Inside(a, b) && hit(a) ==> hit(b)
  }

  function IntersectsBox(query: Box): Box -> bool {
    b => Intersects(b, query)
  }

  function HoldsPoint(p: Point): Box -> bool {
    b => ContainsPoint(b, p)
  }

  function Always(): Box -> bool {
    b => true
  }

  /** Box intersection and point containment are the tests a hull can prune on. */
  lemma TestsAreMonotone(query: Box, p: Point)
    ensures Monotone(IntersectsBox(query)) && Monotone(HoldsPoint(p)) && Monotone(Always())
  {
  }

  // ---------------------------------------------------------------------------
  // Items, nodes, trees
  // ---------------------------------------------------------------------------

  datatype Item = Item(bounds: Box, objectIndex: int)

  /** A node; `objectIndex` (the source's `object`) is -1 except in leaves, `left`/`right` are -1 in leaves. */
  datatype Node = Node(bounds: Box, objectIndex: int, left: int, right: int)

  /** isLeaf: both child indices negative. */
  predicate IsLeaf(n: Node) {
    n.left < 0 && n.right < 0
  }

  /** Every internal node's children come earlier in the array, so walking down always ends. */
  predicate WellFormed(nodes: seq<Node>) {
    forall i :: 0 <= i < |nodes| ==>
      IsLeaf(nodes[i]) || (0 <= nodes[i].left < i && 0 <= nodes[i].right < i)
  }

  /** A node array and its root index; -1 for a tree never built. */
  datatype Tree = Tree(nodes: seq<Node>, root: int)

  predicate ValidTree(t: Tree) {
    WellFormed(t.nodes) && t.root < |t.nodes|
  }

  function EmptyTree(): (r: Tree)
    ensures ValidTree(r) && r.root < 0
  {
    Tree([], -1)
  }

  /** The bounds loop of buildRecursive: every item's box expanded into an empty one, in order. */
  function Hull(items: seq<Item>): Box {
    if |items| == 0 then Empty
    else Expand(Hull(items[..|items| - 1]), items[|items| - 1].bounds)
  }

  /** The bounds loop's box contains every item's box. */
  lemma {:induction false} HullContainsItems(items: seq<Item>)
    ensures forall k :: 0 <= k < |items| ==> Inside(items[k].bounds, Hull(items))
  {
    if |items| > 0 {
      var front := items[..|items| - 1];
      HullContainsItems(front);
      forall k | 0 <= k < |items| - 1
        ensures Inside(items[k].bounds, Hull(items))
      {
        assert items[k] == front[k];
        InsideIsTransitive(items[k].bounds, Hull(front), Hull(items));
      }
    }
  }

  lemma InsideIsTransitive(a: Box, b: Box, c: Box)
    requires Inside(a, b) && Inside(b, c)
    ensures Inside(a, c)
  {
  }

  /** The split axis: the largest extent, the earlier axis on ties. */
  function SplitAxis(b: Box): (r: nat)
    ensures r < 3
  {
    if b.Empty? then 0
    else
      var first := if Coord(b.hi, 1) - Coord(b.lo, 1) > Coord(b.hi, 0) - Coord(b.lo, 0) then 1 else 0;
      if Coord(b.hi, 2) - Coord(b.lo, 2) > Coord(b.hi, first) - Coord(b.lo, first) then 2 else first
  }

  /** Twice an item's centre along `axis`; comparing these compares centres. */
  function CenterKey(it: Item, axis: nat): int
    requires axis < 3
  {
    if it.bounds.Box? then Coord(it.bounds.lo, axis) + Coord(it.bounds.hi, axis) else 0
  }

  function ByCenter(axis: nat): (Item, Item) -> bool
    requires axis < 3
  {
    (a: Item, b: Item) => CenterKey(a, axis) <= CenterKey(b, axis)
  }

  lemma ByCenterIsTotalPreorder(axis: nat)
    requires axis < 3
    ensures TotalPreorder(ByCenter(axis))
  {
  }

  /**
   * The `nth_element` partition around the middle: the model places the items
   * in full centre order, which is one of the arrangements `nth_element` may
   * leave (everything before the middle no greater, everything after no less).
   */
  function Arrange(items: seq<Item>, axis: nat): (r: seq<Item>)
    requires axis < 3
    ensures multiset(r) == multiset(items) && |r| == |items|
    ensures forall i, j :: 0 <= i < j < |r| ==> CenterKey(r[i], axis) <= CenterKey(r[j], axis)
  {
    ByCenterIsTotalPreorder(axis);
    Sort(items, ByCenter(axis))
  }

  /**
   * buildRecursive over the items of one range: the node of a single item is
   * a leaf; otherwise the two halves are built (left first) and the parent is
   * appended after them. Returns the extended array and the new node's index.
   */
  function BuildRec(items: seq<Item>, nodes: seq<Node>): (r: (seq<Node>, int))
    requires |items| >= 1
    ensures |r.0| == |nodes| + 2 * |items| - 1
    ensures r.0[..|nodes|] == nodes
    ensures r.1 == |r.0| - 1
    ensures r.0[r.1].bounds == Hull(items)
    ensures WellFormed(nodes) ==> WellFormed(r.0)
    decreases |items|
  {
    var bounds := Hull(items);
    if |items| == 1 then
      var leaf := Node(bounds, items[0].objectIndex, -1, -1);
      AppendKeepsWellFormed(nodes, leaf);
      assert (nodes + [leaf])[|nodes|] == leaf;
      (nodes + [leaf], |nodes|)
    else
      var arranged := Arrange(items, SplitAxis(bounds));
      var mid := |items| / 2;
      var (afterLeft, left) := BuildRec(arranged[..mid], nodes);
      var (afterRight, right) := BuildRec(arranged[mid..], afterLeft);
      var parent := Node(bounds, -1, left, right);
      AppendParent(nodes, afterLeft, afterRight, parent, mid, |items| - mid);
      (afterRight + [parent], |afterRight|)
  }

  /**
   * Two subtrees built one after the other onto `nodes`, then their parent:
   * the array grows by both subtrees and the parent, keeps `nodes` in front,
   * ends with the parent, and stays well formed.
   */
  lemma AppendParent(nodes: seq<Node>, afterLeft: seq<Node>, afterRight: seq<Node>, parent: Node, nl: nat, nr: nat)
    requires nl >= 1 && nr >= 1
    requires |afterLeft| == |nodes| + 2 * nl - 1 && afterLeft[..|nodes|] == nodes
    requires |afterRight| == |afterLeft| + 2 * nr - 1 && afterRight[..|afterLeft|] == afterLeft
    requires parent.left == |afterLeft| - 1 && parent.right == |afterRight| - 1
    requires WellFormed(nodes) ==> WellFormed(afterLeft)
    requires WellFormed(afterLeft) ==> WellFormed(afterRight)
    ensures var r := afterRight + [parent];
            && |r| == |nodes| + 2 * (nl + nr) - 1 && r[..|nodes|] == nodes && r[|afterRight|] == parent
            && (WellFormed(nodes) ==> WellFormed(r))
  {
    assert afterRight[..|nodes|] == afterRight[..|afterLeft|][..|nodes|];
    assert (afterRight + [parent])[..|nodes|] == afterRight[..|nodes|];
    AppendKeepsWellFormed(afterRight, parent);
  }

  /** Appending a leaf, or a node whose children are already in the array, keeps it well formed. */
  lemma AppendKeepsWellFormed(nodes: seq<Node>, n: Node)
    requires IsLeaf(n) || (0 <= n.left < |nodes| && 0 <= n.right < |nodes|)
    ensures WellFormed(nodes) ==> WellFormed(nodes + [n])
  {
    if WellFormed(nodes) {
      forall i | 0 <= i < |nodes + [n]|
        ensures IsLeaf((nodes + [n])[i]) || (0 <= (nodes + [n])[i].left < i && 0 <= (nodes + [n])[i].right < i)
      {
        if i < |nodes| {
          assert (nodes + [n])[i] == nodes[i];
        }
      }
    }
  }

  /**
   * The range arithmetic of buildRecursive on [begin, end), as written: a
   * range of one item makes a leaf (none here); any other range recurses on
   * [begin, mid) and [mid, end) with mid = begin + count / 2. Nothing
   * stops an empty range.
   */
  function SplitRange(begin: int, end: int): (r: Option<((int, int), (int, int))>)
    requires begin <= end
    ensures r.None? <==> end - begin == 1
    ensures r.Some? ==> r.value.0.0 == begin && r.value.0.1 == r.value.1.0 && r.value.1.1 == end
    ensures r.Some? ==> begin <= r.value.0.1 <= end
    ensures end - begin >= 2 ==> r.Some? && begin < r.value.0.1 < end
  {
    var count := end - begin;
    if count == 1 then None else Some(((begin, begin + count / 2), (begin + count / 2, end)))
  }

  /** build of no items: the empty range's left half is the empty range itself, so the recursion never ends. */
  lemma EmptyRangeRecursesOnItself(begin: int)
    ensures SplitRange(begin, begin) == Some(((begin, begin), (begin, begin)))
  {
  }

  /** Every range of two or more items splits into two non-empty, strictly smaller ranges, as BuildRec's halves. */
  lemma LongRangesShrink(begin: int, end: int)
    requires end - begin >= 2
    ensures var halves := SplitRange(begin, end).value;
            && 0 < halves.0.1 - halves.0.0 < end - begin
            && 0 < halves.1.1 - halves.1.0 < end - begin
            && halves.0.1 - begin == (end - begin) / 2
  {
  }

  /**
   * build as intended: no items leave the tree empty (root -1, as a tree
   * never built), any other list is built by buildRecursive.
   */
  function BuildTree(items: seq<Item>): (r: Tree)
    ensures ValidTree(r)
    ensures r.root < 0 <==> |items| == 0
    ensures |items| == 0 ==> r == EmptyTree()
    ensures |items| >= 1 ==> |r.nodes| == 2 * |items| - 1 && r.nodes[r.root].bounds == Hull(items)
  {
    if |items| == 0 then EmptyTree() else Build(items)
  }

  /** build on one or more items: the range recursion of buildRecursive always reaches single items. */
  function Build(items: seq<Item>): (r: Tree)
    requires |items| >= 1
    ensures ValidTree(r) && r.root >= 0 && |r.nodes| == 2 * |items| - 1
    ensures r.nodes[r.root].bounds == Hull(items)
  {
    var (nodes, root) := BuildRec(items, []);
    Tree(nodes, root)
  }

  // ---------------------------------------------------------------------------
  // Queries
  // ---------------------------------------------------------------------------

  /**
   * The recursive walk shared by query and queryPoint: a node whose bounds
   * fail the test is pruned with everything below it; a leaf that passes
   * reports its object; an internal node that passes walks left, then right.
   */
  function Visit(nodes: seq<Node>, i: int, hit: Box -> bool): seq<int>
    requires WellFormed(nodes) && 0 <= i < |nodes|
    decreases i
  {
    var n := nodes[i];
    if !hit(n.bounds) then []
    else if IsLeaf(n) then [n.objectIndex]
    else Visit(nodes, n.left, hit) + Visit(nodes, n.right, hit)
  }

  /** query: nothing on a tree never built. */
  function Query(t: Tree, box: Box): seq<int>
    requires ValidTree(t)
  {
    if t.root < 0 then [] else Visit(t.nodes, t.root, IntersectsBox(box))
  }

  /** queryPoint: the objects reported, and whether any leaf was reached. */
  function QueryPoint(t: Tree, p: Point): (seq<int>, bool)
    requires ValidTree(t)
  {
    if t.root < 0 then ([], false)
    else
      var reported := Visit(t.nodes, t.root, HoldsPoint(p));
      (reported, |reported| > 0)
  }

  /** The reference answer: the objects of the items whose boxes pass the test, in item order. */
  function Objects(items: seq<Item>, hit: Box -> bool): (r: seq<int>)
    ensures |r| <= |items|
    ensures |r| > 0 <==> exists k :: 0 <= k < |items| && hit(items[k].bounds)
  {
    if |items| == 0 then []
    else
      var rest := Objects(items[1..], hit);
      assert forall k :: 1 <= k < |items| ==> items[k] == items[1..][k - 1];
      (if hit(items[0].bounds) then [items[0].objectIndex] else []) + rest
  }

  lemma {:induction false} ObjectsAppend(a: seq<Item>, b: seq<Item>, hit: Box -> bool)
    ensures Objects(a + b, hit) == Objects(a, hit) + Objects(b, hit)
    decreases |a|
  {
    if |a| > 0 {
      assert (a + b)[1..] == a[1..] + b;
      ObjectsAppend(a[1..], b, hit);
    } else {
      assert a + b == b;
    }
  }

  /** Taking the same element out of two permutations of each other leaves permutations. */
  lemma RemoveMatching(a: seq<Item>, b: seq<Item>, j: nat)
    requires multiset(a) == multiset(b) && |a| > 0 && j < |b| && b[j] == a[0]
    ensures multiset(a[1..]) == multiset(b[..j] + b[j + 1..])
  {
    var x := a[0];
    assert a == [x] + a[1..];
    assert b == b[..j] + [x] + b[j + 1..];
    assert multiset(a[1..]) == multiset(a) - multiset{x};
    assert multiset(b[..j] + b[j + 1..]) == multiset(b) - multiset{x};
  }

  lemma SplitAround<T>(b: seq<T>, j: nat)
    requires j < |b|
    ensures b[..j] + ([b[j]] + b[j + 1..]) == b
  {
  }

  lemma MovedFront(h: seq<int>, p: seq<int>, q: seq<int>)
    ensures multiset(h + (p + q)) == multiset(p + (h + q))
  {
  }

  /** Reordering the items only reorders the reference answer. */
  lemma {:induction false} ObjectsOfPermutation(a: seq<Item>, b: seq<Item>, hit: Box -> bool)
    requires multiset(a) == multiset(b)
    ensures multiset(Objects(a, hit)) == multiset(Objects(b, hit))
    decreases |a|
  {
    if |a| == 0 {
      assert |b| == |multiset(b)| == 0;
    } else {
      var x := a[0];
      assert x in multiset(b);
      var j :| 0 <= j < |b| && b[j] == x;
      var rest := b[..j] + b[j + 1..];
      var tail := [x] + b[j + 1..];
      var h := if hit(x.bounds) then [x.objectIndex] else [];
      RemoveMatching(a, b, j);
      ObjectsOfPermutation(a[1..], rest, hit);
      ObjectsAppend(b[..j], tail, hit);
      ObjectsAppend(b[..j], b[j + 1..], hit);
      assert tail[1..] == b[j + 1..];
      SplitAround(b, j);
      assert Objects(tail, hit) == h + Objects(b[j + 1..], hit);
      assert Objects(a, hit) == h + Objects(a[1..], hit);
      var p, q := Objects(b[..j], hit), Objects(b[j + 1..], hit);
      assert Objects(b, hit) == p + (h + q);
      assert multiset(Objects(a[1..], hit)) == multiset(p + q);
      MovedFront(h, p, q);
    }
  }

  /** Nodes appended later do not change what a walk from an earlier node sees. */
  lemma {:induction false} VisitOfPrefix(a: seq<Node>, b: seq<Node>, i: int, hit: Box -> bool)
    requires WellFormed(a) && WellFormed(b) && |a| <= |b| && b[..|a|] == a && 0 <= i < |a|
    ensures Visit(b, i, hit) == Visit(a, i, hit)
    decreases i
  {
    assert b[i] == b[..|a|][i] == a[i];
    if hit(a[i].bounds) && !IsLeaf(a[i]) {
      VisitOfPrefix(a, b, a[i].left, hit);
      VisitOfPrefix(a, b, a[i].right, hit);
    }
  }

  /** The reference answers of the two halves of a rearrangement make up the whole one. */
  lemma HalvesMakeWhole(items: seq<Item>, arranged: seq<Item>, mid: nat, hit: Box -> bool)
    requires multiset(arranged) == multiset(items) && mid <= |arranged|
    ensures multiset(Objects(arranged[..mid], hit)) + multiset(Objects(arranged[mid..], hit))
            == multiset(Objects(items, hit))
  {
    assert arranged[..mid] + arranged[mid..] == arranged;
    ObjectsAppend(arranged[..mid], arranged[mid..], hit);
    ObjectsOfPermutation(arranged, items, hit);
  }

  /** The walk from a parent appended after its two subtrees is the walk of the left subtree, then the right. */
  lemma VisitParent(afterLeft: seq<Node>, left: int, afterRight: seq<Node>, right: int, bounds: Box, hit: Box -> bool)
    requires WellFormed(afterLeft) && WellFormed(afterRight)
    requires |afterLeft| <= |afterRight| && afterRight[..|afterLeft|] == afterLeft
    requires 0 <= left < |afterLeft| && 0 <= right < |afterRight|
    requires WellFormed(afterRight + [Node(bounds, -1, left, right)]) && hit(bounds)
    ensures var built := afterRight + [Node(bounds, -1, left, right)];
            Visit(built, |afterRight|, hit) == Visit(afterLeft, left, hit) + Visit(afterRight, right, hit)
  {
    var built := afterRight + [Node(bounds, -1, left, right)];
    assert built[..|afterRight|] == afterRight;
    VisitOfPrefix(afterRight, built, right, hit);
    VisitOfPrefix(afterLeft, afterRight, left, hit);
    VisitOfPrefix(afterRight, built, left, hit);
  }

  /**
   * The walk over a freshly built subtree reports, up to order, exactly the
   * objects of the items it was built from whose boxes pass the test.
   */
  lemma {:induction false} BuildRecVisit(items: seq<Item>, nodes: seq<Node>, hit: Box -> bool)
    requires |items| >= 1 && WellFormed(nodes) && Monotone(hit)
    ensures var (built, id) := BuildRec(items, nodes);
            multiset(Visit(built, id, hit)) == multiset(Objects(items, hit))
    decreases |items|
  {
    var (built, id) := BuildRec(items, nodes);
    var bounds := Hull(items);
    if !hit(bounds) {
      HullContainsItems(items);
      assert forall k :: 0 <= k < |items| ==> !hit(items[k].bounds);
    } else if |items| == 1 {
      assert items[..0] == [];
      assert Hull(items) == Expand(Hull(items[..0]), items[0].bounds);
      assert bounds == items[0].bounds;
    } else {
      var arranged := Arrange(items, SplitAxis(bounds));
      var mid := |items| / 2;
      var (afterLeft, left) := BuildRec(arranged[..mid], nodes);
      var (afterRight, right) := BuildRec(arranged[mid..], afterLeft);
      BuildRecVisit(arranged[..mid], nodes, hit);
      BuildRecVisit(arranged[mid..], afterLeft, hit);
      VisitParent(afterLeft, left, afterRight, right, bounds, hit);
      HalvesMakeWhole(items, arranged, mid, hit);
    }
  }

  /** query reports, up to order, exactly the items whose boxes intersect the query box. */
  lemma QueryIsExact(items: seq<Item>, box: Box)
    requires |items| >= 1
    ensures multiset(Query(Build(items), box)) == multiset(Objects(items, IntersectsBox(box)))
  {
    TestsAreMonotone(box, Point(0, 0, 0));
    BuildRecVisit(items, [], IntersectsBox(box));
  }

  /** queryPoint reports exactly the items whose boxes hold the point, and answers true iff there is one. */
  lemma QueryPointIsExact(items: seq<Item>, p: Point)
    requires |items| >= 1
    ensures multiset(QueryPoint(Build(items), p).0) == multiset(Objects(items, HoldsPoint(p)))
    ensures QueryPoint(Build(items), p).1 <==> exists k :: 0 <= k < |items| && ContainsPoint(items[k].bounds, p)
  {
    TestsAreMonotone(Empty, p);
    BuildRecVisit(items, [], HoldsPoint(p));
    var reported := QueryPoint(Build(items), p).0;
    var expected := Objects(items, HoldsPoint(p));
    assert |reported| == |multiset(reported)| == |multiset(expected)| == |expected|;
  }

  /** Every item's object sits in exactly one leaf: the leaves hold the items' objects, each once. */
  lemma LeavesHoldEachItemOnce(items: seq<Item>)
    requires |items| >= 1
    ensures var t := Build(items);
            multiset(Visit(t.nodes, t.root, Always())) == multiset(Objects(items, Always()))
  {
    TestsAreMonotone(Empty, Point(0, 0, 0));
    BuildRecVisit(items, [], Always());
  }

  /** The intended build answers every query exactly, the empty item list included. */
  lemma BuiltTreeQueriesAreExact(items: seq<Item>, box: Box, p: Point)
    ensures multiset(Query(BuildTree(items), box)) == multiset(Objects(items, IntersectsBox(box)))
    ensures multiset(QueryPoint(BuildTree(items), p).0) == multiset(Objects(items, HoldsPoint(p)))
    ensures QueryPoint(BuildTree(items), p).1 <==> exists k :: 0 <= k < |items| && ContainsPoint(items[k].bounds, p)
  {
    if |items| == 0 {
      EmptyTreeFindsNothing(box, p);
    } else {
      QueryIsExact(items, box);
      QueryPointIsExact(items, p);
    }
  }

  /** A tree never built reports nothing and finds no point. */
  lemma EmptyTreeFindsNothing(box: Box, p: Point)
    ensures Query(EmptyTree(), box) == [] && QueryPoint(EmptyTree(), p) == ([], false)
  {
  }
}

=== FILE: connection_manager.dfy ===
/**
 * The handoff connection flap test: once initialised, a shard picks a peer
 * shard from the server registry and, at most once every five seconds,
 * alternately opens a connection to it (and pings it) and closes it again.
 * The clock is an integer count of milliseconds; the registry is the list of
 * registered identities in the order the registry yields them; what the
 * manager asks of the network layer is returned as a list of actions.
 */
module ConnectionManager {
  import opened Wrappers
  import opened NetworkIdentities

  /** `kConnectionFlapInterval`: five seconds. */
  const FlapIntervalMs: int := 5000

  datatype Manager = Manager(
    self: NetworkIdentity,
    initialized: bool,
    target: Option<NetworkIdentity>,
    active: bool,
    lastToggleMs: int)

  /** What the manager asks of the packet manager and the interlink layer. */
  datatype Action =
    | InitPackets(self: NetworkIdentity)
    | Connect(peer: NetworkIdentity)
    | Ping(peer: NetworkIdentity)
    | Close(peer: NetworkIdentity, code: int, reason: string)
    | ShutdownPackets

  /** A registered identity the test may pick: a shard other than this one. */
  predicate Eligible(id: NetworkIdentity, self: NetworkIdentity) {
    id.kind == ShardType && id != self
  }

  /** SelectTestTargetShard: the first eligible identity in registry order, or none. */
  function SelectTestTarget(self: NetworkIdentity, registry: seq<NetworkIdentity>): (r: Option<NetworkIdentity>)
    ensures r.None? <==> forall i :: 0 <= i < |registry| ==> !Eligible(registry[i], self)
    ensures r.Some? ==> exists i :: 0 <= i < |registry| && registry[i] == r.value && Eligible(r.value, self)
                          && forall j :: 0 <= j < i ==> !Eligible(registry[j], self)
  {
    if |registry| == 0 then None
    else if Eligible(registry[0], self) then Some(registry[0])
    else
      var rest := SelectTestTarget(self, registry[1..]);
      assert rest.Some? ==> exists i :: 0 <= i < |registry| && registry[i] == rest.value && Eligible(rest.value, self)
                              && forall j :: 0 <= j < i ==> !Eligible(registry[j], self) by {
        if rest.Some? {
          var i :| 0 <= i < |registry[1..]| && registry[1..][i] == rest.value && Eligible(rest.value, self)
                   && forall j :: 0 <= j < i ==> !Eligible(registry[1..][j], self);
          assert registry[i + 1] == rest.value;
          assert forall j :: 0 <= j < i + 1 ==> !Eligible(registry[j], self) by {
            forall j | 0 <= j < i + 1 ensures !Eligible(registry[j], self) {
              if j > 0 { assert registry[j] == registry[1..][j - 1]; }
            }
          }
        }
      }
      rest
  }

  /** A manager before Init. */
  function Fresh(self: NetworkIdentity, clockMs: int): (r: Manager)
    ensures !r.initialized && r.target.None? && !r.active
  {
    Manager(self, false, None, false, clockMs)
  }

  /**
   * Init: initialised, no test connection open, the last toggle placed one
   * interval in the past so that the next tick may act, the packet manager
   * started and a target chosen.
   */
  function Init(self: NetworkIdentity, nowMs: int, registry: seq<NetworkIdentity>): (r: (Manager, seq<Action>))
    ensures r.0.initialized && !r.0.active && r.0.self == self
    ensures nowMs - r.0.lastToggleMs == FlapIntervalMs
    ensures r.0.target == SelectTestTarget(self, registry)
    ensures r.1 == [InitPackets(self)]
  {
    (Manager(self, true, SelectTestTarget(self, registry), false, nowMs - FlapIntervalMs), [InitPackets(self)])
  }

  /** Tick acts only when initialised and a full interval has passed since the last toggle. */
  predicate Acts(m: Manager, nowMs: int) {
    m.initialized && nowMs - m.lastToggleMs >= FlapIntervalMs
  }

  /**
   * Tick: nothing before Init or within the interval. Otherwise the toggle
   * time becomes `now`; with no target the target is chosen again and
   * nothing else happens; with a target an idle test connection is opened
   * and pinged, an open one is closed.
   */
  function Tick(m: Manager, nowMs: int, registry: seq<NetworkIdentity>): (r: (Manager, seq<Action>))
    ensures !Acts(m, nowMs) ==> r == (m, [])
    ensures Acts(m, nowMs) ==> r.0.lastToggleMs == nowMs && r.0.initialized && r.0.self == m.self
    ensures Acts(m, nowMs) && m.target.None? ==>
              r.0.target == SelectTestTarget(m.self, registry) && r.0.active == m.active && r.1 == []
    ensures Acts(m, nowMs) && m.target.Some? ==> r.0.target == m.target && r.0.active == !m.active
    ensures Acts(m, nowMs) && m.target.Some? && !m.active ==> r.1 == [Connect(m.target.value), Ping(m.target.value)]
    ensures Acts(m, nowMs) && m.target.Some? && m.active ==> r.1 == [Close(m.target.value, 0, "EntityHandoff flap test")]
  {
    if !m.initialized then (m, [])
    else if nowMs - m.lastToggleMs < FlapIntervalMs then (m, [])
    else
      var toggled := m.(lastToggleMs := nowMs);
      if m.target.None? then (toggled.(target := SelectTestTarget(m.self, registry)), [])
      else if !m.active then
        (toggled.(active := true), [Connect(m.target.value), Ping(m.target.value)])
      else
        (toggled.(active := false), [Close(m.target.value, 0, "EntityHandoff flap test")])
  }

  /**
   * Shutdown: nothing before Init. Otherwise an open test connection is
   * closed, the packet manager stopped, and target, open flag and
   * initialisation cleared.
   */
  function Shutdown(m: Manager): (r: (Manager, seq<Action>))
    ensures !m.initialized ==> r == (m, [])
    ensures m.initialized ==> !r.0.initialized && !r.0.active && r.0.target.None?
    ensures m.initialized && m.target.Some? && m.active ==>
              r.1 == [Close(m.target.value, 0, "EntityHandoff shutdown"), ShutdownPackets]
    ensures m.initialized && !(m.target.Some? && m.active) ==> r.1 == [ShutdownPackets]
  {
    if !m.initialized then (m, [])
    else
      var closing := if m.target.Some? && m.active then [Close(m.target.value, 0, "EntityHandoff shutdown")] else [];
      (m.(active := false, target := None, initialized := false), closing + [ShutdownPackets])
  }

  /** A test connection is only ever open towards a chosen target. */
  predicate Valid(m: Manager) {
    m.active ==> m.target.Some?
  }

  /** Every operation keeps the manager valid. */
  lemma OperationsKeepValid(m: Manager, self: NetworkIdentity, nowMs: int, registry: seq<NetworkIdentity>)
    requires Valid(m)
    ensures Valid(Init(self, nowMs, registry).0)
    ensures Valid(Tick(m, nowMs, registry).0)
    ensures Valid(Shutdown(m).0)
  {
  }

  /** The first tick at or after Init's moment acts. */
  lemma FirstTickActs(self: NetworkIdentity, initMs: int, nowMs: int, registry: seq<NetworkIdentity>)
    requires initMs <= nowMs
    ensures Acts(Init(self, initMs, registry).0, nowMs)
  {
  }

  /** Two acting ticks are at least one interval apart. */
  lemma TicksAreRateLimited(m: Manager, t1: int, t2: int, registry: seq<NetworkIdentity>)
    requires Acts(m, t1)
    requires Tick(Tick(m, t1, registry).0, t2, registry).1 != []
    ensures t2 - t1 >= FlapIntervalMs
  {
  }

  /**
   * Two acting ticks on a manager with a target open and close (or close and
   * reopen) the same connection, leaving the open flag where it was.
   */
  lemma TicksAlternate(m: Manager, t1: int, t2: int, registry: seq<NetworkIdentity>)
    requires m.target.Some? && Acts(m, t1) && t2 - t1 >= FlapIntervalMs
    ensures var (m1, a1) := Tick(m, t1, registry);
            var (m2, a2) := Tick(m1, t2, registry);
            && m2.active == m.active && m2.target == m.target
            && a1 + a2 == (if m.active then [Close(m.target.value, 0, "EntityHandoff flap test"), Connect(m.target.value), Ping(m.target.value)]
                           else [Connect(m.target.value), Ping(m.target.value), Close(m.target.value, 0, "EntityHandoff flap test")])
  {
  }

  /** After Shutdown the manager is inert: ticks do nothing and a second shutdown does nothing. */
  lemma InertAfterShutdown(m: Manager, nowMs: int, registry: seq<NetworkIdentity>)
    ensures var s := Shutdown(m).0;
            Tick(s, nowMs, registry) == (s, []) && Shutdown(s) == (s, [])
  {
  }
}

=== FILE: entity_authority_tracker.dfy ===
/**
 * A shard's record of the entities it is authoritative for. Every tracked
 * entity carries its latest snapshot, an authority state and, while it is
 * being handed to another shard, the identity it is passing to.
 */
module EntityAuthorityTracker {
  import opened Wrappers
  import opened NetworkIdentities

  /** Entity and client ids are UUIDs; only their equality matters here. */
  type EntityId = nat

  datatype Position = Position(x: real, y: real, z: real)

  /** The parts of an entity the tracker reads. */
  datatype AtlasEntity = AtlasEntity(entityId: EntityId, world: nat, position: Position, isClient: bool, clientId: nat)

  /**
   * `Initial` stands for the state of a freshly created entry, whatever its
   * declared default is; the tracker only ever tests a state against passing.
   */
  datatype AuthorityState = Authoritative | Passing | Initial

  datatype Entry = Entry(state: AuthorityState, passingTo: Option<NetworkIdentity>, snapshot: AtlasEntity)

  /** `authorityByEntityId`. */
  type Tracker = map<EntityId, Entry>

  // ---------------------------------------------------------------------------
  // Replacing the owned set
  // ---------------------------------------------------------------------------

  /** The ids of the incoming entities. */
  function IncomingIds(owned: seq<AtlasEntity>): set<EntityId> {
    set i | 0 <= i < |owned| :: owned[i].entityId
  }

  /** The position of the last incoming entity with id `k`, if any. */
  function LastIndexOf(owned: seq<AtlasEntity>, k: EntityId): (r: Option<nat>)
    ensures r.Some? ==> r.value < |owned| && owned[r.value].entityId == k
    ensures r.Some? ==> forall j :: r.value < j < |owned| ==> owned[j].entityId != k
    ensures r.None? ==> forall j :: 0 <= j < |owned| ==> owned[j].entityId != k
    decreases |owned|
  {
    if |owned| == 0 then None
    else if owned[|owned| - 1].entityId == k then Some(|owned| - 1)
    else LastIndexOf(owned[..|owned| - 1], k)
  }

  /** An entry in the middle of a handoff: it has a target, or is in the passing state. */
  predicate InHandoff(e: Entry) {
    e.passingTo.Some? || e.state == Passing
  }

  /** One incoming entity written into its entry (a fresh one when untracked). */
  function Absorb(prior: Option<Entry>, entity: AtlasEntity): (r: Entry)
    ensures r.snapshot == entity
    ensures prior.Some? && InHandoff(prior.value) ==> r.state == prior.value.state && r.passingTo == prior.value.passingTo
    ensures !(prior.Some? && InHandoff(prior.value)) ==> r.state == Authoritative && r.passingTo.None?
  {
    var e := if prior.Some? then prior.value else Entry(Initial, None, entity);
    var e' := e.(snapshot := entity);
    if !InHandoff(e') then e'.(state := Authoritative) else e'
  }

  /** Writing two entities into an entry in turn leaves it as if only the second had come. */
  lemma AbsorbTwice(prior: Option<Entry>, first: AtlasEntity, second: AtlasEntity)
    ensures Absorb(Some(Absorb(prior, first)), second) == Absorb(prior, second)
  {
  }

  /** The entry under `k`, if tracked. */
  function Lookup(t: Tracker, k: EntityId): (r: Option<Entry>)
    ensures r.Some? <==> k in t
    ensures r.Some? ==> r.value == t[k]
  {
    if k in t then Some(t[k]) else None
  }

  /**
   * The reference for one id: the entry it ends with once the incoming list
   * is written, which depends only on its entry before and its last incoming
   * entity.
   */
  function Settle(prior: Option<Entry>, owned: seq<AtlasEntity>, k: EntityId): Option<Entry> {
    match LastIndexOf(owned, k)
    case None => prior
    case Some(i) => Some(Absorb(prior, owned[i]))
  }

  /** The second loop of SetOwnedEntities: every incoming entity written in order. */
  function AbsorbAll(t: Tracker, owned: seq<AtlasEntity>): (r: Tracker)
    ensures t.Keys <= r.Keys
    decreases |owned|
  {
    if |owned| == 0 then t
    else
      var before := AbsorbAll(t, owned[..|owned| - 1]);
      var last := owned[|owned| - 1];
      before[last.entityId := Absorb(Lookup(before, last.entityId), last)]
  }

  /** Writing the incoming list in order settles every id independently of the others. */
  lemma {:induction false} AbsorbAllSettles(t: Tracker, owned: seq<AtlasEntity>, k: EntityId)
    ensures Lookup(AbsorbAll(t, owned), k) == Settle(Lookup(t, k), owned, k)
    decreases |owned|
  {
    if |owned| > 0 {
      var front := owned[..|owned| - 1];
      var last := owned[|owned| - 1];
      AbsorbAllSettles(t, front, k);
      if last.entityId == k {
        match LastIndexOf(front, k)
        case None =>
        case Some(i) => AbsorbTwice(Lookup(t, k), front[i], last);
      }
    }
  }

  /**
   * SetOwnedEntities: entries whose id is not incoming are dropped, then the
   * incoming entities are written in order.
   */
  function SetOwnedEntities(t: Tracker, owned: seq<AtlasEntity>): (r: Tracker)
  {
    var incoming := IncomingIds(owned);
    AbsorbAll(map k | k in t && k in incoming :: t[k], owned)
  }

  /**
   * After SetOwnedEntities the tracker holds exactly the incoming ids; each
   * entry has its last incoming snapshot, keeps its state and target while a
   * handoff is in progress, and is otherwise authoritative with no target.
   */
  lemma SetOwnedEntitiesResult(t: Tracker, owned: seq<AtlasEntity>, k: EntityId)
    ensures k in SetOwnedEntities(t, owned) <==> k in IncomingIds(owned)
    ensures var r := SetOwnedEntities(t, owned);
            k in r ==> LastIndexOf(owned, k).Some? && r[k].snapshot == owned[LastIndexOf(owned, k).value]
    ensures var r := SetOwnedEntities(t, owned);
            k in r && k in t && InHandoff(t[k]) ==> r[k].state == t[k].state && r[k].passingTo == t[k].passingTo
    ensures var r := SetOwnedEntities(t, owned);
            k in r && !(k in t && InHandoff(t[k])) ==> r[k].state == Authoritative && r[k].passingTo.None?
  {
    var incoming := IncomingIds(owned);
    var kept := map k | k in t && k in incoming :: t[k];
    AbsorbAllSettles(kept, owned, k);
    if k in incoming {
      var i :| 0 <= i < |owned| && owned[i].entityId == k;
      assert LastIndexOf(owned, k).Some?;
    }
  }

  /** Replacing the owned set never cancels a handoff in progress. */
  lemma SetOwnedKeepsHandoff(t: Tracker, owned: seq<AtlasEntity>, k: EntityId, target: NetworkIdentity)
    requires k in t && t[k].state == Passing && t[k].passingTo == Some(target)
    requires k in IncomingIds(owned)
    ensures k in SetOwnedEntities(t, owned)
    ensures SetOwnedEntities(t, owned)[k].state == Passing
    ensures SetOwnedEntities(t, owned)[k].passingTo == Some(target)
  {
    SetOwnedEntitiesResult(t, owned, k);
  }

  /** Two trackers that agree on every lookup are the same tracker. */
  lemma SameLookups(a: Tracker, b: Tracker)
    requires forall k :: Lookup(a, k) == Lookup(b, k)
    ensures a == b
  {
    assert a.Keys == b.Keys by {
      forall k ensures k in a <==> k in b {
        assert Lookup(a, k).Some? == Lookup(b, k).Some?;
      }
    }
    forall k | k in a ensures a[k] == b[k] {
      assert Lookup(a, k) == Lookup(b, k);
    }
  }

  /** Receiving the same entities again changes nothing. */
  lemma SetOwnedIsIdempotent(t: Tracker, owned: seq<AtlasEntity>)
    ensures SetOwnedEntities(SetOwnedEntities(t, owned), owned) == SetOwnedEntities(t, owned)
  {
    var once := SetOwnedEntities(t, owned);
    var twice := SetOwnedEntities(once, owned);
    forall k ensures Lookup(twice, k) == Lookup(once, k) {
      SetOwnedEntitiesResult(t, owned, k);
      SetOwnedEntitiesResult(once, owned, k);
      if k in once {
        assert twice[k].snapshot == once[k].snapshot;
      }
    }
    SameLookups(twice, once);
  }

  // ---------------------------------------------------------------------------
  // Single-entity updates
  // ---------------------------------------------------------------------------

  /** SetAuthorityState: an untracked id is ignored; a tracked one gets both state and target. */
  function SetAuthorityState(t: Tracker, id: EntityId, state: AuthorityState, passingTo: Option<NetworkIdentity>): (r: Tracker)
    ensures r.Keys == t.Keys
    ensures forall k :: k in t && k != id ==> r[k] == t[k]
    ensures id in t ==> r[id].state == state && r[id].passingTo == passingTo && r[id].snapshot == t[id].snapshot
  {
    if id in t then t[id := t[id].(state := state, passingTo := passingTo)] else t
  }

  /** RemoveEntity: only the given id is forgotten. */
  function RemoveEntity(t: Tracker, id: EntityId): (r: Tracker)
    ensures r.Keys == t.Keys - {id}
    ensures forall k :: k in r ==> r[k] == t[k]
  {
    t - {id}
  }

  /** Reset: nothing stays tracked. */
  function Reset(t: Tracker): (r: Tracker)
    ensures forall k :: k !in r
  {
    map[]
  }

  /**
   * MarkPassing: an untracked id is ignored and reports false; a tracked one
   * starts passing to `target`, and the call reports whether that is news.
   */
  function MarkPassing(t: Tracker, id: EntityId, target: NetworkIdentity): (r: (Tracker, bool))
    ensures id !in t ==> r == (t, false)
    ensures id in t ==> r.0 == SetAuthorityState(t, id, Passing, Some(target))
    ensures id in t ==> (r.1 <==> !(t[id].state == Passing && t[id].passingTo == Some(target)))
  {
    if id !in t then (t, false)
    else
      var entry := t[id];
      var alreadyPassingToTarget := entry.state == Passing && entry.passingTo.Some? && entry.passingTo.value == target;
      (t[id := entry.(state := Passing, passingTo := Some(target))], !alreadyPassingToTarget)
  }

  /** MarkAuthoritative: the same as setting the authoritative state with no target. */
  function MarkAuthoritative(t: Tracker, id: EntityId): (r: Tracker)
    ensures r == SetAuthorityState(t, id, Authoritative, None)
    ensures id in t ==> !InHandoff(r[id])
  {
    if id !in t then t
    else t[id := t[id].(state := Authoritative, passingTo := None)]
  }

  /** Asking twice to pass an entity to the same target reports news only once. */
  lemma MarkPassingRepeat(t: Tracker, id: EntityId, target: NetworkIdentity)
    ensures var once := MarkPassing(t, id, target).0;
            MarkPassing(once, id, target) == (once, false)
  {
    if id in t {
      var once := MarkPassing(t, id, target).0;
      assert once[id := once[id].(state := Passing, passingTo := Some(target))] == once;
    }
  }

  /** After MarkAuthoritative, marking the entity passing is always news. */
  lemma MarkPassingAfterAuthoritative(t: Tracker, id: EntityId, target: NetworkIdentity)
    requires id in t
    ensures MarkPassing(MarkAuthoritative(t, id), id, target).1
  {
  }

  /** After Reset or RemoveEntity nothing can be marked passing. */
  lemma MarkPassingAfterRemoval(t: Tracker, id: EntityId, target: NetworkIdentity)
    ensures MarkPassing(RemoveEntity(t, id), id, target) == (RemoveEntity(t, id), false)
    ensures MarkPassing(Reset(t), id, target) == (Reset(t), false)
  {
  }

  // ---------------------------------------------------------------------------
  // Reports
  // ---------------------------------------------------------------------------

  /** One row of the authority telemetry. */
  datatype TelemetryRow = TelemetryRow(
    entityId: EntityId,
    owner: NetworkIdentity,
    snapshot: AtlasEntity,
    world: nat,
    position: Position,
    isClient: bool,
    clientId: nat)

  function RowOf(id: EntityId, e: Entry, self: NetworkIdentity): TelemetryRow {
    TelemetryRow(id, self, e.snapshot, e.snapshot.world, e.snapshot.position, e.snapshot.isClient, e.snapshot.clientId)
  }

  /** `order` visits every tracked id exactly once. */
  predicate Enumerates(order: seq<EntityId>, t: Tracker) {
    && |order| == |t.Keys|
    && (forall i :: 0 <= i < |order| ==> order[i] in t)
    && (forall i, j :: 0 <= i < j < |order| ==> order[i] != order[j])
    && (forall k :: k in t ==> k in order)
  }

  /** The unspecified iteration order of the hash map: some enumeration of its keys. */
  method IterationOrder(t: Tracker) returns (order: seq<EntityId>)
    ensures Enumerates(order, t)
  {
    order := [];
    var left := t.Keys;
    while left != {}
      invariant left <= t.Keys
      invariant |order| + |left| == |t.Keys|
      invariant forall i :: 0 <= i < |order| ==> order[i] in t && order[i] !in left
      invariant forall i, j :: 0 <= i < j < |order| ==> order[i] != order[j]
      invariant forall k :: k in t ==> k in left || k in order
      decreases |left|
    {
      var k :| k in left;
      order := order + [k];
      left := left - {k};
    }
  }

  /** CollectTelemetryRows: one row per tracked entity, owned by this shard. */
  method CollectTelemetryRows(t: Tracker, self: NetworkIdentity) returns (rows: seq<TelemetryRow>)
    ensures |rows| == |t.Keys|
    ensures forall i :: 0 <= i < |rows| ==> rows[i].entityId in t && rows[i] == RowOf(rows[i].entityId, t[rows[i].entityId], self)
    ensures forall i, j :: 0 <= i < j < |rows| ==> rows[i].entityId != rows[j].entityId
    ensures forall k :: k in t ==> exists i :: 0 <= i < |rows| && rows[i].entityId == k
  {
    var order := IterationOrder(t);
    rows := [];
    var i := 0;
    while i < |order|
      invariant 0 <= i <= |order|
      invariant |rows| == i
      invariant forall j :: 0 <= j < i ==> rows[j] == RowOf(order[j], t[order[j]], self)
    {
      rows := rows + [RowOf(order[i], t[order[i]], self)];
      i := i + 1;
    }
    forall k | k in t ensures exists i :: 0 <= i < |rows| && rows[i].entityId == k {
      var j :| 0 <= j < |order| && order[j] == k;
      assert rows[j].entityId == k;
    }
  }

  /** GetOwnedEntitySnapshots: the snapshot of every tracked entity, once each. */
  method GetOwnedEntitySnapshots(t: Tracker) returns (entities: seq<AtlasEntity>)
    ensures |entities| == |t.Keys|
    ensures exists order :: Enumerates(order, t) && |order| == |entities| &&
              forall i :: 0 <= i < |order| ==> entities[i] == t[order[i]].snapshot
  {
    var order := IterationOrder(t);
    entities := [];
    var i := 0;
    while i < |order|
      invariant 0 <= i <= |order|
      invariant |entities| == i
      invariant forall j :: 0 <= j < i ==> entities[j] == t[order[j]].snapshot
    {
      entities := entities + [t[order[i]].snapshot];
      i := i + 1;
    }
  }
}

=== FILE: entity_details.dfy ===
/**
 * The entity inspector's database details: a fetched lookup response replaces
 * the shown one only when it differs field by field, and the lookup is
 * repeated on a timer only for short positive intervals. Numeric fields are
 * JavaScript numbers compared with `!==`, so a NaN field never compares equal.
 */
module EntityDetails {
  import opened Wrappers
  import opened JsNumber

  datatype EntitySummary = EntitySummary(entityId: string, ownerId: string, clientId: string, world: Num)

  datatype SourceSummary = SourceSummary(id: string, name: string, matchCount: Num)

  datatype LookupRecord = LookupRecord(
    source: string,
    key: string,
    recordType: string,
    entryCount: Num,
    ttlSeconds: Num,
    payload: string,
    matchedIn: string,
    relevance: Num,
    matchedTerms: seq<string>)

  datatype LookupResponse = LookupResponse(
    entity: EntitySummary,
    truncated: bool,
    totalMatches: Num,
    terms: seq<string>,
    sourceSummaries: seq<SourceSummary>,
    records: seq<LookupRecord>)

  /** `POLL_DISABLED_AT_MS`: intervals from here up switch polling off. */
  const PollDisabledAtMs: real := 5000.0

  /** areStringArraysEqual: same length, then `!==` element by element from the front. */
  function StringArraysEqual(left: seq<string>, right: seq<string>): (r: bool)
    ensures r <==> left == right
  {
    if |left| != |right| then false
    else if |left| == 0 then true
    else if left[0] != right[0] then false
    else
      var rest := StringArraysEqual(left[1..], right[1..]);
      assert left == [left[0]] + left[1..] && right == [right[0]] + right[1..];
      rest
  }

  /** The summaries agree pairwise on id, name and match count, in order. */
  predicate SummariesEqual(left: seq<SourceSummary>, right: seq<SourceSummary>) {
    |left| == |right| &&
    forall i :: 0 <= i < |left| ==>
      left[i].id == right[i].id && left[i].name == right[i].name && StrictEquals(left[i].matchCount, right[i].matchCount)
  }

  /** Two records agree on every compared field, matched terms included. */
  predicate RecordsMatch(a: LookupRecord, b: LookupRecord) {
    && a.source == b.source && a.key == b.key && a.recordType == b.recordType
    && StrictEquals(a.entryCount, b.entryCount) && StrictEquals(a.ttlSeconds, b.ttlSeconds)
    && a.payload == b.payload && a.matchedIn == b.matchedIn && StrictEquals(a.relevance, b.relevance)
    && StringArraysEqual(a.matchedTerms, b.matchedTerms)
  }

  /** The records agree pairwise, in order. */
  predicate RecordsEqual(left: seq<LookupRecord>, right: seq<LookupRecord>) {
    |left| == |right| && forall i :: 0 <= i < |left| ==> RecordsMatch(left[i], right[i])
  }

  /**
   * areLookupResponsesEqual: the entity's four fields, the truncation flag
   * and the match total first, then the terms, the source summaries and the
   * records, in that order.
   */
  function LookupResponsesEqual(left: LookupResponse, right: LookupResponse): (r: bool)
    ensures r ==> left.entity.entityId == right.entity.entityId && left.entity.ownerId == right.entity.ownerId
                  && left.entity.clientId == right.entity.clientId && left.truncated == right.truncated
                  && left.terms == right.terms && |left.sourceSummaries| == |right.sourceSummaries|
                  && |left.records| == |right.records|
    ensures r ==> forall i :: 0 <= i < |left.records| ==> left.records[i].matchedTerms == right.records[i].matchedTerms
  {
    if left.entity.entityId != right.entity.entityId
       || left.entity.ownerId != right.entity.ownerId
       || left.entity.clientId != right.entity.clientId
       || !StrictEquals(left.entity.world, right.entity.world)
       || left.truncated != right.truncated
       || !StrictEquals(left.totalMatches, right.totalMatches)
    then false
    else if !StringArraysEqual(left.terms, right.terms) then false
    else if !SummariesEqual(left.sourceSummaries, right.sourceSummaries) then false
    else RecordsEqual(left.records, right.records)
  }

  /** No numeric field of the response is NaN. */
  predicate NaNFree(x: LookupResponse) {
    && !x.entity.world.NaN? && !x.totalMatches.NaN?
    && (forall i :: 0 <= i < |x.sourceSummaries| ==> !x.sourceSummaries[i].matchCount.NaN?)
    && (forall i :: 0 <= i < |x.records| ==>
          !x.records[i].entryCount.NaN? && !x.records[i].ttlSeconds.NaN? && !x.records[i].relevance.NaN?)
  }

  /** Swapping the two responses never changes the answer. */
  lemma LookupResponsesEqualIsSymmetric(left: LookupResponse, right: LookupResponse)
    ensures LookupResponsesEqual(left, right) == LookupResponsesEqual(right, left)
  {
    forall a, b | true ensures StrictEquals(a, b) == StrictEquals(b, a) {
      StrictEqualsIsSymmetric(a, b);
    }
  }

  /**
   * The comparison is value equality, except that a response holding a NaN
   * never equals anything, itself included.
   */
  lemma LookupResponsesEqualIsEquality(left: LookupResponse, right: LookupResponse)
    ensures LookupResponsesEqual(left, right) <==> left == right && NaNFree(left)
  {
    forall a, b | true ensures StrictEquals(a, b) <==> a == b && !a.NaN? {
      StrictEqualsIsIdentityExceptNaN(a, b);
    }
    if LookupResponsesEqual(left, right) {
      assert left.entity == right.entity;
      assert left.sourceSummaries == right.sourceSummaries by {
        assert forall i :: 0 <= i < |left.sourceSummaries| ==> left.sourceSummaries[i] == right.sourceSummaries[i];
      }
      assert left.records == right.records by {
        assert forall i :: 0 <= i < |left.records| ==> left.records[i] == right.records[i];
      }
    }
  }

  /** The hook's state: a load in progress, the last error and the response shown. */
  datatype DetailsState = DetailsState(loading: bool, error: Option<string>, data: Option<LookupResponse>)

  /**
   * The state after a successful fetch: the previous state is kept when it is
   * settled (not loading, no error) and shows a response equal to the new
   * one; otherwise the new response is shown, settled.
   */
  function ApplyPayload(previous: DetailsState, payload: LookupResponse): (r: DetailsState)
    ensures !r.loading && r.error.None? && r.data.Some?
  {
    if !previous.loading && previous.error.None? && previous.data.Some?
       && LookupResponsesEqual(previous.data.value, payload)
    then previous
    else DetailsState(false, None, Some(payload))
  }

  /**
   * Keeping the previous state never hides a change: after a fetch the state
   * always shows exactly the fetched response, and it is the same state
   * object only when nothing differed.
   */
  lemma ApplyPayloadShowsPayload(previous: DetailsState, payload: LookupResponse)
    ensures ApplyPayload(previous, payload).data == Some(payload)
    ensures ApplyPayload(previous, payload) == previous <==>
              previous == DetailsState(false, None, Some(payload)) || (!previous.loading && previous.error.None? && previous.data.Some?
                                                                     && previous.data.value == payload && NaNFree(payload))
  {
    if previous.data.Some? {
      LookupResponsesEqualIsEquality(previous.data.value, payload);
    }
  }

  /** The poll timer's period, when the hook sets one: only for 0 < interval < 5000. */
  function PollInterval(pollIntervalMs: Num): (r: Option<Num>)
    ensures r.Some? ==> r.value == pollIntervalMs
  {
    match pollIntervalMs
    case Finite(v) => if v > 0.0 && v < PollDisabledAtMs then Some(pollIntervalMs) else None
    case _ => None
  }

  /**
   * Polling is on exactly for positive intervals below five seconds: the
   * default 0, any negative interval, 5000 and beyond, NaN and both
   * infinities switch it off.
   */
  lemma PollIsOnForShortPositiveIntervals(pollIntervalMs: Num)
    ensures PollInterval(pollIntervalMs).Some? <==>
              IsFinite(pollIntervalMs) && 0.0 < pollIntervalMs.value < 5000.0
    ensures PollInterval(FromInt(0)).None? && PollInterval(FromInt(5000)).None? && PollInterval(FromInt(4999)).Some?
  {
  }
}

=== FILE: god_messages.dfy ===
/**
 * The God server's outlier messages: colon-delimited text messages from the
 * partitions, either announcing that a partition has outliers
 * (`OutliersDetected:<partition>:<count>`) or confirming that an entity was
 * removed from a partition and must be placed elsewhere (`EntityRemoved:`
 * followed by colon-separated fields, the last four being the entity id and
 * its x, y and z coordinates). Parsing either succeeds with the fields God
 * acts on or fails with the reason it logs.
 */
module GodMessages {
  import opened Wrappers
  import opened Text

  const OutliersPrefix: string := "OutliersDetected:"
  const EntityRemovedPrefix: string := "EntityRemoved:"

  /** `INT_MAX` for a 32-bit `int`: the largest value `std::stoi` returns. */
  const IntMax: nat := 2147483647

  predicate StartsWith(s: string, prefix: string) {
    |prefix| <= |s| && s[..|prefix|] == prefix
  }

  // ---------------------------------------------------------------------------
  // Integer fields
  // ---------------------------------------------------------------------------

  /** Why an integer field was rejected, in the order the checks run. */
  datatype NumberError = EmptyNumber | NonNumeric | OutOfRange

  /**
   * An integer field: non-empty, decimal digits only (leading zeros are
   * allowed), and within `int` range, which is what the digit check followed
   * by `std::stoi` accepts.
   */
  function ParseInt(s: string): (r: Result<nat, NumberError>)
    ensures r.Success? <==> |s| > 0 && AllDigits(s) && DigitsValue(s) <= IntMax
    ensures r.Success? ==> r.value == DigitsValue(s) && r.value <= IntMax
    ensures |s| == 0 ==> r == Failure(EmptyNumber)
    ensures |s| > 0 && !AllDigits(s) ==> r == Failure(NonNumeric)
  {
    if |s| == 0 then Failure(EmptyNumber)
    else if !AllDigits(s) then Failure(NonNumeric)
    else if DigitsValue(s) > IntMax then Failure(OutOfRange)
    else Success(DigitsValue(s))
  }

  /** Every `int`-sized count, printed in decimal, reads back as itself. */
  lemma ParseIntOfPrinted(n: nat)
    requires n <= IntMax
    ensures ParseInt(NatToString(n)) == Success(n)
  {
  }

  // ---------------------------------------------------------------------------
  // OutliersDetected
  // ---------------------------------------------------------------------------

  datatype OutliersError = MissingCount | BadCount(reason: NumberError)

  /** What God acts on: the partition whose outliers it processes; the count is only logged. */
  datatype OutliersNotice = OutliersNotice(partitionId: string, count: nat)

  /**
   * handleOutliersDetectedMessage: the last colon splits partition id from
   * count. A message whose last colon is the prefix's own has no count.
   */
  function ParseOutliersDetected(message: string): (r: Result<OutliersNotice, OutliersError>)
    requires StartsWith(message, OutliersPrefix)
    ensures r.Success? ==>
              var cut := |OutliersPrefix| + |r.value.partitionId|;
              && cut < |message| && message[..cut] == OutliersPrefix + r.value.partitionId && message[cut] == ':'
              && ParseInt(message[cut + 1..]) == Success(r.value.count)
    ensures Excludes(message[|OutliersPrefix|..], ':') ==> r == Failure(MissingCount)
  {
    assert message[16] == OutliersPrefix[16];
    var lastColon := RFindChar(message, ':').value;
    if lastColon == 16 then Failure(MissingCount)
    else
      var partitionId := message[17..lastColon];
      match ParseInt(message[lastColon + 1..])
      case Failure(e) => Failure(BadCount(e))
      case Success(count) => Success(OutliersNotice(partitionId, count))
  }

  function FormatOutliersDetected(n: OutliersNotice): string {
    OutliersPrefix + n.partitionId + ":" + NatToString(n.count)
  }

  /** The count after the last colon, so a partition id may itself contain colons. */
  lemma OutliersDetectedRoundTrip(n: OutliersNotice)
    requires n.count <= IntMax
    ensures StartsWith(FormatOutliersDetected(n), OutliersPrefix)
    ensures ParseOutliersDetected(FormatOutliersDetected(n)) == Success(n)
  {
    var digits := NatToString(n.count);
    var head := OutliersPrefix + n.partitionId;
    var m := head + ":" + digits;
    assert m == FormatOutliersDetected(n);
    var c := |head|;
    Halves(head, digits);
    PrefixSlices(m, OutliersPrefix, n.partitionId, c);
    forall i | c < i < |m|
      ensures m[i] != ':'
    {
      assert m[i] == m[c + 1..][i - c - 1] == digits[i - c - 1];
    }
    LastOccurrence(m, ':', c);
    ParseIntOfPrinted(n.count);
  }

  /** A prefix made of `p` then `rest` splits back into the two. */
  lemma PrefixSlices(m: string, p: string, rest: string, k: nat)
    requires k <= |m| && m[..k] == p + rest
    ensures |p| <= k && m[..|p|] == p && m[|p|..k] == rest
  {
    assert m[..|p|] == m[..k][..|p|];
    assert m[|p|..k] == m[..k][|p|..];
  }

  /** A character that does not occur after index `i` is last found at `i`. */
  lemma LastOccurrence(s: string, c: char, i: nat)
    requires i < |s| && s[i] == c
    requires forall j :: i < j < |s| ==> s[j] != c
    ensures RFindChar(s, c) == Some(i)
  {
  }

  // ---------------------------------------------------------------------------
  // EntityRemoved
  // ---------------------------------------------------------------------------

  /**
   * The colons at index 1 or later, below `n`, in increasing order: what the
   * `find(':', pos + 1)` loop starting from `pos = 0` collects.
   */
  function ColonsBelow(s: string, n: nat): seq<nat>
    requires n <= |s|
  {
    if n == 0 then []
    else ColonsBelow(s, n - 1) + (if n - 1 >= 1 && s[n - 1] == ':' then [n - 1] else [])
  }

  /**
   * The collected positions are exactly the colons at index 1 or later below
   * `n`, each once, in increasing order.
   */
  lemma ColonsBelowAreTheColons(s: string, n: nat)
    requires n <= |s|
    ensures var r := ColonsBelow(s, n);
            && (forall k :: 0 <= k < |r| ==> 1 <= r[k] < n && s[r[k]] == ':')
            && (forall i :: 1 <= i < n && s[i] == ':' ==> i in r)
            && (forall k, l :: 0 <= k < l < |r| ==> r[k] < r[l])
  {
    CollectedAreColons(s, n);
    ColonsAreCollected(s, n);
  }

  /** Every collected position is a colon below `n`, and the positions increase. */
  lemma {:induction false} CollectedAreColons(s: string, n: nat)
    requires n <= |s|
    ensures forall k :: 0 <= k < |ColonsBelow(s, n)| ==> 1 <= ColonsBelow(s, n)[k] < n && s[ColonsBelow(s, n)[k]] == ':'
    ensures forall k, l :: 0 <= k < l < |ColonsBelow(s, n)| ==> ColonsBelow(s, n)[k] < ColonsBelow(s, n)[l]
    decreases n
  {
    if n > 0 {
      CollectedAreColons(s, n - 1);
      var r0 := ColonsBelow(s, n - 1);
      var r := ColonsBelow(s, n);
      assert r == r0 + (if n - 1 >= 1 && s[n - 1] == ':' then [n - 1] else []);
      assert forall k :: 0 <= k < |r0| ==> r[k] == r0[k];
    }
  }

  /** Every colon at index 1 or later below `n` is collected. */
  lemma {:induction false} ColonsAreCollected(s: string, n: nat)
    requires n <= |s|
    ensures forall i :: 1 <= i < n && s[i] == ':' ==> i in ColonsBelow(s, n)
    decreases n
  {
    if n > 0 {
      ColonsAreCollected(s, n - 1);
      assert forall i :: i in ColonsBelow(s, n - 1) ==> i in ColonsBelow(s, n);
    }
  }

  function Colons(s: string): seq<nat> {
    ColonsBelow(s, |s|)
  }

  /** Where the scan stops when `next` is the colon found, or the end when there is none. */
  function Bound(s: string, next: Option<nat>): nat {
    if next.Some? then next.value else |s|
  }

  /** The colon-collecting loop of handleEntityRemovedMessage. */
  method CollectColons(message: string) returns (positions: seq<nat>)
    ensures positions == Colons(message)
  {
    positions := [];
    var next := FindChar(message, ':', 1);
    FirstColon(message, next);
    while next.Some?
      invariant next.Some? ==> 1 <= next.value < |message| && message[next.value] == ':'
      invariant positions == ColonsBelow(message, Bound(message, next))
      decreases |message| - Bound(message, next)
    {
      var pos := next.value;
      next := FindChar(message, ':', pos + 1);
      NextColon(message, pos, next);
      positions := positions + [pos];
    }
  }

  /** The search from index 1 finds the first colon there, so none lies below it. */
  lemma FirstColon(s: string, next: Option<nat>)
    requires next == FindChar(s, ':', 1)
    ensures Bound(s, next) <= |s| && ColonsBelow(s, Bound(s, next)) == []
  {
    if |s| > 0 {
      NoColonsBetween(s, 1, Bound(s, next));
    }
  }

  /** After the colon at `p` the search finds the next one, with none between. */
  lemma NextColon(s: string, p: nat, next: Option<nat>)
    requires 1 <= p < |s| && s[p] == ':' && next == FindChar(s, ':', p + 1)
    ensures p < Bound(s, next) <= |s|
    ensures ColonsBelow(s, Bound(s, next)) == ColonsBelow(s, p) + [p]
  {
    if next.Some? {
      LastColonBelow(s, p, next.value);
    } else {
      LastColonBelow(s, p, |s|);
    }
  }

  /** A colon at `p` with none after it below `b` is the last one collected below `b`. */
  lemma {:induction false} LastColonBelow(s: string, p: nat, b: nat)
    requires 1 <= p < b <= |s| && s[p] == ':'
    requires forall i :: p < i < b ==> s[i] != ':'
    ensures ColonsBelow(s, b) == ColonsBelow(s, p) + [p]
    decreases b
  {
    if b > p + 1 {
      LastColonBelow(s, p, b - 1);
      assert ColonsBelow(s, b) == ColonsBelow(s, b - 1) + [];
    }
  }

  /** A colon-free stretch adds no colons. */
  lemma {:induction false} NoColonsBetween(s: string, k: nat, n: nat)
    requires k <= n <= |s|
    requires forall i :: k <= i < n ==> s[i] != ':'
    ensures ColonsBelow(s, n) == ColonsBelow(s, k)
    decreases n
  {
    if n > k {
      NoColonsBetween(s, k, n - 1);
    }
  }

  /** Which colons lie below `n` depends only on the first `n` characters. */
  lemma {:induction false} ColonsBelowOfPrefix(s: string, t: string, n: nat)
    requires n <= |s| && n <= |t| && s[..n] == t[..n]
    ensures ColonsBelow(s, n) == ColonsBelow(t, n)
    decreases n
  {
    if n > 0 {
      assert s[n - 1] == s[..n][n - 1] == t[..n][n - 1] == t[n - 1];
      assert s[..n - 1] == s[..n][..n - 1];
      assert t[..n - 1] == t[..n][..n - 1];
      ColonsBelowOfPrefix(s, t, n - 1);
    }
  }

  /** Appending `:` and a colon-free field adds exactly that one colon. */
  lemma AppendField(a: string, f: string)
    requires |a| >= 1 && Excludes(f, ':')
    ensures Colons(a + ":" + f) == Colons(a) + [|a|]
  {
    var s := a + ":" + f;
    LastColonBelow(s, |a|, |s|);
    assert s[..|a|] == a[..|a|];
    ColonsBelowOfPrefix(s, a, |a|);
  }

  /** A coordinate field: non-empty, only the characters `0123456789.-`, and accepted by `std::stof`. */
  predicate CoordinateChar(c: char) {
    IsDigit(c) || c == '.' || c == '-'
  }

  predicate ValidCoordinate(s: string, floatParses: string -> bool) {
    |s| > 0 && (forall i :: 0 <= i < |s| ==> CoordinateChar(s[i])) && floatParses(s)
  }

  datatype RemovalError =
    | TooFewColons(found: nat)
    | BadEntityId(reason: NumberError)
    | BadCoordinates(xOk: bool, yOk: bool, zOk: bool)

  /** The entity God redistributes, with its coordinates as validated text, and the partition it came from. */
  datatype EntityRemoval = EntityRemoval(entityId: nat, sourcePartition: string, x: string, y: string, z: string)

  /**
   * `message.substr(14, partitionIdColon - 14)`. The length is an unsigned
   * `size_t`: when the fifth-last colon is the prefix's own (index 13) it
   * wraps around to a huge value, and the substring runs to the end.
   */
  function SourcePartition(message: string, partitionIdColon: nat): (r: string)
    requires 14 <= |message| && partitionIdColon < |message|
    ensures partitionIdColon >= 14 ==> r == message[14..partitionIdColon]
    ensures partitionIdColon < 14 ==> r == message[14..]
  {
    if partitionIdColon >= 14 then message[14..partitionIdColon] else message[14..]
  }

  /** The last five colons: the ends of the partition part, the entity id, x and y, and the start of z. */
  datatype FieldColons = FieldColons(partition: nat, entityId: nat, x: nat, y: nat, z: nat)

  /** The last five colons of the message, in order, when it has five. */
  function LastFiveColons(message: string): (r: Option<FieldColons>)
    ensures r.Some? <==> |Colons(message)| >= 5
    ensures r.Some? ==> var cs := Colons(message);
                        var n := |cs|;
                        r.value == FieldColons(cs[n - 5], cs[n - 4], cs[n - 3], cs[n - 2], cs[n - 1])
    ensures r.Some? ==> 1 <= r.value.partition < r.value.entityId < r.value.x < r.value.y < r.value.z < |message|
  {
    var cs := Colons(message);
    var n := |cs|;
    if n < 5 then None
    else
      ColonsBelowAreTheColons(message, |message|);
      assert 1 <= cs[n - 5] < cs[n - 4] < cs[n - 3] < cs[n - 2] < cs[n - 1] < |message|;
      Some(FieldColons(cs[n - 5], cs[n - 4], cs[n - 3], cs[n - 2], cs[n - 1]))
  }

  /**
   * The fields around the colons `f`: the source partition ends at the first,
   * the entity id lies between the second and the third, and x, y and z
   * follow. The entity id is checked first, then all three coordinates.
   */
  function ParseFields(message: string, floatParses: string -> bool, f: FieldColons): (r: Result<EntityRemoval, RemovalError>)
    requires 14 <= |message| && f.partition < f.entityId < f.x < f.y < f.z < |message|
    ensures r.Success? <==> && ParseInt(message[f.entityId + 1..f.x]).Success?
                            && ValidCoordinate(message[f.x + 1..f.y], floatParses)
                            && ValidCoordinate(message[f.y + 1..f.z], floatParses)
                            && ValidCoordinate(message[f.z + 1..], floatParses)
    ensures r.Success? ==> r.value == EntityRemoval(ParseInt(message[f.entityId + 1..f.x]).value, SourcePartition(message, f.partition),
                                                    message[f.x + 1..f.y], message[f.y + 1..f.z], message[f.z + 1..])
    ensures r.Failure? ==> !r.error.TooFewColons?
  {
    match ParseInt(message[f.entityId + 1..f.x])
    case Failure(e) => Failure(BadEntityId(e))
    case Success(entityId) =>
      var x := message[f.x + 1..f.y];
      var y := message[f.y + 1..f.z];
      var z := message[f.z + 1..];
      var xOk, yOk, zOk := ValidCoordinate(x, floatParses), ValidCoordinate(y, floatParses), ValidCoordinate(z, floatParses);
      if !(xOk && yOk && zOk) then Failure(BadCoordinates(xOk, yOk, zOk))
      else Success(EntityRemoval(entityId, SourcePartition(message, f.partition), x, y, z))
  }

  /**
   * handleEntityRemovedMessage: with at least five colons (searched from
   * index 1), the last four end the partition part, the entity id, x and y;
   * the entity id is checked first, then all three coordinates.
   * `floatParses` says whether `std::stof` accepts a string.
   */
  function ParseEntityRemoved(message: string, floatParses: string -> bool): (r: Result<EntityRemoval, RemovalError>)
    requires StartsWith(message, EntityRemovedPrefix)
    ensures |Colons(message)| < 5 <==> r.Failure? && r.error.TooFewColons?
    ensures r.Failure? && r.error.TooFewColons? ==> r.error.found == |Colons(message)|
    ensures r.Success? ==>
              && LastFiveColons(message).Some?
              && var f := LastFiveColons(message).value;
              && r.value.entityId <= IntMax
              && ParseInt(message[f.entityId + 1..f.x]) == Success(r.value.entityId)
              && r.value.sourcePartition == SourcePartition(message, f.partition)
              && r.value.x == message[f.x + 1..f.y] && ValidCoordinate(r.value.x, floatParses)
              && r.value.y == message[f.y + 1..f.z] && ValidCoordinate(r.value.y, floatParses)
              && r.value.z == message[f.z + 1..] && ValidCoordinate(r.value.z, floatParses)
  {
    match LastFiveColons(message)
    case None => Failure(TooFewColons(|Colons(message)|))
    case Some(f) => ParseFields(message, floatParses, f)
  }

  /** `head` followed by five colon-led fields. */
  function Layout(head: string, f1: string, f2: string, f3: string, f4: string, f5: string): string {
    head + ":" + f1 + ":" + f2 + ":" + f3 + ":" + f4 + ":" + f5
  }

  /**
   * The layout the parser reads: after the prefix, the partition, one more
   * field the parser never reads, then id, x, y and z.
   */
  function FormatEntityRemoved(partition: string, unread: string, e: EntityRemoval): string {
    Layout(EntityRemovedPrefix + partition, unread, NatToString(e.entityId), e.x, e.y, e.z)
  }

  /** The parser's outcome once the last five colons and the fields between them are known. */
  lemma ParseWithColons(message: string, floatParses: string -> bool, front: seq<nat>,
                        c1: nat, c2: nat, c3: nat, c4: nat, c5: nat, e: EntityRemoval)
    requires StartsWith(message, EntityRemovedPrefix)
    requires Colons(message) == front + [c1, c2, c3, c4, c5]
    requires c1 < c2 < c3 < c4 < c5 < |message|
    requires ParseInt(message[c2 + 1..c3]) == Success(e.entityId)
    requires message[c3 + 1..c4] == e.x && message[c4 + 1..c5] == e.y && message[c5 + 1..] == e.z
    requires ValidCoordinate(e.x, floatParses) && ValidCoordinate(e.y, floatParses) && ValidCoordinate(e.z, floatParses)
    requires e.sourcePartition == SourcePartition(message, c1)
    ensures ParseEntityRemoved(message, floatParses) == Success(e)
  {
    var f := FieldColons(c1, c2, c3, c4, c5);
    LastFiveOf(message, front, f);
    var r := ParseFields(message, floatParses, f);
    assert r.Success?;
    assert r.value == e;
    assert ParseEntityRemoved(message, floatParses) == r;
  }

  /** The last five entries of the colon list are the last five colons. */
  lemma LastFiveOf(message: string, front: seq<nat>, f: FieldColons)
    requires Colons(message) == front + [f.partition, f.entityId, f.x, f.y, f.z]
    ensures LastFiveColons(message) == Some(f)
  {
    var cs := Colons(message);
    var n := |cs|;
    assert cs[n - 5] == f.partition && cs[n - 4] == f.entityId && cs[n - 3] == f.x && cs[n - 2] == f.y && cs[n - 1] == f.z;
  }

  /** Splitting `a + ":" + f` at the colon gives back `a` and `f`. */
  lemma Halves(a: string, f: string)
    ensures (a + ":" + f)[..|a|] == a && (a + ":" + f)[|a|] == ':' && (a + ":" + f)[|a| + 1..] == f
  {
  }

  /** A slice inside `a` is unchanged by appending to `a`. */
  lemma SliceOfFront(a: string, f: string, i: nat, j: nat)
    requires i <= j <= |a|
    ensures (a + ":" + f)[i..j] == a[i..j]
  {
  }

  /** Where the five colons of a layout sit. */
  lemma LayoutColons(head: string, f1: string, f2: string, f3: string, f4: string, f5: string)
    requires |head| >= 1
    requires Excludes(f1, ':') && Excludes(f2, ':') && Excludes(f3, ':') && Excludes(f4, ':') && Excludes(f5, ':')
    ensures var c1 := |head|;
            var c2 := c1 + 1 + |f1|;
            var c3 := c2 + 1 + |f2|;
            var c4 := c3 + 1 + |f3|;
            var c5 := c4 + 1 + |f4|;
            Colons(Layout(head, f1, f2, f3, f4, f5)) == Colons(head) + [c1, c2, c3, c4, c5]
  {
    var a1 := head + ":" + f1;
    var a2 := a1 + ":" + f2;
    var a3 := a2 + ":" + f3;
    var a4 := a3 + ":" + f4;
    assert Layout(head, f1, f2, f3, f4, f5) == a4 + ":" + f5;
    AppendField(head, f1);
    AppendField(a1, f2);
    AppendField(a2, f3);
    AppendField(a3, f4);
    AppendField(a4, f5);
  }

  /** What lies before the first colon of a layout and between its later colons. */
  lemma LayoutSlices(head: string, f1: string, f2: string, f3: string, f4: string, f5: string)
    ensures var m := Layout(head, f1, f2, f3, f4, f5);
            var c1 := |head|;
            var c2 := c1 + 1 + |f1|;
            var c3 := c2 + 1 + |f2|;
            var c4 := c3 + 1 + |f3|;
            var c5 := c4 + 1 + |f4|;
            && |m| == c5 + 1 + |f5|
            && m[..c1] == head && m[c1] == ':'
            && m[c2 + 1..c3] == f2 && m[c3 + 1..c4] == f3 && m[c4 + 1..c5] == f4 && m[c5 + 1..] == f5
  {
    LayoutHead(head, f1, f2, f3, f4, f5);
    LayoutFields(head + ":" + f1, f2, f3, f4, f5);
  }

  /** A layout starts with its head and the colon after it. */
  lemma LayoutHead(head: string, f1: string, f2: string, f3: string, f4: string, f5: string)
    ensures var m := Layout(head, f1, f2, f3, f4, f5);
            |head| < |m| && m[..|head|] == head && m[|head|] == ':'
  {
    var a1 := head + ":" + f1;
    var m := Layout(head, f1, f2, f3, f4, f5);
    assert m == a1 + (":" + f2 + ":" + f3 + ":" + f4 + ":" + f5);
    Halves(head, f1);
    assert m[..|head| + 1] == a1[..|head| + 1];
    assert m[..|head|] == m[..|head| + 1][..|head|];
  }

  /** After `a1`, the four colon-led fields of a layout sit between its last four colons. */
  lemma LayoutFields(a1: string, f2: string, f3: string, f4: string, f5: string)
    ensures var m := a1 + ":" + f2 + ":" + f3 + ":" + f4 + ":" + f5;
            var c2 := |a1|;
            var c3 := c2 + 1 + |f2|;
            var c4 := c3 + 1 + |f3|;
            var c5 := c4 + 1 + |f4|;
            && |m| == c5 + 1 + |f5|
            && m[c2 + 1..c3] == f2 && m[c3 + 1..c4] == f3 && m[c4 + 1..c5] == f4 && m[c5 + 1..] == f5
  {
    var a2 := a1 + ":" + f2;
    var a3 := a2 + ":" + f3;
    var a4 := a3 + ":" + f4;
    var m := a4 + ":" + f5;
    assert m[|a1| + 1..|a2|] == f2 by {
      Halves(a1, f2);
      SliceOfFront(a2, f3, |a1| + 1, |a2|);
      SliceOfFront(a3, f4, |a1| + 1, |a2|);
      SliceOfFront(a4, f5, |a1| + 1, |a2|);
    }
    assert m[|a2| + 1..|a3|] == f3 by {
      Halves(a2, f3);
      SliceOfFront(a3, f4, |a2| + 1, |a3|);
      SliceOfFront(a4, f5, |a2| + 1, |a3|);
    }
    assert m[|a3| + 1..|a4|] == f4 by {
      Halves(a3, f4);
      SliceOfFront(a4, f5, |a3| + 1, |a4|);
    }
    Halves(a4, f5);
  }

  /** A prefix followed by the character after it is a prefix one longer. */
  lemma PrefixThenChar(m: string, a: string, k: nat)
    requires k < |m| && m[..k] == a
    ensures m[..k + 1] == a + [m[k]]
  {
  }

  /**
   * A layout whose fields are colon-free, with the id printed in decimal and
   * valid coordinates, parses to exactly those fields; the source partition is
   * whatever the parser cuts at the head's end.
   */
  lemma LayoutParses(head: string, unread: string, e: EntityRemoval, floatParses: string -> bool)
    requires |head| >= 1 && Excludes(unread, ':') && e.entityId <= IntMax
    requires ValidCoordinate(e.x, floatParses) && ValidCoordinate(e.y, floatParses) && ValidCoordinate(e.z, floatParses)
    requires var m := Layout(head, unread, NatToString(e.entityId), e.x, e.y, e.z);
             StartsWith(m, EntityRemovedPrefix) && e.sourcePartition == SourcePartition(m, |head|)
    ensures ParseEntityRemoved(Layout(head, unread, NatToString(e.entityId), e.x, e.y, e.z), floatParses) == Success(e)
  {
    var digits := NatToString(e.entityId);
    var m := Layout(head, unread, digits, e.x, e.y, e.z);
    var c1 := |head|;
    var c2 := c1 + 1 + |unread|;
    var c3 := c2 + 1 + |digits|;
    var c4 := c3 + 1 + |e.x|;
    var c5 := c4 + 1 + |e.y|;
    LayoutColons(head, unread, digits, e.x, e.y, e.z);
    assert Colons(m) == Colons(head) + [c1, c2, c3, c4, c5];
    LayoutSlices(head, unread, digits, e.x, e.y, e.z);
    assert m[c2 + 1..c3] == digits && m[c3 + 1..c4] == e.x && m[c4 + 1..c5] == e.y && m[c5 + 1..] == e.z;
    ParseIntOfPrinted(e.entityId);
    ParseWithColons(m, floatParses, Colons(head), c1, c2, c3, c4, c5, e);
  }

  /** The parser recovers the removal from its layout, whatever the unread field holds. */
  lemma EntityRemovedRoundTrip(partition: string, unread: string, e: EntityRemoval, floatParses: string -> bool)
    requires Excludes(unread, ':') && e.entityId <= IntMax && e.sourcePartition == partition
    requires ValidCoordinate(e.x, floatParses) && ValidCoordinate(e.y, floatParses) && ValidCoordinate(e.z, floatParses)
    ensures StartsWith(FormatEntityRemoved(partition, unread, e), EntityRemovedPrefix)
    ensures ParseEntityRemoved(FormatEntityRemoved(partition, unread, e), floatParses) == Success(e)
  {
    var head := EntityRemovedPrefix + partition;
    var m := FormatEntityRemoved(partition, unread, e);
    LayoutSlices(head, unread, NatToString(e.entityId), e.x, e.y, e.z);
    PrefixSlices(m, EntityRemovedPrefix, partition, |head|);
    LayoutParses(head, unread, e, floatParses);
  }

  /** The prefix's name part holds no colon. */
  lemma NameHasNoColons()
    ensures Colons("EntityRemoved") == []
  {
    NoColonsBetween("EntityRemoved", 0, 13);
  }

  /** The short layout's parse, for any colon-free name that with a colon makes up the prefix. */
  lemma ParseShortLayout(name: string, partition: string, e: EntityRemoval, floatParses: string -> bool)
    requires name + ":" == EntityRemovedPrefix && Colons(name) == []
    requires Excludes(partition, ':') && e.entityId <= IntMax
    requires ValidCoordinate(e.x, floatParses) && ValidCoordinate(e.y, floatParses) && ValidCoordinate(e.z, floatParses)
    ensures var m := Layout(name, partition, NatToString(e.entityId), e.x, e.y, e.z);
            && StartsWith(m, EntityRemovedPrefix)
            && ParseEntityRemoved(m, floatParses) == Success(e.(sourcePartition := m[14..]))
  {
    var m := Layout(name, partition, NatToString(e.entityId), e.x, e.y, e.z);
    LayoutSlices(name, partition, NatToString(e.entityId), e.x, e.y, e.z);
    PrefixThenChar(m, name, |name|);
    LayoutParses(name, partition, e.(sourcePartition := m[14..]), floatParses);
  }

  /**
   * With only the partition, id, x, y and z after the prefix (no field the
   * parser skips), the fifth-last colon is the prefix's own, and the source
   * partition comes out as everything after the prefix.
   */
  lemma ShortLayoutTakesWholeTail(partition: string, e: EntityRemoval, floatParses: string -> bool)
    requires Excludes(partition, ':') && e.entityId <= IntMax
    requires ValidCoordinate(e.x, floatParses) && ValidCoordinate(e.y, floatParses) && ValidCoordinate(e.z, floatParses)
    ensures var m := Layout("EntityRemoved", partition, NatToString(e.entityId), e.x, e.y, e.z);
            && StartsWith(m, EntityRemovedPrefix)
            && ParseEntityRemoved(m, floatParses) == Success(e.(sourcePartition := m[14..]))
  {
    NameHasNoColons();
    ParseShortLayout("EntityRemoved", partition, e, floatParses);
  }

  // ---------------------------------------------------------------------------
  // Dispatch
  // ---------------------------------------------------------------------------

  datatype Handled =
    | Ignored
    | OutliersHandled(outliers: Result<OutliersNotice, OutliersError>)
    | RemovalHandled(removal: Result<EntityRemoval, RemovalError>)

  /** handleOutlierMessage: only the two prefixes are acted on; anything else is ignored. */
  function HandleOutlierMessage(message: string, floatParses: string -> bool): (r: Handled)
    ensures r.Ignored? <==> !StartsWith(message, OutliersPrefix) && !StartsWith(message, EntityRemovedPrefix)
    ensures r.OutliersHandled? <==> StartsWith(message, OutliersPrefix)
    ensures r.OutliersHandled? ==> r.outliers == ParseOutliersDetected(message)
    ensures r.RemovalHandled? ==> StartsWith(message, EntityRemovedPrefix) && r.removal == ParseEntityRemoved(message, floatParses)
  {
    if StartsWith(message, OutliersPrefix) then OutliersHandled(ParseOutliersDetected(message))
    else if StartsWith(message, EntityRemovedPrefix) then RemovalHandled(ParseEntityRemoved(message, floatParses))
    else Ignored
  }
}

=== FILE: interlink_identifier.dfy ===
/**
 * Interlink identifiers: a node type and a string id, printed as
 * `<type name> <id>` and read back from whitespace-separated tokens. Equality
 * and ordering of identifiers are those of their printed forms.
 */
module InterlinkIdentifiers {
  import opened Wrappers
  import opened Text

  /** InterlinkType, with its underlying values -1 to 5. */
  datatype InterlinkType = Invalid | Unknown | Partition | God | GodView | GameClient | GameServer

  function TypeCode(t: InterlinkType): (r: int)
    ensures -1 <= r <= 5
  {
    match t
    case Invalid => -1
    case Unknown => 0
    case Partition => 1
    case God => 2
    case GodView => 3
    case GameClient => 4
    case GameServer => 5
  }

  /** The type with a given underlying value, if any. */
  function TypeOfCode(code: int): (r: Option<InterlinkType>)
    ensures r.Some? <==> -1 <= code <= 5
    ensures r.Some? ==> TypeCode(r.value) == code
  {
    if code == -1 then Some(Invalid)
    else if code == 0 then Some(Unknown)
    else if code == 1 then Some(Partition)
    else if code == 2 then Some(God)
    else if code == 3 then Some(GodView)
    else if code == 4 then Some(GameClient)
    else if code == 5 then Some(GameServer)
    else None
  }

  /** The reflected name of a type; every type but `Unknown` is described. */
  function Name(t: InterlinkType): Option<string> {
    match t
    case Invalid => Some("eInvalid")
    case Unknown => None
    case Partition => Some("ePartition")
    case God => Some("eGod")
    case GodView => Some("eGodView")
    case GameClient => Some("eGameClient")
    case GameServer => Some("eGameServer")
  }

  predicate Described(t: InterlinkType) {
    Name(t).Some?
  }

  /** What an undescribed type prints as. */
  const Fallback: string := "UnknownUnknownType?"

  /** enum_from_string: the described type of that name, if any. */
  function TypeFromName(n: string): (r: Option<InterlinkType>)
    ensures r.Some? ==> Name(r.value) == Some(n)
    ensures forall t :: Name(t) == Some(n) ==> r == Some(t)
  {
    if n == "eInvalid" then Some(Invalid)
    else if n == "ePartition" then Some(Partition)
    else if n == "eGod" then Some(God)
    else if n == "eGodView" then Some(GodView)
    else if n == "eGameClient" then Some(GameClient)
    else if n == "eGameServer" then Some(GameServer)
    else None
  }

  datatype Identifier = Identifier(kind: InterlinkType, id: string)

  /** The default identifier: invalid type, empty id. */
  function Default(): (r: Identifier)
    ensures r.kind == Invalid && r.id == ""
  {
    Identifier(Invalid, "")
  }

  /** The two-argument constructor; the id defaults to empty. */
  function Make(kind: InterlinkType, id: string := ""): (r: Identifier)
    ensures r.kind == kind && r.id == id
  {
    Identifier(kind, id)
  }

  function MakeIDGod(): (r: Identifier)
    ensures r.kind == God && r.id == ""
  {
    Identifier(God, "")
  }

  function MakeIDPartition(id: string): (r: Identifier)
    ensures r.kind == Partition && r.id == id
  {
    Identifier(Partition, id)
  }

  function MakeIDGameServer(id: string): (r: Identifier)
    ensures r.kind == GameServer && r.id == id
  {
    Identifier(GameServer, id)
  }

  function MakeIDGameClient(id: string): (r: Identifier)
    ensures r.kind == GameClient && r.id == id
  {
    Identifier(GameClient, id)
  }

  /** The god view tool connects as a game client with an empty id. */
  function MakeIDGodView(): (r: Identifier)
    ensures r.kind == GameClient && r.id == ""
  {
    Identifier(GameClient, "")
  }

  predicate NoSpace(s: string) {
    forall i :: 0 <= i < |s| ==> !IsSpace(s[i])
  }

  function PrintedName(t: InterlinkType): (r: string)
    ensures |r| > 0 && NoSpace(r)
    ensures Described(t) ==> Name(t) == Some(r)
  {
    match t
    case Invalid => "eInvalid"
    case Unknown => Fallback
    case Partition => "ePartition"
    case God => "eGod"
    case GodView => "eGodView"
    case GameClient => "eGameClient"
    case GameServer => "eGameServer"
  }

  /** ToString: the type's name (or the fallback), a space, the id. */
  function ToString(x: Identifier): string {
    PrintedName(x.kind) + " " + x.id
  }

  // ---------------------------------------------------------------------------
  // Reading tokens as `istream >> std::string` does
  // ---------------------------------------------------------------------------

  /** Leading whitespace dropped. */
  function SkipSpace(s: string): (r: string)
    ensures |r| <= |s| && r == s[|s| - |r|..]
    ensures forall i :: 0 <= i < |s| - |r| ==> IsSpace(s[i])
    ensures |r| > 0 ==> !IsSpace(r[0])
  {
    if |s| > 0 && IsSpace(s[0]) then
      var r := SkipSpace(s[1..]);
      assert s[1..][|s| - 1 - |r|..] == s[|s| - |r|..];
      assert forall i :: 1 <= i < |s| - |r| ==> s[i] == s[1..][i - 1];
      r
    else s
  }

  /** The longest whitespace-free prefix, and what follows it. */
  function TakeToken(s: string): (r: (string, string))
    ensures r.0 + r.1 == s && NoSpace(r.0)
    ensures |r.1| > 0 ==> IsSpace(r.1[0])
  {
    if |s| == 0 || IsSpace(s[0]) then ("", s)
    else
      var (tok, rest) := TakeToken(s[1..]);
      assert [s[0]] + tok + rest == s;
      ([s[0]] + tok, rest)
  }

  /** One `>>` extraction: none when only whitespace is left. */
  function ReadToken(s: string): (r: Option<(string, string)>)
    ensures r.None? <==> forall i :: 0 <= i < |s| ==> IsSpace(s[i])
    ensures r.Some? ==> |r.value.0| > 0 && NoSpace(r.value.0)
  {
    var t := SkipSpace(s);
    if |t| == 0 then None
    else
      var (tok, rest) := TakeToken(t);
      assert tok[0] == t[0];
      Some((tok, rest))
  }

  /**
   * FromString: the first token must name a described type; a second token,
   * if any, is the id (otherwise the id is empty); later tokens are ignored.
   */
  function FromString(input: string): (r: Option<Identifier>)
    ensures (forall i :: 0 <= i < |input| ==> IsSpace(input[i])) ==> r.None?
    ensures r.Some? ==> Described(r.value.kind) && NoSpace(r.value.id)
  {
    match ReadToken(input)
    case None => None
    case Some((name, rest)) =>
      var idValue := match ReadToken(rest) case None => "" case Some((v, _)) => v;
      match TypeFromName(name)
      case None => None
      case Some(t) => Some(Identifier(t, idValue))
  }

  /** A whitespace-free token followed by whitespace or nothing is read whole. */
  lemma {:induction false} TakeTokenOf(tok: string, rest: string)
    requires NoSpace(tok)
    requires |rest| > 0 ==> IsSpace(rest[0])
    ensures TakeToken(tok + rest) == (tok, rest)
    decreases |tok|
  {
    if |tok| > 0 {
      var s := tok + rest;
      assert s[0] == tok[0] && !IsSpace(s[0]);
      assert s[1..] == tok[1..] + rest;
      TakeTokenOf(tok[1..], rest);
      assert TakeToken(s) == ([s[0]] + TakeToken(s[1..]).0, TakeToken(s[1..]).1);
      assert [tok[0]] + tok[1..] == tok;
    } else {
      assert tok + rest == rest;
    }
  }

  /** Reading a printed identifier yields its name, then its id if it has one. */
  lemma ReadPrinted(name: string, id: string)
    requires |name| > 0 && NoSpace(name) && NoSpace(id)
    ensures ReadToken(name + " " + id) == Some((name, " " + id))
    ensures |id| == 0 ==> ReadToken(" " + id).None?
    ensures |id| > 0 ==> ReadToken(" " + id) == Some((id, ""))
  {
    TakeTokenOf(name, " " + id);
    assert name + " " + id == name + (" " + id);
    if |id| > 0 {
      assert (" " + id)[1..] == id;
      TakeTokenOf(id, "");
      assert id + "" == id;
    }
  }

  /** A printed name and id read back as the type of that name, if any, with that id. */
  lemma ReadsAs(name: string, id: string)
    requires |name| > 0 && NoSpace(name) && NoSpace(id)
    ensures FromString(name + " " + id) == match TypeFromName(name) case None => None case Some(t) => Some(Identifier(t, id))
  {
    ReadPrinted(name, id);
  }

  /** Printing then reading gives back every identifier of a described type whose id has no whitespace. */
  lemma RoundTrip(x: Identifier)
    requires Described(x.kind) && NoSpace(x.id)
    ensures FromString(ToString(x)) == Some(x)
  {
    ReadsAs(PrintedName(x.kind), x.id);
  }

  /** The fallback text names no type. */
  lemma FallbackNamesNoType()
    ensures TypeFromName(Fallback).None?
  {
    assert Fallback[0] == 'U';
  }

  /** An identifier of an undescribed type prints, but does not read back. */
  lemma UndescribedDoesNotReadBack(id: string)
    requires NoSpace(id)
    ensures FromString(ToString(Identifier(Unknown, id))).None?
  {
    FallbackNamesNoType();
    ReadsAs(Fallback, id);
  }

  /** A name and a non-empty id followed by white space read back as that name's type and that id. */
  lemma ReadsAsWithTail(name: string, id: string, tail: string)
    requires |name| > 0 && NoSpace(name) && |id| > 0 && NoSpace(id) && |tail| > 0 && IsSpace(tail[0])
    ensures FromString(name + " " + id + tail) == match TypeFromName(name) case None => None case Some(t) => Some(Identifier(t, id))
  {
    var rest := " " + (id + tail);
    assert name + " " + id + tail == name + rest;
    TakeTokenOf(name, rest);
    assert ReadToken(name + rest) == Some((name, rest));
    assert rest[1..] == id + tail;
    TakeTokenOf(id, tail);
    assert ReadToken(rest) == Some((id, tail));
  }

  /** Tokens after the id are ignored. */
  lemma FurtherTokensIgnored(x: Identifier, more: string)
    requires Described(x.kind) && |x.id| > 0 && NoSpace(x.id)
    ensures FromString(ToString(x) + " " + more) == Some(x)
  {
    ReadsAsWithTail(PrintedName(x.kind), x.id, " " + more);
    assert ToString(x) + " " + more == PrintedName(x.kind) + " " + x.id + (" " + more);
  }

  // ---------------------------------------------------------------------------
  // Comparison, through the printed form
  // ---------------------------------------------------------------------------

  /** operator==: the printed forms are equal. */
  predicate Same(a: Identifier, b: Identifier) {
    ToString(a) == ToString(b)
  }

  /** operator<: the printed forms in `std::string` order. */
  predicate Less(a: Identifier, b: Identifier) {
    LexLess(ToString(a), ToString(b))
  }

  /** In a word, a space and an id, the first whitespace is the space after the word. */
  lemma SpaceAfterWord(w: string, id: string)
    ensures IsSpace((w + " " + id)[|w|])
  {
  }

  /** Two whitespace-free words each followed by a space split the same way only when they are the same word. */
  lemma SplitAtFirstSpace(n1: string, id1: string, n2: string, id2: string)
    requires NoSpace(n1) && NoSpace(n2) && n1 + " " + id1 == n2 + " " + id2
    ensures n1 == n2 && id1 == id2
  {
    var s := n1 + " " + id1;
    if |n1| < |n2| {
      SpaceAfterWord(n1, id1);
      assert false;
    } else if |n2| < |n1| {
      SpaceAfterWord(n2, id2);
      assert false;
    } else {
      assert n1 == s[..|n1|] == n2;
      assert id1 == s[|n1| + 1..] == id2;
    }
  }

  /** The printed form determines the identifier: `==` on identifiers is field-wise equality. */
  lemma SameIsEquality(a: Identifier, b: Identifier)
    ensures Same(a, b) <==> a == b
  {
    if Same(a, b) {
      SplitAtFirstSpace(PrintedName(a.kind), a.id, PrintedName(b.kind), b.id);
    }
  }

  /** `<` is a strict total order on identifiers, consistent with `==`. */
  lemma LessIsStrictTotalOrder(a: Identifier, b: Identifier, c: Identifier)
    ensures !Less(a, a)
    ensures Less(a, b) ==> !Less(b, a)
    ensures Less(a, b) && Less(b, c) ==> Less(a, c)
    ensures a == b || Less(a, b) || Less(b, a)
  {
    LexLessIrreflexive(ToString(a));
    if Less(a, b) {
      LexLessAsymmetric(ToString(a), ToString(b));
      if Less(b, c) {
        LexLessTransitive(ToString(a), ToString(b), ToString(c));
      }
    }
    LexLessTotal(ToString(a), ToString(b));
    SameIsEquality(a, b);
  }

  // ---------------------------------------------------------------------------
  // Serialize / Deserialize
  // ---------------------------------------------------------------------------

  /** What the byte writer records: a scalar, or a length-prefixed string. */
  datatype Field = Scalar(value: int) | Str(text: string)

  /** Serialize: the type's underlying value, then the id. */
  function Serialize(x: Identifier): seq<Field> {
    [Scalar(TypeCode(x.kind)), Str(x.id)]
  }

  /** Deserialize: a type value, then a string, in that order; the remaining stream is returned. */
  function Deserialize(stream: seq<Field>): (r: Option<(Identifier, seq<Field>)>)
    ensures r.Some? <==> |stream| >= 2 && stream[0].Scalar? && stream[1].Str? && -1 <= stream[0].value <= 5
    ensures r.Some? ==> TypeCode(r.value.0.kind) == stream[0].value && r.value.0.id == stream[1].text
    ensures r.Some? ==> r.value.1 == stream[2..]
  {
    if |stream| < 2 || !stream[0].Scalar? || !stream[1].Str? then None
    else match TypeOfCode(stream[0].value)
      case None => None
      case Some(t) => Some((Identifier(t, stream[1].text), stream[2..]))
  }

  /** Deserialize reads back what Serialize wrote, leaving what follows untouched. */
  lemma SerializeRoundTrip(x: Identifier, rest: seq<Field>)
    ensures Deserialize(Serialize(x) + rest) == Some((x, rest))
  {
    var s := Serialize(x) + rest;
    assert s[2..] == rest;
    assert TypeOfCode(TypeCode(x.kind)) == Some(x.kind);
  }
}

=== FILE: internal_db.dfy ===
/**
 * Where the internal database lives: host and port come from the
 * environment when set, otherwise from compiled-in defaults, and the port
 * text must be a whole decimal number from 1 to 65535. An environment
 * variable is `None` when unset; its value is the text up to the first NUL.
 */
module InternalDB {
  import opened Wrappers
  import opened Text
  import RedisConnect

  /** The highest valid TCP port. */
  const MaxPort: int := 65535

  /** The constructor's retry budget and interval. */
  const ConnectRetries: RedisConnect.u32 := 20
  const ConnectRetryIntervalMs: RedisConnect.u32 := 500

  /** ResolveRedisHost: a set, non-empty variable wins; otherwise the default. */
  function ResolveRedisHost(env: Option<string>, defaultHost: string): (r: string)
    ensures env.Some? && env.value != "" ==> r == env.value
    ensures env.None? || env.value == "" ==> r == defaultHost
  {
    if env.Some? && |env.value| > 0 then env.value else defaultHost
  }

  /** The index of the first character that is not white space, from `i` on. */
  function SkipSpaces(s: string, i: nat): (r: nat)
    requires i <= |s|
    decreases |s| - i
    ensures i <= r <= |s|
    ensures forall k :: i <= k < r ==> IsSpace(s[k])
    ensures r < |s| ==> !IsSpace(s[r])
  {
    if i < |s| && IsSpace(s[i]) then SkipSpaces(s, i + 1) else i
  }

  /** The length of the run of digits starting at `i`. */
  function DigitRun(s: string, i: nat): (r: nat)
    requires i <= |s|
    decreases |s| - i
    ensures i + r <= |s|
    ensures AllDigits(s[i..i + r])
    ensures i + r < |s| ==> !IsDigit(s[i + r])
  {
    if i < |s| && IsDigit(s[i]) then
      var rest := DigitRun(s, i + 1);
      assert s[i..i + 1 + rest] == [s[i]] + s[i + 1..i + 1 + rest];
      1 + rest
    else
      assert s[i..i] == [];
      0
  }

  /**
   * `strtol(text, &end, 10)` when it consumes the whole text: white space,
   * an optional sign and at least one digit, and nothing after. The value is
   * the exact signed number; a value beyond the range of `long` would be
   * clamped by strtol but is then rejected by the port range check anyway.
   */
  function StrtolWhole(text: string): (r: Option<int>)
    ensures r.Some? ==> exists start :: 0 <= start < |text| && AllDigits(text[start..]) && (r.value == DigitsValue(text[start..]) || r.value == 0 - DigitsValue(text[start..]) as int)
  {
    var i := SkipSpaces(text, 0);
    var negative := i < |text| && text[i] == '-';
    var j := if i < |text| && (text[i] == '-' || text[i] == '+') then i + 1 else i;
    var n := DigitRun(text, j);
    if n == 0 || j + n != |text| then None
    else
      assert text[j..j + n] == text[j..];
      var v := DigitsValue(text[j..]);
      Some(if negative then 0 - v as int else v)
  }

  /**
   * The shape strtol accepts as a whole number: white space before `sign`,
   * at most one sign from `sign` to `digits`, and from `digits` to the end
   * at least one digit and nothing else.
   */
  ghost predicate WholeNumberAt(text: string, sign: nat, digits: nat) {
    && sign <= digits < |text|
    && (forall k :: 0 <= k < sign ==> IsSpace(text[k]))
    && (digits == sign || (digits == sign + 1 && (text[sign] == '-' || text[sign] == '+')))
    && AllDigits(text[digits..])
  }

  /** The value of a whole number of that shape: the digits, negated after a minus sign. */
  ghost function SignedValue(text: string, sign: nat, digits: nat): int
    requires WholeNumberAt(text, sign, digits)
  {
    if digits == sign + 1 && text[sign] == '-' then 0 - DigitsValue(text[digits..]) as int
    else DigitsValue(text[digits..])
  }

  /**
   * StrtolWhole reads a value exactly when the text has the whole-number
   * shape, and the value it reads is that shape's signed value.
   */
  lemma StrtolWholeIsWholeNumber(text: string)
    ensures StrtolWhole(text).Some? <==> exists sign, digits :: WholeNumberAt(text, sign, digits)
    ensures forall sign, digits :: WholeNumberAt(text, sign, digits) ==> StrtolWhole(text) == Some(SignedValue(text, sign, digits))
  {
    var i := SkipSpaces(text, 0);
    var j := if i < |text| && (text[i] == '-' || text[i] == '+') then i + 1 else i;
    var n := DigitRun(text, j);
    if StrtolWhole(text).Some? {
      assert n > 0 && j + n == |text|;
      assert text[j..j + n] == text[j..];
      assert WholeNumberAt(text, i, j);
    }
    forall sign, digits | WholeNumberAt(text, sign, digits)
      ensures StrtolWhole(text) == Some(SignedValue(text, sign, digits))
    {
      WholeNumberIsUnique(text, sign, digits);
    }
  }

  /** A whole-number shape starts where strtol's scan starts, so the scan finds it. */
  lemma WholeNumberIsUnique(text: string, sign: nat, digits: nat)
    requires WholeNumberAt(text, sign, digits)
    ensures sign == SkipSpaces(text, 0)
    ensures StrtolWhole(text) == Some(SignedValue(text, sign, digits))
  {
    var i := SkipSpaces(text, 0);
    assert IsDigit(text[digits]) by {
      assert text[digits..][0] == text[digits];
    }
    assert !IsSpace(text[sign]);
    SkipSpacesStopsAt(text, 0, sign);
    forall k | digits <= k < |text| ensures IsDigit(text[k]) {
      assert text[digits..][k - digits] == text[k];
    }
    DigitRunOfDigits(text, digits);
  }

  /**
   * ResolveRedisPort: a set, non-empty variable whose whole text reads as a
   * number from 1 to 65535 gives that port; anything else gives the default.
   */
  function ResolveRedisPort(env: Option<string>, defaultPort: int): (r: int)
    ensures r == defaultPort || 1 <= r <= MaxPort
    ensures env.None? || env.value == "" ==> r == defaultPort
  {
    if env.Some? && |env.value| > 0 then
      var parsed := StrtolWhole(env.value);
      if parsed.Some? && 0 < parsed.value <= MaxPort then parsed.value else defaultPort
    else defaultPort
  }

  /** Every valid port, written in decimal, is read back as itself. */
  lemma PortRoundTrip(port: nat, defaultPort: int)
    requires 1 <= port <= MaxPort
    ensures ResolveRedisPort(Some(NatToString(port)), defaultPort) == port
  {
    var s := NatToString(port);
    assert !IsSpace(s[0]) by { assert IsDigit(s[0]); }
    assert SkipSpaces(s, 0) == 0;
    DigitRunOfDigits(s, 0);
    assert s[0..] == s;
  }

  /** Over a text of digits the run reaches the end. */
  lemma {:induction false} DigitRunOfDigits(s: string, i: nat)
    requires i <= |s| && forall k :: i <= k < |s| ==> IsDigit(s[k])
    ensures DigitRun(s, i) == |s| - i
    decreases |s| - i
  {
    if i < |s| {
      DigitRunOfDigits(s, i + 1);
    }
  }

  /** Leading white space and a plus sign are accepted, as strtol skips them. */
  lemma LeadingSpaceAndSignAccepted(port: nat, defaultPort: int)
    requires 1 <= port <= MaxPort
    ensures ResolveRedisPort(Some(" +" + NatToString(port)), defaultPort) == port
  {
    var d := NatToString(port);
    var s := " +" + d;
    assert s[0] == ' ' && s[1] == '+';
    assert !IsSpace(s[1]);
    assert SkipSpaces(s, 1) == 1;
    assert SkipSpaces(s, 0) == 1;
    DigitRunOfDigits(s, 2);
    assert s[2..] == d;
  }

  /** Text left after the number, such as a trailing space, makes the default win. */
  lemma TrailingTextRejected(port: nat, tail: string, defaultPort: int)
    requires 1 <= port <= MaxPort && |tail| > 0 && !IsDigit(tail[0])
    ensures ResolveRedisPort(Some(NatToString(port) + tail), defaultPort) == defaultPort
  {
    var d := NatToString(port);
    var s := d + tail;
    assert !IsSpace(s[0]) by { assert s[0] == d[0] && IsDigit(d[0]); }
    assert SkipSpaces(s, 0) == 0;
    DigitRunStopsAt(s, 0, |d|);
  }

  /** Skipping white space stops at the first character that is not white space. */
  lemma {:induction false} SkipSpacesStopsAt(s: string, i: nat, stop: nat)
    requires i <= stop < |s| && (forall k :: i <= k < stop ==> IsSpace(s[k])) && !IsSpace(s[stop])
    ensures SkipSpaces(s, i) == stop
    decreases stop - i
  {
    if i < stop {
      SkipSpacesStopsAt(s, i + 1, stop);
    }
  }

  /** A run of digits ends at the first non-digit. */
  lemma {:induction false} DigitRunStopsAt(s: string, i: nat, stop: nat)
    requires i <= stop < |s| && (forall k :: i <= k < stop ==> IsDigit(s[k])) && !IsDigit(s[stop])
    ensures DigitRun(s, i) == stop - i
    decreases stop - i
  {
    if i < stop {
      DigitRunStopsAt(s, i + 1, stop);
    }
  }

  /** A value out of range, zero included, makes the default win. */
  lemma OutOfRangeRejected(value: nat, defaultPort: int)
    requires value == 0 || value > MaxPort
    ensures ResolveRedisPort(Some(NatToString(value)), defaultPort) == defaultPort
  {
    var s := NatToString(value);
    assert !IsSpace(s[0]) by { assert IsDigit(s[0]); }
    assert SkipSpaces(s, 0) == 0;
    DigitRunOfDigits(s, 0);
    assert s[0..] == s;
  }

  /** The connection the constructor asks for: the resolved host and port, 20 retries, 500 ms apart. */
  datatype ConnectRequest = ConnectRequest(options: RedisConnect.Options, maxRetries: RedisConnect.u32, retryIntervalMs: RedisConnect.u32)

  function Construct(hostEnv: Option<string>, portEnv: Option<string>, defaultHost: string, defaultPort: int): (r: ConnectRequest)
    ensures r.options == RedisConnect.NonClusterOptions(ResolveRedisHost(hostEnv, defaultHost), ResolveRedisPort(portEnv, defaultPort))
    ensures r.maxRetries == 20 && r.retryIntervalMs == 500
  {
    ConnectRequest(RedisConnect.NonClusterOptions(ResolveRedisHost(hostEnv, defaultHost), ResolveRedisPort(portEnv, defaultPort)),
                   ConnectRetries, ConnectRetryIntervalMs)
  }

  /**
   * A set host and a valid decimal port in the environment are what the
   * constructor connects to, whatever the compiled-in defaults; with both
   * variables unset it connects to the defaults.
   */
  lemma ConstructHonoursEnvironment(host: string, port: nat, defaultHost: string, defaultPort: int)
    requires |host| > 0 && 1 <= port <= MaxPort
    ensures Construct(Some(host), Some(NatToString(port)), defaultHost, defaultPort).options
            == RedisConnect.Options(host, port, false)
    ensures Construct(None, None, defaultHost, defaultPort).options == RedisConnect.Options(defaultHost, defaultPort, false)
  {
    PortRoundTrip(port, defaultPort);
  }
}

=== FILE: js_number.dfy ===
/**
 * JavaScript numbers as the snapshot and telemetry code sees them: a finite
 * value, NaN, or one of the two infinities. Finite values are exact reals, so
 * IEEE-754 rounding and overflow to infinity are not part of this model.
 */
module JsNumber {

  datatype Num = Finite(value: real) | NaN | PosInf | NegInf

  /** `Number.isFinite` */
  predicate IsFinite(n: Num) {
    n.Finite?
  }

  /** The JS number of an integer reply. */
  function FromInt(i: int): (r: Num)
    ensures r.Finite? && r.value == i as real
  {
    Finite(i as real)
  }

  /** `a + b` on JS numbers. */
  function Add(a: Num, b: Num): (r: Num)
    ensures r.Finite? <==> a.Finite? && b.Finite?
    ensures r.Finite? ==> r.value == a.value + b.value
    ensures a.NaN? || b.NaN? ==> r.NaN?
  {
    match (a, b)
    case (Finite(x), Finite(y)) => Finite(x + y)
    case (NaN, _) => NaN
    case (_, NaN) => NaN
    case (PosInf, NegInf) => NaN
    case (NegInf, PosInf) => NaN
    case (PosInf, _) => PosInf
    case (_, PosInf) => PosInf
    case _ => NegInf
  }

  /** `a / n` for a positive count `n`. */
  function DivCount(a: Num, n: nat): (r: Num)
    requires n > 0
    ensures r.Finite? <==> a.Finite?
    ensures r.Finite? ==> r.value * (n as real) == a.value
    ensures r.NaN? <==> a.NaN?
  {
    match a
    case Finite(x) => Finite(x / (n as real))
    case _ => a
  }

  /** `a === b`: NaN is never strictly equal to anything, itself included. */
  predicate StrictEquals(a: Num, b: Num) {
    match (a, b)
    case (Finite(x), Finite(y)) => x == y
    case (PosInf, PosInf) => true
    case (NegInf, NegInf) => true
    case _ => false
  }

  lemma StrictEqualsIsSymmetric(a: Num, b: Num)
    ensures StrictEquals(a, b) <==> StrictEquals(b, a)
  {
  }

  /** `===` agrees with value equality on everything but NaN. */
  lemma StrictEqualsIsIdentityExceptNaN(a: Num, b: Num)
    ensures StrictEquals(a, b) <==> a == b && !a.NaN?
  {
  }

  /** Running `sum += x` over `xs` starting from 0, left to right. */
  function Sum(xs: seq<Num>): (r: Num)
    ensures r.Finite? <==> forall i :: 0 <= i < |xs| ==> xs[i].Finite?
    ensures r.Finite? ==> r.value == RealSum(xs)
  {
    if |xs| == 0 then Finite(0.0) else Add(Sum(xs[..|xs| - 1]), xs[|xs| - 1])
  }

  /** The exact sum of the finite values in `xs` (non-finite entries count as 0). */
  function RealSum(xs: seq<Num>): real {
    if |xs| == 0 then 0.0
    else RealSum(xs[..|xs| - 1]) + (if xs[|xs| - 1].Finite? then xs[|xs| - 1].value else 0.0)
  }
}

=== FILE: js_text.dfy ===
/**
 * JavaScript strings are sequences of UTF-16 code units: `length` and
 * `slice` count and cut code units, so a character above U+FFFF counts
 * twice and a cut may fall between the two halves of its surrogate pair.
 * A model string is a sequence of Unicode scalar values; `Utf16` gives the
 * code units JavaScript holds for it.
 */
module JsText {
  import opened Wrappers

  /** One UTF-16 code unit. */
  newtype CodeUnit = x: int | 0 <= x < 0x1_0000

  /** The code units of one character: itself below U+10000, otherwise a surrogate pair. */
  function CharUnits(c: char): (r: seq<CodeUnit>)
    ensures |r| == if c as int < 0x1_0000 then 1 else 2
    ensures c as int < 0x1_0000 ==> r[0] as int == c as int
    ensures c as int >= 0x1_0000 ==> 0xD800 <= r[0] as int < 0xDC00 <= r[1] as int < 0xE000
  {
    var n := c as int;
    if n < 0x1_0000 then [n as CodeUnit]
    else
      var v := n - 0x1_0000;
      [(0xD800 + v / 0x400) as CodeUnit, (0xDC00 + v % 0x400) as CodeUnit]
  }

  /** The code units JavaScript stores for a string, in order. */
  function Utf16(s: string): seq<CodeUnit> {
    if |s| == 0 then [] else Utf16(s[..|s| - 1]) + CharUnits(s[|s| - 1])
  }

  /** Every character lies below U+0080. */
  predicate IsAscii(s: string) {
    forall i :: 0 <= i < |s| ==> s[i] as int < 0x80
  }

  /** Every character lies below U+10000, so each is one code unit. */
  predicate IsBmp(s: string) {
    forall i :: 0 <= i < |s| ==> s[i] as int < 0x1_0000
  }

  /** Code units read back as text when each is an ASCII character. */
  function AsciiText(u: seq<CodeUnit>): (r: Option<string>)
    ensures r.Some? <==> forall i :: 0 <= i < |u| ==> u[i] < 0x80
    ensures r.Some? ==> |r.value| == |u| && forall i :: 0 <= i < |u| ==> r.value[i] as int == u[i] as int
  {
    if |u| == 0 then Some([])
    else if u[0] >= 0x80 then None
    else
      match AsciiText(u[1..])
      case None => None
      case Some(rest) => Some([(u[0] as int) as char] + rest)
  }

  /** Text of characters below U+10000 has one code unit per character, equal to it. */
  lemma {:induction false} Utf16OfBmp(s: string)
    requires IsBmp(s)
    ensures |Utf16(s)| == |s|
    ensures forall i :: 0 <= i < |s| ==> Utf16(s)[i] as int == s[i] as int
    decreases |s|
  {
    if |s| > 0 {
      var front := s[..|s| - 1];
      assert IsBmp(front) by {
        forall i | 0 <= i < |front| ensures front[i] as int < 0x1_0000 {
          assert front[i] == s[i];
        }
      }
      Utf16OfBmp(front);
      assert Utf16(s) == Utf16(front) + CharUnits(s[|s| - 1]);
      forall i | 0 <= i < |s| ensures Utf16(s)[i] as int == s[i] as int {
        if i < |front| {
          assert Utf16(s)[i] == Utf16(front)[i];
          assert front[i] == s[i];
        }
      }
    }
  }

  /** Counting code units counts characters above U+FFFF twice. */
  lemma {:induction false} Utf16Length(s: string)
    ensures |Utf16(s)| >= |s|
    ensures |Utf16(s)| == |s| <==> IsBmp(s)
    decreases |s|
  {
    if |s| > 0 {
      var front := s[..|s| - 1];
      Utf16Length(front);
      if IsBmp(s) {
        Utf16OfBmp(s);
      }
      if |Utf16(s)| == |s| {
        assert |Utf16(front)| == |front|;
        assert IsBmp(s) by {
          forall i | 0 <= i < |s| ensures s[i] as int < 0x1_0000 {
            if i < |front| {
              assert front[i] == s[i];
            }
          }
        }
      }
    }
  }

  /** ASCII text reads back from its code units. */
  lemma AsciiTextOfUtf16(s: string)
    requires IsAscii(s)
    ensures AsciiText(Utf16(s)) == Some(s)
  {
    Utf16OfBmp(s);
    var r := AsciiText(Utf16(s));
    assert r.value == s;
  }
}

=== FILE: lease_coordinator.dfy ===
/**
 * Leases on handoff connections. Two shards that talk to each other share
 * one lease key in the internal key-value store; the shard whose name the
 * key holds owns the connection until it releases the key or the key's time
 * to live runs out. Taking a free lease is a GET and then a plain SET, so
 * two shards can both take it (InterleavedAcquiresBothSucceed); the model's
 * acquisition uses the SET NX step that rules this out (WriteLease). Each
 * shard also remembers when it last heard from each peer and drops (and
 * releases) peers that have gone quiet.
 *
 * The store is a map from key to stored value; the store's own expiry is not
 * modelled, only the time to live each write asks for. The clock is an
 * integer count of milliseconds, and the printed form of an identity is a
 * function the caller passes in.
 */
module LeaseCoordinator {
  import opened Wrappers
  import opened Text
  import opened NetworkIdentities

  datatype Options = Options(
    leaseEnabled: bool,
    leaseKeyPrefix: string,
    leaseTtlSeconds: int,
    inactivityTimeoutMs: int)

  /** A stored string and the time to live last requested for it (none after a plain SET). */
  datatype Stored = Stored(value: string, ttlSeconds: Option<int>)

  type Store = map<string, Stored>

  // ---------------------------------------------------------------------------
  // Lease keys
  // ---------------------------------------------------------------------------

  /** BuildLeaseKey on the two printed identities: prefix, the smaller name, `|`, the larger name. */
  function LeaseKey(prefix: string, self: string, other: string): (r: string)
    ensures LexLess(self, other) ==> r == prefix + self + "|" + other
    ensures !LexLess(self, other) ==> r == prefix + other + "|" + self
  {
    if LexLess(self, other) then prefix + self + "|" + other else prefix + other + "|" + self
  }

  /** Both ends of a connection compute the same lease key. */
  lemma LeaseKeyIsSymmetric(prefix: string, a: string, b: string)
    ensures LeaseKey(prefix, a, b) == LeaseKey(prefix, b, a)
  {
    LexLessTotal(a, b);
    if LexLess(a, b) {
      LexLessAsymmetric(a, b);
    }
  }

  /** The key names the smaller identity first. */
  lemma LeaseKeyOrdersNames(prefix: string, a: string, b: string)
    ensures exists lo, hi :: LeaseKey(prefix, a, b) == prefix + lo + "|" + hi && {lo, hi} == {a, b} && !LexLess(hi, lo)
  {
    LexLessTotal(a, b);
    if LexLess(a, b) {
      LexLessAsymmetric(a, b);
      assert LeaseKey(prefix, a, b) == prefix + a + "|" + b;
    } else {
      assert LeaseKey(prefix, a, b) == prefix + b + "|" + a;
    }
  }

  // ---------------------------------------------------------------------------
  // Acquire, refresh, release
  // ---------------------------------------------------------------------------

  /**
   * Acquisition is two round trips to the store: a GET of the lease key,
   * then writes chosen from what the GET saw. Other shards may act on the
   * store between the two, so the second step works on the store as it is
   * by then, which need not be the store the GET read.
   */
  function ReadLease(options: Options, self: string, peer: string, store: Store): (r: Option<string>)
    ensures r.Some? <==> LeaseKey(options.leaseKeyPrefix, self, peer) in store
    ensures r.Some? ==> r.value == store[LeaseKey(options.leaseKeyPrefix, self, peer)].value
  {
    var key := LeaseKey(options.leaseKeyPrefix, self, peer);
    if key in store then Some(store[key].value) else None
  }

  /** EXPIRE: an existing key gets the time to live; on an absent key it does nothing. */
  function Expire(store: Store, key: string, ttlSeconds: int): (r: Store)
    ensures key in store ==> r == store[key := Stored(store[key].value, Some(ttlSeconds))]
    ensures key !in store ==> r == store
  {
    if key in store then store[key := store[key].(ttlSeconds := Some(ttlSeconds))] else store
  }

  /**
   * The second step as written: an absent reading is followed by a plain
   * SET (no NX) and an EXPIRE, our own name by an EXPIRE, and anything
   * else fails without writing. The SET overwrites whatever the key holds
   * by then.
   */
  function WriteLeaseAsWritten(options: Options, self: string, peer: string, seen: Option<string>, store: Store)
    : (r: (Store, bool))
    ensures r.1 <==> seen.None? || seen == Some(self)
    ensures seen.None? ==> r.0 == store[LeaseKey(options.leaseKeyPrefix, self, peer) := Stored(self, Some(options.leaseTtlSeconds))]
    ensures seen == Some(self) ==> r.0 == Expire(store, LeaseKey(options.leaseKeyPrefix, self, peer), options.leaseTtlSeconds)
    ensures !r.1 ==> r.0 == store
  {
    var key := LeaseKey(options.leaseKeyPrefix, self, peer);
    match seen
    case None => (Expire(store[key := Stored(self, None)], key, options.leaseTtlSeconds), true)
    case Some(owner) => if owner == self then (Expire(store, key, options.leaseTtlSeconds), true) else (store, false)
  }

  /**
   * The second step as intended: an absent reading is followed by a SET
   * with NX and a time to live, one command that takes the key only if it
   * is still absent and fails otherwise. The other readings act as written.
   */
  function WriteLease(options: Options, self: string, peer: string, seen: Option<string>, store: Store)
    : (r: (Store, bool))
    ensures seen.None? ==> (r.1 <==> LeaseKey(options.leaseKeyPrefix, self, peer) !in store)
    ensures seen.None? && r.1 ==>
              r.0 == store[LeaseKey(options.leaseKeyPrefix, self, peer) := Stored(self, Some(options.leaseTtlSeconds))]
    ensures seen.Some? ==> r == WriteLeaseAsWritten(options, self, peer, seen, store)
    ensures !r.1 ==> r.0 == store
  {
    var key := LeaseKey(options.leaseKeyPrefix, self, peer);
    if seen.None? then
      if key !in store then (store[key := Stored(self, Some(options.leaseTtlSeconds))], true) else (store, false)
    else WriteLeaseAsWritten(options, self, peer, seen, store)
  }

  /**
   * TryAcquireOrRefreshLease, with nothing in between its two steps: with
   * leases off it succeeds without touching the store; an absent key is
   * taken (written and given the time to live); a key this shard holds has
   * its time to live renewed; a key another shard holds is left alone and
   * the call fails. The second step is the intended SET NX one; run alone,
   * it does what the source's plain SET does (AcquireAsWrittenWhenAlone).
   */
  function TryAcquireOrRefresh(options: Options, self: string, peer: string, store: Store): (r: (Store, bool))
    ensures !options.leaseEnabled ==> r == (store, true)
    ensures r.1 <==> !options.leaseEnabled || HeldBy(store, LeaseKey(options.leaseKeyPrefix, self, peer), self)
                     || LeaseKey(options.leaseKeyPrefix, self, peer) !in store
    ensures !r.1 ==> r.0 == store
    ensures options.leaseEnabled && r.1 ==>
              r.0 == store[LeaseKey(options.leaseKeyPrefix, self, peer) := Stored(self, Some(options.leaseTtlSeconds))]
  {
    if !options.leaseEnabled then (store, true)
    else WriteLease(options, self, peer, ReadLease(options, self, peer, store), store)
  }

  /** Without interleaving, the source's plain SET and the intended SET NX give the same outcome. */
  lemma AcquireAsWrittenWhenAlone(options: Options, self: string, peer: string, store: Store)
    requires options.leaseEnabled
    ensures WriteLeaseAsWritten(options, self, peer, ReadLease(options, self, peer, store), store)
            == TryAcquireOrRefresh(options, self, peer, store)
  {
  }

  /**
   * As written, two peers whose GETs both find the lease free both take it:
   * each call reports success, and the later plain SET silently overwrites
   * the earlier one's name.
   */
  lemma InterleavedAcquiresBothSucceed(options: Options, a: string, b: string, store: Store)
    requires options.leaseEnabled && a != b
    requires LeaseKey(options.leaseKeyPrefix, a, b) !in store
    ensures var seenA := ReadLease(options, a, b, store);
            var seenB := ReadLease(options, b, a, store);
            var afterA := WriteLeaseAsWritten(options, a, b, seenA, store);
            var afterB := WriteLeaseAsWritten(options, b, a, seenB, afterA.0);
            afterA.1 && afterB.1 && HeldBy(afterB.0, LeaseKey(options.leaseKeyPrefix, a, b), b)
  {
    LeaseKeyIsSymmetric(options.leaseKeyPrefix, a, b);
  }

  /**
   * With SET NX, no interleaving lets both peers succeed. Both GETs read the
   * same store and a's write lands first; the opposite order is this lemma
   * with the names swapped, and a GET after the other's write is
   * LeaseIsExclusive.
   */
  lemma InterleavedAcquiresExclusive(options: Options, a: string, b: string, store: Store)
    requires options.leaseEnabled && a != b
    ensures var seenA := ReadLease(options, a, b, store);
            var seenB := ReadLease(options, b, a, store);
            var afterA := WriteLease(options, a, b, seenA, store);
            !(afterA.1 && WriteLease(options, b, a, seenB, afterA.0).1)
  {
    LeaseKeyIsSymmetric(options.leaseKeyPrefix, a, b);
  }

  /** `key` is present and holds `owner`. */
  predicate HeldBy(store: Store, key: string, owner: string) {
    key in store && store[key].value == owner
  }

  /** ReleaseLeaseIfOwned: with leases on, the key is deleted exactly when this shard holds it. */
  function ReleaseIfOwned(options: Options, self: string, peer: string, store: Store): (r: Store)
    ensures !options.leaseEnabled ==> r == store
    ensures options.leaseEnabled && HeldBy(store, LeaseKey(options.leaseKeyPrefix, self, peer), self) ==>
              r == store - {LeaseKey(options.leaseKeyPrefix, self, peer)}
    ensures options.leaseEnabled && !HeldBy(store, LeaseKey(options.leaseKeyPrefix, self, peer), self) ==> r == store
  {
    if !options.leaseEnabled then store
    else
      var key := LeaseKey(options.leaseKeyPrefix, self, peer);
      if key in store && store[key].value == self then store - {key} else store
  }

  /**
   * Once one shard's acquisition has finished, the peer's later attempt
   * fails and leaves the store as it is. Attempts whose steps interleave
   * are InterleavedAcquiresBothSucceed (as written) and
   * InterleavedAcquiresExclusive (with SET NX).
   */
  lemma LeaseIsExclusive(options: Options, a: string, b: string, store: Store)
    requires options.leaseEnabled && a != b
    requires TryAcquireOrRefresh(options, a, b, store).1
    ensures var held := TryAcquireOrRefresh(options, a, b, store).0;
            TryAcquireOrRefresh(options, b, a, held) == (held, false)
  {
    LeaseKeyIsSymmetric(options.leaseKeyPrefix, a, b);
  }

  /** Acquiring twice leaves the store as acquiring once; the second call also succeeds. */
  lemma AcquireIsIdempotent(options: Options, self: string, peer: string, store: Store)
    requires TryAcquireOrRefresh(options, self, peer, store).1
    ensures var once := TryAcquireOrRefresh(options, self, peer, store).0;
            TryAcquireOrRefresh(options, self, peer, once) == (once, true)
  {
    if options.leaseEnabled {
      var key := LeaseKey(options.leaseKeyPrefix, self, peer);
      var once := TryAcquireOrRefresh(options, self, peer, store).0;
      assert once[key := once[key].(ttlSeconds := Some(options.leaseTtlSeconds))] == once;
    }
  }

  /** A lease taken and then released by the same shard leaves no key behind, and other keys untouched. */
  lemma AcquireThenRelease(options: Options, self: string, peer: string, store: Store)
    requires options.leaseEnabled
    requires TryAcquireOrRefresh(options, self, peer, store).1
    ensures var key := LeaseKey(options.leaseKeyPrefix, self, peer);
            ReleaseIfOwned(options, self, peer, TryAcquireOrRefresh(options, self, peer, store).0) == store - {key}
  {
  }

  /** A shard cannot release a lease its peer holds. */
  lemma ReleaseRespectsOtherOwner(options: Options, a: string, b: string, store: Store)
    requires options.leaseEnabled && a != b
    requires TryAcquireOrRefresh(options, a, b, store).1
    ensures var held := TryAcquireOrRefresh(options, a, b, store).0;
            ReleaseIfOwned(options, b, a, held) == held
  {
    LeaseKeyIsSymmetric(options.leaseKeyPrefix, a, b);
  }

  // ---------------------------------------------------------------------------
  // Activity tracking
  // ---------------------------------------------------------------------------

  /** The coordinator's own state: its identity, options, and when each peer was last heard from. */
  datatype Coordinator = Coordinator(self: NetworkIdentity, options: Options, lastActivity: map<NetworkIdentity, int>)

  /**
   * MarkConnectionActivity: the peer's last activity becomes `now`, and with
   * leases on the lease is acquired or refreshed (its outcome is ignored).
   */
  function MarkConnectionActivity(c: Coordinator, show: NetworkIdentity -> string, peer: NetworkIdentity, now: int, store: Store)
    : (r: (Coordinator, Store))
    ensures r.0 == c.(lastActivity := c.lastActivity[peer := now])
    ensures r.1 == TryAcquireOrRefresh(c.options, show(c.self), show(peer), store).0
  {
    var c' := c.(lastActivity := c.lastActivity[peer := now]);
    if c.options.leaseEnabled then (c', TryAcquireOrRefresh(c.options, show(c.self), show(peer), store).0)
    else (c', store)
  }

  /** `duration_cast<seconds>` of a millisecond count: division truncating toward zero. */
  function WholeSeconds(ms: int): int {
    if ms >= 0 then ms / 1000 else -((-ms) / 1000)
  }

  /** The whole seconds of a duration lie between zero and the duration, less than a second from it. */
  lemma WholeSecondsBounds(ms: int)
    ensures ms >= 0 ==> 0 <= WholeSeconds(ms) && WholeSeconds(ms) * 1000 <= ms < (WholeSeconds(ms) + 1) * 1000
    ensures ms < 0 ==> WholeSeconds(ms) <= 0 && (WholeSeconds(ms) - 1) * 1000 < ms <= WholeSeconds(ms) * 1000
    ensures WholeSeconds(-ms) == -WholeSeconds(ms)
  {
  }

  /** A peer silent for longer than the timeout. */
  predicate Idle(c: Coordinator, peer: NetworkIdentity, now: int)
    requires peer in c.lastActivity
  {
    now - c.lastActivity[peer] > c.options.inactivityTimeoutMs
  }

  /** The peers that stay after reaping: those heard from within the timeout. */
  function ActivePeers(c: Coordinator, now: int): (r: map<NetworkIdentity, int>)
    ensures forall p :: p in r <==> p in c.lastActivity && !Idle(c, p, now)
    ensures forall p :: p in r ==> r[p] == c.lastActivity[p]
  {
    map p | p in c.lastActivity && !Idle(c, p, now) :: c.lastActivity[p]
  }

  /** The lease keys of a set of peers. */
  function KeysOfPeers(c: Coordinator, show: NetworkIdentity -> string, peers: set<NetworkIdentity>): set<string> {
    set p | p in peers :: LeaseKey(c.options.leaseKeyPrefix, show(c.self), show(p))
  }

  /** The keys among `keys` that hold this shard's name. */
  function OwnKeys(c: Coordinator, show: NetworkIdentity -> string, keys: set<string>, store: Store): set<string> {
    set k | k in keys && k in store && store[k].value == show(c.self)
  }

  /** The store after releasing the leases of `peers`: every such key this shard holds is deleted. */
  function ReleasedAll(c: Coordinator, show: NetworkIdentity -> string, peers: set<NetworkIdentity>, store: Store): Store {
    if !c.options.leaseEnabled then store else store - OwnKeys(c, show, KeysOfPeers(c, show, peers), store)
  }

  /** What the inactivity callback receives: the peer and its idle time in whole seconds. */
  datatype InactiveEvent = InactiveEvent(peer: NetworkIdentity, idleSeconds: int)

  /** Reaping progress: the peers in `done` have been looked at. */
  datatype Reaping = Reaping(kept: map<NetworkIdentity, int>, reaped: set<NetworkIdentity>, order: seq<NetworkIdentity>,
                             events: seq<InactiveEvent>)

  /** The peers of `done` are sorted into kept and reaped; `order` lists the reaped ones in the order they were met. */
  ghost predicate SortedOut(c: Coordinator, now: int, done: set<NetworkIdentity>, s: Reaping) {
    && done <= c.lastActivity.Keys
    && (forall p :: p in s.reaped ==> p in done && Idle(c, p, now))
    && (forall p :: p in s.kept ==> p in done && !Idle(c, p, now))
    && (forall p :: p in done ==> p in s.reaped || p in s.kept)
    && (forall p :: p in s.kept ==> s.kept[p] == c.lastActivity[p])
    && (forall p :: p in s.reaped <==> p in s.order)
  }

  /** Every reaped peer has been reported once (when a callback is installed) with its idle time. */
  ghost predicate Reported(c: Coordinator, now: int, hasCallback: bool, s: Reaping) {
    && s.reaped <= c.lastActivity.Keys
    && (!hasCallback ==> s.events == [])
    && (forall i :: 0 <= i < |s.events| ==> s.events[i].peer in s.reaped)
    && (forall i :: 0 <= i < |s.events| ==> s.events[i].idleSeconds == WholeSeconds(now - c.lastActivity[s.events[i].peer]))
    && (forall i, j :: 0 <= i < j < |s.events| ==> s.events[i].peer != s.events[j].peer)
    && (hasCallback ==> forall p :: p in s.reaped ==> exists i :: 0 <= i < |s.events| && s.events[i].peer == p)
  }

  /** One turn of the reaping loop, on peer `p`. */
  function ReapStep(c: Coordinator, now: int, hasCallback: bool, s: Reaping, p: NetworkIdentity): Reaping
    requires p in c.lastActivity
  {
    if Idle(c, p, now) then
      var events := if hasCallback then s.events + [InactiveEvent(p, WholeSeconds(now - c.lastActivity[p]))] else s.events;
      Reaping(s.kept, s.reaped + {p}, s.order + [p], events)
    else
      s.(kept := s.kept[p := c.lastActivity[p]])
  }

  /** One turn of the reaping loop, as the loop sees it: one more peer sorted out and reported. */
  method ReapPeer(c: Coordinator, now: int, hasCallback: bool, done: set<NetworkIdentity>, s: Reaping, p: NetworkIdentity)
    returns (s': Reaping)
    requires SortedOut(c, now, done, s) && Reported(c, now, hasCallback, s)
    requires p in c.lastActivity && p !in done
    ensures SortedOut(c, now, done + {p}, s') && Reported(c, now, hasCallback, s')
  {
    s' := ReapStep(c, now, hasCallback, s, p);
    ReapStepSortsOut(c, now, hasCallback, done, s, p);
    if Idle(c, p, now) {
      ReapStepReportsIdle(c, now, hasCallback, done, s, p);
    } else {
      assert s'.events == s.events && s'.reaped == s.reaped;
    }
  }

  /** One turn puts its peer among the kept or the reaped, as its silence says. */
  lemma ReapStepSortsOut(c: Coordinator, now: int, hasCallback: bool, done: set<NetworkIdentity>, s: Reaping, p: NetworkIdentity)
    requires SortedOut(c, now, done, s)
    requires p in c.lastActivity && p !in done
    ensures SortedOut(c, now, done + {p}, ReapStep(c, now, hasCallback, s, p))
  {
  }

  /** Reaping an idle peer reports it once, after the earlier reports. */
  lemma ReapStepReportsIdle(c: Coordinator, now: int, hasCallback: bool, done: set<NetworkIdentity>, s: Reaping, p: NetworkIdentity)
    requires SortedOut(c, now, done, s) && Reported(c, now, hasCallback, s)
    requires p in c.lastActivity && p !in done && Idle(c, p, now)
    ensures Reported(c, now, hasCallback, ReapStep(c, now, hasCallback, s, p))
  {
    if hasCallback {
      ReportOneMore(c, now, s, p);
    }
  }

  /** With a callback, the idle peer's report is appended to the earlier ones. */
  lemma ReportOneMore(c: Coordinator, now: int, s: Reaping, p: NetworkIdentity)
    requires Reported(c, now, true, s)
    requires p in c.lastActivity && p !in s.reaped && Idle(c, p, now)
    ensures Reported(c, now, true, ReapStep(c, now, true, s, p))
  {
    var s' := ReapStep(c, now, true, s, p);
    AppendedReportIsSound(c, now, s, p);
    AppendedReportCovers(c, now, s, p);
  }

  /** The appended report names a newly reaped peer with its idle time, and no peer is reported twice. */
  lemma AppendedReportIsSound(c: Coordinator, now: int, s: Reaping, p: NetworkIdentity)
    requires Reported(c, now, true, s)
    requires p in c.lastActivity && p !in s.reaped && Idle(c, p, now)
    ensures var s' := ReapStep(c, now, true, s, p);
            && (forall i :: 0 <= i < |s'.events| ==> s'.events[i].peer in s'.reaped)
            && (forall i :: 0 <= i < |s'.events| ==> s'.events[i].idleSeconds == WholeSeconds(now - c.lastActivity[s'.events[i].peer]))
            && (forall i, j :: 0 <= i < j < |s'.events| ==> s'.events[i].peer != s'.events[j].peer)
  {
    var s' := ReapStep(c, now, true, s, p);
    var n := |s.events|;
    assert s'.events == s.events + [InactiveEvent(p, WholeSeconds(now - c.lastActivity[p]))];
    assert forall i :: 0 <= i < n ==> s'.events[i] == s.events[i];
    forall i, j | 0 <= i < j < |s'.events|
      ensures s'.events[i].peer != s'.events[j].peer
    {
      if j == n {
        assert s'.events[i].peer in s.reaped;
      }
    }
  }

  /** After the append, every reaped peer has a report. */
  lemma AppendedReportCovers(c: Coordinator, now: int, s: Reaping, p: NetworkIdentity)
    requires Reported(c, now, true, s)
    requires p in c.lastActivity && p !in s.reaped && Idle(c, p, now)
    ensures var s' := ReapStep(c, now, true, s, p);
            forall q :: q in s'.reaped ==> exists i :: 0 <= i < |s'.events| && s'.events[i].peer == q
  {
    var s' := ReapStep(c, now, true, s, p);
    var n := |s.events|;
    assert s'.events[n].peer == p;
    forall q | q in s'.reaped
      ensures exists i :: 0 <= i < |s'.events| && s'.events[i].peer == q
    {
      if q != p {
        var i :| 0 <= i < n && s.events[i].peer == q;
        assert s'.events[i] == s.events[i];
      }
    }
  }

  /**
   * ReapInactiveConnections: every peer silent for longer than the timeout
   * is released, reported once (when a callback is installed) and
   * forgotten; the others stay as they were.
   */
  method ReapInactiveConnections(c: Coordinator, show: NetworkIdentity -> string, now: int, hasCallback: bool, store: Store)
    returns (c': Coordinator, store': Store, events: seq<InactiveEvent>)
    ensures c' == c.(lastActivity := ActivePeers(c, now))
    ensures store' == ReleasedAll(c, show, c.lastActivity.Keys - ActivePeers(c, now).Keys, store)
    ensures !hasCallback ==> events == []
    ensures forall i :: 0 <= i < |events| ==>
              var p := events[i].peer;
              p in c.lastActivity && Idle(c, p, now) && events[i].idleSeconds == WholeSeconds(now - c.lastActivity[p])
    ensures forall i, j :: 0 <= i < j < |events| ==> events[i].peer != events[j].peer
    ensures hasCallback ==> forall p :: p in c.lastActivity && Idle(c, p, now) ==> exists i :: 0 <= i < |events| && events[i].peer == p
  {
    var s := SortOutPeers(c, now, hasCallback);
    ReapFinished(c, now, hasCallback, s);
    ReleaseEachIsReleasedAll(c, show, s.order, store);
    c' := c.(lastActivity := s.kept);
    store' := ReleaseEach(c.options, show(c.self), show, s.order, store);
    events := s.events;
  }

  /** The reaping loop: every tracked peer is visited once, in the map's own order. */
  method SortOutPeers(c: Coordinator, now: int, hasCallback: bool) returns (s: Reaping)
    ensures SortedOut(c, now, c.lastActivity.Keys, s) && Reported(c, now, hasCallback, s)
  {
    var left := c.lastActivity.Keys;
    var done: set<NetworkIdentity> := {};
    s := Reaping(map[], {}, [], []);
    NothingSortedYet(c, now, hasCallback);
    while left != {}
      invariant left + done == c.lastActivity.Keys && left !! done
      invariant SortedOut(c, now, done, s) && Reported(c, now, hasCallback, s)
      decreases |left|
    {
      var p :| p in left;
      s := ReapPeer(c, now, hasCallback, done, s, p);
      left := left - {p};
      done := done + {p};
    }
  }

  /** Before the loop nothing is sorted out and nothing reported. */
  lemma NothingSortedYet(c: Coordinator, now: int, hasCallback: bool)
    ensures SortedOut(c, now, {}, Reaping(map[], {}, [], [])) && Reported(c, now, hasCallback, Reaping(map[], {}, [], []))
  {
  }

  /** Once every peer is sorted out, the loop's state is the reaping's outcome. */
  lemma ReapFinished(c: Coordinator, now: int, hasCallback: bool, s: Reaping)
    requires SortedOut(c, now, c.lastActivity.Keys, s) && Reported(c, now, hasCallback, s)
    ensures s.kept == ActivePeers(c, now)
    ensures (set p | p in s.order) == c.lastActivity.Keys - ActivePeers(c, now).Keys
    ensures forall i :: 0 <= i < |s.events| ==>
              var p := s.events[i].peer;
              p in c.lastActivity && Idle(c, p, now) && s.events[i].idleSeconds == WholeSeconds(now - c.lastActivity[p])
  {
    forall i | 0 <= i < |s.events|
      ensures s.events[i].peer in c.lastActivity && Idle(c, s.events[i].peer, now)
    {
      assert s.events[i].peer in s.reaped;
    }
    assert s.kept == ActivePeers(c, now);
    assert s.reaped == c.lastActivity.Keys - ActivePeers(c, now).Keys == set p | p in s.order;
  }

  /** The releases in the order the loop makes them. */
  function ReleaseEach(options: Options, self: string, show: NetworkIdentity -> string, peers: seq<NetworkIdentity>, store: Store): Store
    decreases |peers|
  {
    if |peers| == 0 then store
    else ReleaseIfOwned(options, self, show(peers[|peers| - 1]), ReleaseEach(options, self, show, peers[..|peers| - 1], store))
  }

  /** Releasing leases one peer at a time, in any order, releases exactly the peers' keys this shard holds. */
  lemma {:induction false} ReleaseEachIsReleasedAll(c: Coordinator, show: NetworkIdentity -> string, peers: seq<NetworkIdentity>, store: Store)
    ensures ReleaseEach(c.options, show(c.self), show, peers, store) == ReleasedAll(c, show, (set p | p in peers), store)
    decreases |peers|
  {
    if |peers| == 0 {
      ReleasedNone(c, show, store);
    } else {
      var front := peers[..|peers| - 1];
      var last := peers[|peers| - 1];
      ReleaseEachIsReleasedAll(c, show, front, store);
      ReleaseStep(c, show, (set p | p in front), last, store);
      assert (set p | p in peers) == (set p | p in front) + {last};
    }
  }

  /** Releasing no lease leaves the store as it is. */
  lemma ReleasedNone(c: Coordinator, show: NetworkIdentity -> string, store: Store)
    ensures ReleasedAll(c, show, {}, store) == store
  {
    assert KeysOfPeers(c, show, {}) == {};
    assert OwnKeys(c, show, {}, store) == {};
  }

  /** Releasing one more peer's lease extends the released set by that peer. */
  lemma ReleaseStep(c: Coordinator, show: NetworkIdentity -> string, peers: set<NetworkIdentity>, p: NetworkIdentity, store: Store)
    ensures ReleaseIfOwned(c.options, show(c.self), show(p), ReleasedAll(c, show, peers, store))
            == ReleasedAll(c, show, peers + {p}, store)
  {
    if c.options.leaseEnabled {
      var key := LeaseKey(c.options.leaseKeyPrefix, show(c.self), show(p));
      assert KeysOfPeers(c, show, peers + {p}) == KeysOfPeers(c, show, peers) + {key};
      var before := OwnKeys(c, show, KeysOfPeers(c, show, peers), store);
      var cur := store - before;
      if HeldBy(cur, key, show(c.self)) {
        assert OwnKeys(c, show, KeysOfPeers(c, show, peers + {p}), store) == before + {key};
      } else {
        assert OwnKeys(c, show, KeysOfPeers(c, show, peers + {p}), store) == before + (OwnKeys(c, show, {key}, store));
      }
    }
  }

  /** Clear: every peer is forgotten; leases are left to expire on their own. */
  function Clear(c: Coordinator): (r: Coordinator)
    ensures r.self == c.self && r.options == c.options
    ensures forall p :: p !in r.lastActivity
  {
    c.(lastActivity := map[])
  }

  /** A peer heard from at `now` survives a reap at `now` as long as the timeout is not negative. */
  lemma FreshPeerSurvivesReap(c: Coordinator, show: NetworkIdentity -> string, peer: NetworkIdentity, now: int, store: Store)
    requires c.options.inactivityTimeoutMs >= 0
    ensures var marked := MarkConnectionActivity(c, show, peer, now, store).0;
            peer in ActivePeers(marked, now) && ActivePeers(marked, now)[peer] == now
  {
  }
}

=== FILE: network_identity.dfy ===
/**
 * The identity of a node on the network (a shard, the coordinator, a client,
 * ...). Its declaration is not part of this model: an identity is a type tag
 * and an id string, compared field by field, and its printed form is a
 * function every caller passes in.
 */
module NetworkIdentities {

  /** The identity's type tag; only `eShard` and `eInvalid` are ever tested by name. */
  datatype IdentityType = InvalidType | ShardType | OtherType(code: nat)

  datatype NetworkIdentity = NetworkIdentity(kind: IdentityType, id: string)
}

=== FILE: network_telemetry.dfy ===
/**
 * Network telemetry as the native server reports it: raw rows of text from
 * the native layer are decoded into connection records, grouped by the shard
 * they belong to, and averaged into per-shard download and upload rates for
 * each live shard id.
 */
module NetworkTelemetry {
  import opened Wrappers
  import opened JsNumber

  /** One connection as reported by a shard; numeric columns go through `Number()`. */
  datatype ConnectionRow = ConnectionRow(
    shardId: Option<string>,
    identityId: string,
    targetId: string,
    pingMs: Num,
    inBytesPerSec: Num,
    outBytesPerSec: Num,
    inPacketsPerSec: Num,
    pendingReliableBytes: Num,
    pendingUnreliableBytes: Num,
    sentUnackedReliableBytes: Num,
    queueTimeUsec: Num,
    qualityLocal: Num,
    qualityRemote: Num,
    state: string)

  /** The number of fields of a connection, not counting the optional leading shard id. */
  const FieldCount: nat := 13

  /** A row of 14 or more columns carries the shard id in front of the fields. */
  function Offset(row: seq<string>): (r: nat)
    ensures r <= 1
  {
    if |row| >= FieldCount + 1 then 1 else 0
  }

  /** decodeConnectionRow, for a row of at least 13 columns (the only rows it is given). */
  function DecodeConnectionRow(row: seq<string>, parse: string -> Num): (r: ConnectionRow)
    requires |row| >= FieldCount
    ensures r.shardId.Some? <==> |row| >= FieldCount + 1
    ensures r.shardId.Some? ==> r.shardId.value == row[0]
    ensures r.identityId == row[Offset(row)] && r.targetId == row[Offset(row) + 1] && r.state == row[Offset(row) + 12]
    ensures r.inBytesPerSec == parse(row[Offset(row) + 3]) && r.outBytesPerSec == parse(row[Offset(row) + 4])
  {
    var o := Offset(row);
    ConnectionRow(
      if o == 1 then Some(row[0]) else None,
      row[o], row[o + 1],
      parse(row[o + 2]), parse(row[o + 3]), parse(row[o + 4]), parse(row[o + 5]),
      parse(row[o + 6]), parse(row[o + 7]), parse(row[o + 8]), parse(row[o + 9]),
      parse(row[o + 10]), parse(row[o + 11]),
      row[o + 12])
  }

  /** The 14-column form is the 13-column form with the shard id in front. */
  lemma ShardColumnIsOnlyAPrefix(shard: string, fields: seq<string>, parse: string -> Num)
    requires |fields| == FieldCount
    ensures DecodeConnectionRow([shard] + fields, parse) == DecodeConnectionRow(fields, parse).(shardId := Some(shard))
  {
    var row := [shard] + fields;
    assert forall k :: 0 <= k < FieldCount ==> row[k + 1] == fields[k];
  }

  /** Columns after the fourteenth are never read. */
  lemma TrailingColumnsIgnored(row: seq<string>, extra: seq<string>, parse: string -> Num)
    requires |row| >= FieldCount + 1
    ensures DecodeConnectionRow(row + extra, parse) == DecodeConnectionRow(row, parse)
  {
    assert forall k :: 0 <= k < |row| ==> (row + extra)[k] == row[k];
  }

  /** `shardId ?? IdentityId`: the shard a connection row is filed under. */
  function GroupKey(c: ConnectionRow): string {
    if c.shardId.Some? then c.shardId.value else c.identityId
  }

  /** The rows long enough to decode, in arrival order. */
  function LongRows(rows: seq<seq<string>>): (r: seq<seq<string>>)
    ensures |r| <= |rows|
    ensures forall j :: 0 <= j < |r| ==> |r[j]| >= FieldCount
    ensures forall row :: row in r <==> row in rows && |row| >= FieldCount
    decreases |rows|
  {
    if |rows| == 0 then []
    else
      var init := LongRows(rows[..|rows| - 1]);
      var last := rows[|rows| - 1];
      assert forall row :: row in rows <==> row in rows[..|rows| - 1] || row == last;
      if |last| < FieldCount then init else init + [last]
  }

  /** The rows long enough to decode, decoded, in arrival order; shorter rows are skipped. */
  function DecodeRows(rows: seq<seq<string>>, parse: string -> Num): (r: seq<ConnectionRow>)
    ensures |r| <= |rows|
    ensures (forall p :: 0 <= p < |rows| ==> |rows[p]| < FieldCount) ==> r == []
    ensures (forall p :: 0 <= p < |rows| ==> |rows[p]| >= FieldCount) ==>
              |r| == |rows| && forall p :: 0 <= p < |rows| ==> r[p] == DecodeConnectionRow(rows[p], parse)
    decreases |rows|
  {
    if |rows| == 0 then []
    else
      var init := DecodeRows(rows[..|rows| - 1], parse);
      var last := rows[|rows| - 1];
      if |last| < FieldCount then init else init + [DecodeConnectionRow(last, parse)]
  }

  /** Decoding skips exactly the short rows: it decodes the long rows one for one, in order. */
  lemma {:induction false} DecodeRowsDecodesLongRows(rows: seq<seq<string>>, parse: string -> Num)
    ensures |DecodeRows(rows, parse)| == |LongRows(rows)|
    ensures forall p :: 0 <= p < |LongRows(rows)| ==>
              DecodeRows(rows, parse)[p] == DecodeConnectionRow(LongRows(rows)[p], parse)
    decreases |rows|
  {
    if |rows| > 0 {
      var front := rows[..|rows| - 1];
      var last := rows[|rows| - 1];
      DecodeRowsDecodesLongRows(front, parse);
      if |last| >= FieldCount {
        var d := DecodeRows(front, parse);
        var l := LongRows(front);
        assert DecodeRows(rows, parse) == d + [DecodeConnectionRow(last, parse)];
        assert LongRows(rows) == l + [last];
        forall p | 0 <= p < |l| + 1
          ensures (d + [DecodeConnectionRow(last, parse)])[p] == DecodeConnectionRow((l + [last])[p], parse)
        {
          if p < |l| {
            assert (l + [last])[p] == l[p];
          }
        }
      }
    }
  }

  /** The reference grouping: the decoded rows filed under `key`, in arrival order. */
  function RowsFor(decoded: seq<ConnectionRow>, key: string): (r: seq<ConnectionRow>)
    ensures |r| <= |decoded|
    ensures forall j :: 0 <= j < |r| ==> GroupKey(r[j]) == key
    decreases |decoded|
  {
    if |decoded| == 0 then []
    else
      var init := RowsFor(decoded[..|decoded| - 1], key);
      var last := decoded[|decoded| - 1];
      if GroupKey(last) == key then init + [last] else init
  }

  /** The grouping loop: `rowsByShard` after all rows, one list per group key. */
  method GroupRows(decoded: seq<ConnectionRow>) returns (groups: map<string, seq<ConnectionRow>>)
    ensures forall k :: k in groups <==> |RowsFor(decoded, k)| > 0
    ensures forall k :: k in groups ==> groups[k] == RowsFor(decoded, k)
  {
    groups := map[];
    var i := 0;
    while i < |decoded|
      invariant 0 <= i <= |decoded|
      invariant forall k :: k in groups <==> |RowsFor(decoded[..i], k)| > 0
      invariant forall k :: k in groups ==> groups[k] == RowsFor(decoded[..i], k)
    {
      var c := decoded[i];
      var key := GroupKey(c);
      assert decoded[..i + 1][..i] == decoded[..i];
      if key !in groups {
        groups := groups[key := []];
      }
      groups := groups[key := groups[key] + [c]];
      i := i + 1;
    }
    assert decoded[..i] == decoded;
  }

  /** Per-shard mean rates. */
  datatype Averages = Averages(inAvg: Num, outAvg: Num)

  function InRates(cs: seq<ConnectionRow>): (r: seq<Num>)
    ensures |r| == |cs| && forall j :: 0 <= j < |cs| ==> r[j] == cs[j].inBytesPerSec
  {
    seq(|cs|, j requires 0 <= j < |cs| => cs[j].inBytesPerSec)
  }

  function OutRates(cs: seq<ConnectionRow>): (r: seq<Num>)
    ensures |r| == |cs| && forall j :: 0 <= j < |cs| ==> r[j] == cs[j].outBytesPerSec
  {
    seq(|cs|, j requires 0 <= j < |cs| => cs[j].outBytesPerSec)
  }

  /**
   * computeShardAverages: 0/0 with no connections, otherwise the means of the
   * incoming and outgoing rates. A mean is finite exactly when every rate is,
   * and then it times the count is the sum of the rates.
   */
  function ComputeShardAverages(cs: seq<ConnectionRow>): (r: Averages)
    ensures |cs| == 0 ==> r == Averages(Finite(0.0), Finite(0.0))
    ensures |cs| > 0 ==> (r.inAvg.Finite? <==> forall j :: 0 <= j < |cs| ==> cs[j].inBytesPerSec.Finite?)
    ensures |cs| > 0 ==> (r.outAvg.Finite? <==> forall j :: 0 <= j < |cs| ==> cs[j].outBytesPerSec.Finite?)
    ensures |cs| > 0 && r.inAvg.Finite? ==> MeanOf(r.inAvg.value, InRates(cs))
    ensures |cs| > 0 && r.outAvg.Finite? ==> MeanOf(r.outAvg.value, OutRates(cs))
  {
    if |cs| == 0 then Averages(Finite(0.0), Finite(0.0))
    else Averages(Mean(InRates(cs)), Mean(OutRates(cs)))
  }

  /** `m` is the mean of the rates: it times their count is their exact sum. */
  ghost predicate MeanOf(m: real, xs: seq<Num>) {
    m * (|xs| as real) == RealSum(xs)
  }

  /** `sum / count` over a non-empty list of rates. */
  function Mean(xs: seq<Num>): (r: Num)
    requires |xs| > 0
    ensures r.Finite? <==> forall j :: 0 <= j < |xs| ==> xs[j].Finite?
    ensures r.Finite? ==> MeanOf(r.value, xs)
  {
    DivCount(Sum(xs), |xs|)
  }

  /** The sum of `n` copies of one finite value. */
  lemma {:induction false} RealSumOfConstant(xs: seq<Num>, v: real)
    requires forall j :: 0 <= j < |xs| ==> xs[j] == Finite(v)
    ensures RealSum(xs) == (|xs| as real) * v
    decreases |xs|
  {
    if |xs| > 0 {
      RealSumOfConstant(xs[..|xs| - 1], v);
    }
  }

  /** Connections that all report the same finite rates average to those rates. */
  lemma AverageOfEqualRates(cs: seq<ConnectionRow>, vin: real, vout: real)
    requires |cs| > 0
    requires forall j :: 0 <= j < |cs| ==> cs[j].inBytesPerSec == Finite(vin) && cs[j].outBytesPerSec == Finite(vout)
    ensures ComputeShardAverages(cs) == Averages(Finite(vin), Finite(vout))
  {
    MeanOfConstant(InRates(cs), vin);
    MeanOfConstant(OutRates(cs), vout);
  }

  /** The mean of copies of one finite value is that value. */
  lemma MeanOfConstant(xs: seq<Num>, v: real)
    requires |xs| > 0 && forall j :: 0 <= j < |xs| ==> xs[j] == Finite(v)
    ensures Mean(xs) == Finite(v)
  {
    RealSumOfConstant(xs, v);
    var n := |xs| as real;
    assert forall j :: 0 <= j < |xs| ==> xs[j].Finite?;
    var total := Sum(xs);
    assert total.Finite? && total.value == n * v;
    assert total == Finite(n * v);
    DivideMultiple(v, |xs|);
  }

  /** Dividing `count` copies of a value by the count gives the value back. */
  lemma DivideMultiple(v: real, count: nat)
    requires count > 0
    ensures DivCount(Finite((count as real) * v), count) == Finite(v)
  {
    var n := count as real;
    var mean := DivCount(Finite(n * v), count);
    assert mean.value * n == n * v;
    assert (mean.value - v) * n == 0.0;
  }

  /** One live shard's entry of the telemetry report. */
  datatype ShardTelemetry = ShardTelemetry(
    shardId: string,
    downloadKbps: Num,
    uploadKbps: Num,
    connections: seq<ConnectionRow>)

  function Min(a: nat, b: nat): nat {
    if a <= b then a else b
  }

  /**
   * readNetworkTelemetry with the native calls' outputs as inputs: one entry
   * per live id (as many ids as both id and health lists have), in id order,
   * each holding exactly the connections filed under that id.
   */
  method ReadNetworkTelemetry(idsVec: seq<string>, healthVec: seq<string>, rows: seq<seq<string>>, parse: string -> Num)
    returns (r: seq<ShardTelemetry>)
    ensures |r| == Min(|idsVec|, |healthVec|)
    ensures forall i :: 0 <= i < |r| ==> r[i] == ShardEntry(DecodeRows(rows, parse), idsVec[i])
  {
    var count := Min(|idsVec|, |healthVec|);
    var ids := idsVec[..count];
    var decoded := DecodeRows(rows, parse);
    var groups := GroupRows(decoded);
    r := [];
    var i := 0;
    while i < count
      invariant 0 <= i <= count
      invariant |r| == i
      invariant forall j :: 0 <= j < i ==> r[j] == ShardEntry(decoded, idsVec[j])
    {
      var id := ids[i];
      var connections := if id in groups then groups[id] else [];
      GroupOfId(groups, decoded, id);
      var avg := ComputeShardAverages(connections);
      var entry := ShardTelemetry(id, avg.inAvg, avg.outAvg, connections);
      assert entry == ShardEntry(decoded, idsVec[i]);
      r := r + [entry];
      i := i + 1;
    }
  }

  /** The grouping's list for an id, or none, is the reference grouping's. */
  lemma GroupOfId(groups: map<string, seq<ConnectionRow>>, decoded: seq<ConnectionRow>, id: string)
    requires forall k :: k in groups <==> |RowsFor(decoded, k)| > 0
    requires forall k :: k in groups ==> groups[k] == RowsFor(decoded, k)
    ensures (if id in groups then groups[id] else []) == RowsFor(decoded, id)
  {
  }

  /** The report entry for one live id: the connections filed under it and their averages. */
  function ShardEntry(decoded: seq<ConnectionRow>, id: string): (e: ShardTelemetry)
    ensures e.shardId == id && e.connections == RowsFor(decoded, id)
    ensures forall j :: 0 <= j < |e.connections| ==> GroupKey(e.connections[j]) == id
    ensures e.downloadKbps == ComputeShardAverages(e.connections).inAvg
    ensures e.uploadKbps == ComputeShardAverages(e.connections).outAvg
  {
    var cs := RowsFor(decoded, id);
    var avg := ComputeShardAverages(cs);
    ShardTelemetry(id, avg.inAvg, avg.outAvg, cs)
  }

  /** Every decoded row is filed under exactly one group: its own key's. */
  lemma {:induction false} RowsForPartition(decoded: seq<ConnectionRow>, c: ConnectionRow)
    ensures multiset(RowsFor(decoded, GroupKey(c)))[c] == multiset(decoded)[c]
    decreases |decoded|
  {
    if |decoded| > 0 {
      var front := decoded[..|decoded| - 1];
      RowsForPartition(front, c);
      assert decoded == front + [decoded[|decoded| - 1]];
    }
  }
}

=== FILE: node_graph.dfy ===
/**
 * The inter-shard graph the dashboard draws from a telemetry report: one node
 * per shard, in report order, and one directed edge per ordered pair of
 * distinct known shards that some connection joins, carrying the summed
 * transfer rates of every connection between them. A connection row arrives
 * either as an array of text cells or as an object with named fields.
 */
module NodeGraph {
  import opened Wrappers
  import opened JsNumber

  /** A connection as the panel receives it. Absent object fields are `None`. */
  datatype Connection =
    | Cells(cells: seq<string>)
    | Fields(identityId: string, targetId: Option<string>, inBytesPerSec: Option<Num>, outBytesPerSec: Option<Num>)

  datatype Shard = Shard(shardId: string, connections: seq<Connection>)

  datatype Rates = Rates(inBytesPerSec: Num, outBytesPerSec: Num)

  /** A directed edge of the drawn graph. */
  datatype Edge = Edge(from: string, to: string, inBytesPerSec: Num, outBytesPerSec: Num)

  /** getConnectionTarget: the second cell of an array of two or more cells, or the object's target. */
  function ConnectionTarget(c: Connection): (r: Option<string>)
    ensures c.Cells? ==> (r.Some? <==> |c.cells| > 1) && (r.Some? ==> r.value == c.cells[1])
    ensures c.Fields? ==> r == c.targetId
  {
    match c
    case Cells(cells) => if |cells| > 1 then Some(cells[1]) else None
    case Fields(_, target, _, _) => target
  }

  /**
   * getConnectionRates: an array needs five cells whose fourth and fifth both
   * convert (through `parse`, standing for `Number()`) to finite numbers; an
   * object needs both rate fields to hold numbers, finite or not.
   */
  function ConnectionRates(c: Connection, parse: string -> Num): (r: Option<Rates>)
    ensures c.Cells? ==> (r.Some? <==> |c.cells| >= 5 && IsFinite(parse(c.cells[3])) && IsFinite(parse(c.cells[4])))
    ensures c.Cells? && r.Some? ==> r.value == Rates(parse(c.cells[3]), parse(c.cells[4]))
    ensures c.Fields? ==> (r.Some? <==> c.inBytesPerSec.Some? && c.outBytesPerSec.Some?)
    ensures c.Fields? && r.Some? ==> r.value == Rates(c.inBytesPerSec.value, c.outBytesPerSec.value)
    ensures r.Some? && c.Cells? ==> IsFinite(r.value.inBytesPerSec) && IsFinite(r.value.outBytesPerSec)
  {
    match c
    case Cells(cells) =>
      if |cells| < 5 then None
      else
        var inRate := parse(cells[3]);
        var outRate := parse(cells[4]);
        if !IsFinite(inRate) || !IsFinite(outRate) then None else Some(Rates(inRate, outRate))
    case Fields(_, _, inRate, outRate) =>
      if inRate.Some? && outRate.Some? then Some(Rates(inRate.value, outRate.value)) else None
  }

  /** One connection's share of an edge, before duplicates are merged. */
  datatype Contribution = Contribution(from: string, to: string, inBytesPerSec: Num, outBytesPerSec: Num)

  /**
   * What one connection of shard `source` adds: nothing when it has no
   * target, an empty target (a falsy string), a target that is not a node, or
   * its own shard as target; otherwise its rates, a missing rate counting as 0.
   */
  function Contribute(source: string, c: Connection, nodes: set<string>, parse: string -> Num): (r: Option<Contribution>)
    ensures r.Some? <==> var t := ConnectionTarget(c);
                         t.Some? && t.value != "" && t.value in nodes && t.value != source
    ensures r.Some? ==> r.value.from == source && r.value.to == ConnectionTarget(c).value
    ensures r.Some? ==> var rates := ConnectionRates(c, parse);
                        r.value.inBytesPerSec == (if rates.Some? then rates.value.inBytesPerSec else Finite(0.0))
                        && r.value.outBytesPerSec == (if rates.Some? then rates.value.outBytesPerSec else Finite(0.0))
  {
    var target := ConnectionTarget(c);
    if target.None? || target.value == "" || target.value !in nodes || target.value == source then None
    else
      var rates := ConnectionRates(c, parse);
      var inRate := if rates.Some? then rates.value.inBytesPerSec else Finite(0.0);
      var outRate := if rates.Some? then rates.value.outBytesPerSec else Finite(0.0);
      Some(Contribution(source, target.value, inRate, outRate))
  }

  /** The contributions of one shard's connections, in order. */
  function ShardContributions(source: string, cs: seq<Connection>, nodes: set<string>, parse: string -> Num): (r: seq<Contribution>)
    ensures |r| <= |cs|
    ensures forall i :: 0 <= i < |r| ==> r[i].from == source && r[i].to in nodes && r[i].to != source && r[i].to != ""
  {
    if |cs| == 0 then []
    else
      var last := Contribute(source, cs[|cs| - 1], nodes, parse);
      ShardContributions(source, cs[..|cs| - 1], nodes, parse) + (if last.Some? then [last.value] else [])
  }

  /** The contributions of every shard, shard by shard, in report order. */
  function Contributions(shards: seq<Shard>, nodes: set<string>, parse: string -> Num): (r: seq<Contribution>)
    ensures |r| <= ConnectionCount(shards)
    ensures forall i :: 0 <= i < |r| ==> r[i].to in nodes && r[i].to != r[i].from && r[i].to != ""
  {
    if |shards| == 0 then []
    else
      var last := shards[|shards| - 1];
      Contributions(shards[..|shards| - 1], nodes, parse) + ShardContributions(last.shardId, last.connections, nodes, parse)
  }

  /** nodeIds: the shard ids in report order. */
  function NodeIds(shards: seq<Shard>): (r: seq<string>)
    ensures |r| == |shards| && forall i :: 0 <= i < |r| ==> r[i] == shards[i].shardId
  {
    if |shards| == 0 then [] else NodeIds(shards[..|shards| - 1]) + [shards[|shards| - 1].shardId]
  }

  /** connectionCount: the total length of the shards' connection lists. */
  function ConnectionCount(shards: seq<Shard>): nat {
    if |shards| == 0 then 0 else ConnectionCount(shards[..|shards| - 1]) + |shards[|shards| - 1].connections|
  }

  /** Counting connections report by report adds up. */
  lemma {:induction false} ConnectionCountAppend(a: seq<Shard>, b: seq<Shard>)
    ensures ConnectionCount(a + b) == ConnectionCount(a) + ConnectionCount(b)
    decreases |b|
  {
    if |b| == 0 {
      assert a + b == a;
    } else {
      assert (a + b)[..|a + b| - 1] == a + b[..|b| - 1];
      ConnectionCountAppend(a, b[..|b| - 1]);
    }
  }

  /** Every connection of every shard is counted once. */
  lemma ConnectionCountCountsEveryShard(shards: seq<Shard>, i: nat)
    requires i < |shards|
    ensures ConnectionCount(shards) >= |shards[i].connections|
    ensures ConnectionCount(shards) == ConnectionCount(shards[..i]) + |shards[i].connections| + ConnectionCount(shards[i + 1..])
  {
    assert shards == shards[..i] + [shards[i]] + shards[i + 1..];
    ConnectionCountAppend(shards[..i] + [shards[i]], shards[i + 1..]);
    ConnectionCountAppend(shards[..i], [shards[i]]);
    assert ([shards[i]])[..0] == [];
  }

  // ---------------------------------------------------------------------------
  // The edge map: insertion-ordered entries keyed by `key(from, to)`.
  // ---------------------------------------------------------------------------

  /** The entry under `k`, if any. */
  function Lookup<K(==,!new)>(entries: seq<(K, Edge)>, k: K): (r: Option<Edge>)
    ensures r.Some? <==> exists i :: 0 <= i < |entries| && entries[i].0 == k
  {
    if |entries| == 0 then None
    else if entries[0].0 == k then Some(entries[0].1)
    else
      var rest := Lookup(entries[1..], k);
      assert forall i :: 1 <= i < |entries| ==> entries[i] == entries[1..][i - 1];
      rest
  }

  /** No key appears twice. */
  ghost predicate DistinctKeys<K>(entries: seq<(K, Edge)>) {
    forall i, j :: 0 <= i < j < |entries| ==> entries[i].0 != entries[j].0
  }

  /** An edge made of a single contribution. */
  function NewEdge(c: Contribution): Edge {
    Edge(c.from, c.to, c.inBytesPerSec, c.outBytesPerSec)
  }

  /** A contribution merged into an existing edge: both rates add up. */
  function Absorb(e: Edge, c: Contribution): Edge {
    e.(inBytesPerSec := Add(e.inBytesPerSec, c.inBytesPerSec), outBytesPerSec := Add(e.outBytesPerSec, c.outBytesPerSec))
  }

  /** Every entry sits under the key of its own edge's pair. */
  ghost predicate Keyed<K>(entries: seq<(K, Edge)>, key: (string, string) -> K) {
    forall i :: 0 <= i < |entries| ==> entries[i].0 == key(entries[i].1.from, entries[i].1.to)
  }

  /**
   * The edge map after one contribution, filed under its pair's key: an
   * existing entry absorbs it, otherwise it is appended as a new edge.
   */
  function Merge<K(==,!new)>(entries: seq<(K, Edge)>, key: (string, string) -> K, c: Contribution): (r: seq<(K, Edge)>)
    ensures var k := key(c.from, c.to);
            && |r| == |entries| + (if Lookup(entries, k).Some? then 0 else 1)
            && Lookup(r, k) == Some(if Lookup(entries, k).Some? then Absorb(Lookup(entries, k).value, c) else NewEdge(c))
            && forall k' :: k' != k ==> Lookup(r, k') == Lookup(entries, k')
    ensures DistinctKeys(entries) ==> DistinctKeys(r)
    ensures Keyed(entries, key) ==> Keyed(r, key)
  {
    var k := key(c.from, c.to);
    if |entries| == 0 then [(k, NewEdge(c))]
    else
      assert entries == [entries[0]] + entries[1..];
      DistinctCons(entries[0], entries[1..]);
      KeyedCons(entries[0], entries[1..], key);
      if entries[0].0 == k then
        var head := (k, Absorb(entries[0].1, c));
        DistinctCons(head, entries[1..]);
        KeyedCons(head, entries[1..], key);
        [head] + entries[1..]
      else
        var rest := Merge(entries[1..], key, c);
        DistinctCons(entries[0], rest);
        KeyedCons(entries[0], rest, key);
        [entries[0]] + rest
  }

  /** A list with a head entry has distinct keys exactly when its tail does and lacks the head's key. */
  lemma DistinctCons<K(!new)>(e: (K, Edge), rest: seq<(K, Edge)>)
    ensures DistinctKeys([e] + rest) <==> DistinctKeys(rest) && Lookup(rest, e.0).None?
  {
    var r := [e] + rest;
    assert r[0] == e;
    if DistinctKeys(r) {
      forall i, j | 0 <= i < j < |rest| ensures rest[i].0 != rest[j].0 {
        assert r[i + 1] == rest[i] && r[j + 1] == rest[j];
      }
      forall i | 0 <= i < |rest| ensures rest[i].0 != e.0 {
        assert r[i + 1] == rest[i];
      }
    }
    if DistinctKeys(rest) && Lookup(rest, e.0).None? {
      forall i, j | 0 <= i < j < |r| ensures r[i].0 != r[j].0 {
        assert r[j] == rest[j - 1];
        if i > 0 {
          assert r[i] == rest[i - 1];
        }
      }
    }
  }

  /** A list with a head entry is keyed exactly when its head and its tail are. */
  lemma KeyedCons<K(!new)>(e: (K, Edge), rest: seq<(K, Edge)>, key: (string, string) -> K)
    ensures Keyed([e] + rest, key) <==> e.0 == key(e.1.from, e.1.to) && Keyed(rest, key)
  {
    var r := [e] + rest;
    assert r[0] == e;
    if Keyed(r, key) {
      forall i | 0 <= i < |rest| ensures rest[i].0 == key(rest[i].1.from, rest[i].1.to) {
        assert r[i + 1] == rest[i];
      }
    }
    if e.0 == key(e.1.from, e.1.to) && Keyed(rest, key) {
      forall i | 0 <= i < |r| ensures r[i].0 == key(r[i].1.from, r[i].1.to) {
        if i > 0 {
          assert r[i] == rest[i - 1];
        }
      }
    }
  }


  /** The edge map built from contributions in order. */
  function Aggregate<K(==,!new)>(cs: seq<Contribution>, key: (string, string) -> K): (r: seq<(K, Edge)>)
    ensures DistinctKeys(r) && Keyed(r, key)
    ensures |r| <= |cs|
  {
    if |cs| == 0 then []
    else Merge(Aggregate(cs[..|cs| - 1], key), key, cs[|cs| - 1])
  }

  /** The edges of the map, in insertion order. */
  function Values<K>(entries: seq<(K, Edge)>): (r: seq<Edge>)
    ensures |r| == |entries| && forall i :: 0 <= i < |r| ==> r[i] == entries[i].1
  {
    if |entries| == 0 then [] else [entries[0].1] + Values(entries[1..])
  }

  /** The inbound rates of the contributions from `s` to `t`, in order. */
  function InRatesBetween(cs: seq<Contribution>, s: string, t: string): seq<Num> {
    if |cs| == 0 then []
    else
      var c := cs[|cs| - 1];
      InRatesBetween(cs[..|cs| - 1], s, t) + (if c.from == s && c.to == t then [c.inBytesPerSec] else [])
  }

  /** The outbound rates of the contributions from `s` to `t`, in order. */
  function OutRatesBetween(cs: seq<Contribution>, s: string, t: string): (r: seq<Num>)
    ensures |r| == |InRatesBetween(cs, s, t)|
  {
    if |cs| == 0 then []
    else
      var c := cs[|cs| - 1];
      OutRatesBetween(cs[..|cs| - 1], s, t) + (if c.from == s && c.to == t then [c.outBytesPerSec] else [])
  }

  /** Some contribution goes from `s` to `t` exactly when there is a rate between them. */
  lemma {:induction false} RatesBetweenNonEmpty(cs: seq<Contribution>, s: string, t: string)
    ensures |InRatesBetween(cs, s, t)| > 0 <==> exists j :: 0 <= j < |cs| && cs[j].from == s && cs[j].to == t
    decreases |cs|
  {
    if |cs| > 0 {
      var p := cs[..|cs| - 1];
      RatesBetweenNonEmpty(p, s, t);
      assert forall j :: 0 <= j < |p| ==> p[j] == cs[j];
      if exists j :: 0 <= j < |cs| && cs[j].from == s && cs[j].to == t {
        var j :| 0 <= j < |cs| && cs[j].from == s && cs[j].to == t;
        if j < |p| { assert p[j].from == s && p[j].to == t; }
      }
    }
  }

  /** Adding to zero changes nothing, whatever the number. */
  lemma AddZero(v: Num)
    ensures Add(Finite(0.0), v) == v
  {
  }

  /** `key` tells apart every two ordered pairs. */
  ghost predicate Injective<K>(key: (string, string) -> K) {
    forall a, b, c, d :: key(a, b) == key(c, d) ==> a == c && b == d
  }

  /** What the entry for the pair (`s`, `t`) should be: every contribution between them, summed. */
  function Expected(cs: seq<Contribution>, s: string, t: string): Option<Edge> {
    if |InRatesBetween(cs, s, t)| == 0 then None
    else Some(Edge(s, t, Sum(InRatesBetween(cs, s, t)), Sum(OutRatesBetween(cs, s, t))))
  }

  /** No contribution between another pair shares the key of (`s`, `t`). */
  ghost predicate Separates<K>(cs: seq<Contribution>, key: (string, string) -> K, s: string, t: string) {
    forall j :: 0 <= j < |cs| && key(cs[j].from, cs[j].to) == key(s, t) ==> cs[j].from == s && cs[j].to == t
  }

  /** A key that tells every two pairs apart separates every pair in every list. */
  lemma InjectiveSeparates<K>(cs: seq<Contribution>, key: (string, string) -> K, s: string, t: string)
    requires Injective(key)
    ensures Separates(cs, key, s, t)
  {
  }

  /**
   * When no other contributing pair shares its key, the map holds, for the
   * ordered pair (`s`, `t`), exactly the sum of the contributions between
   * them, and nothing if no contribution joins them.
   */
  lemma {:induction false} AggregateIsPerPairSum<K(!new)>(cs: seq<Contribution>, key: (string, string) -> K, s: string, t: string)
    requires Separates(cs, key, s, t)
    ensures Lookup(Aggregate(cs, key), key(s, t)) == Expected(cs, s, t)
    decreases |cs|
  {
    if |cs| > 0 {
      var p := cs[..|cs| - 1];
      var c := cs[|cs| - 1];
      var entries := Aggregate(p, key);
      var kt := key(s, t);
      assert Separates(p, key, s, t) by {
        forall j | 0 <= j < |p| && key(p[j].from, p[j].to) == kt ensures p[j].from == s && p[j].to == t {
          assert p[j] == cs[j];
        }
      }
      AggregateIsPerPairSum(p, key, s, t);
      assert Aggregate(cs, key) == Merge(entries, key, c);
      var ins := InRatesBetween(p, s, t);
      var outs := OutRatesBetween(p, s, t);
      if key(c.from, c.to) == kt {
        assert c.from == s && c.to == t;
        assert InRatesBetween(cs, s, t) == ins + [c.inBytesPerSec];
        assert OutRatesBetween(cs, s, t) == outs + [c.outBytesPerSec];
        SumSnoc(ins, c.inBytesPerSec);
        SumSnoc(outs, c.outBytesPerSec);
        if |ins| == 0 {
          assert Lookup(entries, kt).None?;
          AddZero(c.inBytesPerSec);
          AddZero(c.outBytesPerSec);
          assert Lookup(Aggregate(cs, key), kt) == Some(NewEdge(c));
        } else {
          assert Lookup(entries, kt) == Some(Edge(s, t, Sum(ins), Sum(outs)));
          assert Lookup(Aggregate(cs, key), kt) == Some(Absorb(Edge(s, t, Sum(ins), Sum(outs)), c));
        }
      } else {
        assert !(c.from == s && c.to == t);
        assert InRatesBetween(cs, s, t) == ins;
        assert OutRatesBetween(cs, s, t) == outs;
        assert Lookup(Aggregate(cs, key), kt) == Lookup(entries, kt);
      }
    }
  }

  /** Adding one more rate adds it to the running sum. */
  lemma SumSnoc(xs: seq<Num>, v: Num)
    ensures Sum(xs + [v]) == Add(Sum(xs), v)
  {
    assert (xs + [v])[..|xs|] == xs;
  }

  /** With distinct keys, looking up an entry's key finds that entry. */
  lemma {:induction false} LookupFindsEntry<K(!new)>(entries: seq<(K, Edge)>, i: nat)
    requires DistinctKeys(entries) && i < |entries|
    ensures Lookup(entries, entries[i].0) == Some(entries[i].1)
    decreases |entries|
  {
    if i > 0 {
      assert entries[i] == entries[1..][i - 1];
      LookupFindsEntry(entries[1..], i - 1);
    }
  }

  // ---------------------------------------------------------------------------
  // The panel.
  // ---------------------------------------------------------------------------

  /** The graph the panel draws. */
  datatype Graph = Graph(nodeIds: seq<string>, edges: seq<Edge>)

  /** The edge key the panel uses: the two ids joined by an arrow. */
  function ArrowKey(from: string, to: string): string {
    from + "->" + to
  }

  /** The known shard ids, as the panel's lookup set. */
  function NodeSet(ids: seq<string>): (r: set<string>)
    ensures forall x :: x in r <==> exists i :: 0 <= i < |ids| && ids[i] == x
  {
    set i | 0 <= i < |ids| :: ids[i]
  }

  /** The panel's graph with edges keyed by `key`. */
  function GraphWith<K(==,!new)>(shards: seq<Shard>, parse: string -> Num, key: (string, string) -> K): (r: Graph)
    ensures r.nodeIds == NodeIds(shards)
    ensures |r.edges| <= ConnectionCount(shards)
  {
    var ids := NodeIds(shards);
    Graph(ids, Values(Aggregate(Contributions(shards, NodeSet(ids), parse), key)))
  }

  /** The connections' contributions as the panel sees them. */
  function PanelContributions(shards: seq<Shard>, parse: string -> Num): seq<Contribution> {
    Contributions(shards, NodeSet(NodeIds(shards)), parse)
  }

  /** An edge key that is the ordered pair itself. */
  function PairKey(from: string, to: string): (string, string) {
    (from, to)
  }

  lemma PairKeyIsInjective()
    ensures Injective(PairKey)
  {
  }

  /** The panel's graph, one edge per ordered pair of shards. */
  function PanelGraph(shards: seq<Shard>, parse: string -> Num): (r: Graph)
    ensures r.nodeIds == NodeIds(shards)
    ensures |r.edges| <= ConnectionCount(shards)
  {
    GraphWith(shards, parse, PairKey)
  }

  /**
   * Whatever the key, the graph has an edge from `s` to `t` exactly when some
   * connection contributes between them, and that edge carries the sum of all
   * their rates, provided no other contributing pair shares their key.
   */
  lemma GraphEdgesArePerPairSums<K(!new)>(shards: seq<Shard>, parse: string -> Num, key: (string, string) -> K, s: string, t: string)
    requires Separates(PanelContributions(shards, parse), key, s, t)
    ensures var g := GraphWith(shards, parse, key);
            var cs := PanelContributions(shards, parse);
            && ((exists i :: 0 <= i < |g.edges| && g.edges[i].from == s && g.edges[i].to == t)
                <==> (exists j :: 0 <= j < |cs| && cs[j].from == s && cs[j].to == t))
            && forall i :: 0 <= i < |g.edges| && g.edges[i].from == s && g.edges[i].to == t ==>
                 Some(g.edges[i]) == Expected(cs, s, t)
  {
    var g := GraphWith(shards, parse, key);
    var cs := PanelContributions(shards, parse);
    var entries := Aggregate(cs, key);
    assert g.edges == Values(entries);
    AggregateIsPerPairSum(cs, key, s, t);
    RatesBetweenNonEmpty(cs, s, t);
    EdgesOfKeyedEntries(entries, key, s, t);
    if Expected(cs, s, t).Some? {
      assert Lookup(entries, key(s, t)).value.from == s && Lookup(entries, key(s, t)).value.to == t;
    }
  }

  /**
   * The panel as written keys edges by `${from}->${to}`; its edge from `s` to
   * `t` is the per-pair sum whenever no other contributing pair spells the
   * same key.
   */
  lemma ArrowGraphEdgesArePerPairSums(shards: seq<Shard>, parse: string -> Num, s: string, t: string)
    requires Separates(PanelContributions(shards, parse), ArrowKey, s, t)
    ensures var g := GraphWith(shards, parse, ArrowKey);
            var cs := PanelContributions(shards, parse);
            && ((exists i :: 0 <= i < |g.edges| && g.edges[i].from == s && g.edges[i].to == t)
                <==> (exists j :: 0 <= j < |cs| && cs[j].from == s && cs[j].to == t))
            && forall i :: 0 <= i < |g.edges| && g.edges[i].from == s && g.edges[i].to == t ==>
                 Some(g.edges[i]) == Expected(cs, s, t)
  {
    GraphEdgesArePerPairSums(shards, parse, ArrowKey, s, t);
  }

  /** The text contains no "->". */
  predicate ArrowFree(x: string) {
    forall i :: 0 <= i < |x| - 1 ==> !(x[i] == '-' && x[i + 1] == '>')
  }

  /** Arrow keys whose source ids hold no "->" tell their pairs apart. */
  lemma ArrowKeyTellsPairsApart(a: string, b: string, c: string, d: string)
    requires ArrowFree(a) && ArrowFree(c)
    ensures ArrowKey(a, b) == ArrowKey(c, d) <==> a == c && b == d
  {
    if |a| < |c| {
      ShorterSourceDiffers(a, b, c, d);
    } else if |c| < |a| {
      ShorterSourceDiffers(c, d, a, b);
    } else if ArrowKey(a, b) == ArrowKey(c, d) {
      var x := ArrowKey(a, b);
      assert a == x[..|a|] && c == x[..|c|];
      assert b == x[|a| + 2..] && d == x[|c| + 2..];
    }
  }

  /** A key whose source id is shorter than an arrow-free one differs from that one's key. */
  lemma ShorterSourceDiffers(a: string, b: string, c: string, d: string)
    requires ArrowFree(c) && |a| < |c|
    ensures ArrowKey(a, b) != ArrowKey(c, d)
  {
    var x := ArrowKey(a, b);
    var y := ArrowKey(c, d);
    assert x[|a|] == '-' && x[|a| + 1] == '>';
    assert y[|a|] == c[|a|];
    if |a| + 1 < |c| {
      assert y[|a| + 1] == c[|a| + 1];
      assert !(c[|a|] == '-' && c[|a| + 1] == '>');
    } else {
      assert y[|a| + 1] == '-';
    }
  }

  /** Contributions whose source ids and `s` hold no "->" never share the arrow key of (`s`, `t`) with another pair. */
  lemma ArrowFreeSourcesSeparate(cs: seq<Contribution>, s: string, t: string)
    requires ArrowFree(s) && forall j :: 0 <= j < |cs| ==> ArrowFree(cs[j].from)
    ensures Separates(cs, ArrowKey, s, t)
  {
    forall j | 0 <= j < |cs| && ArrowKey(cs[j].from, cs[j].to) == ArrowKey(s, t)
      ensures cs[j].from == s && cs[j].to == t
    {
      ArrowKeyTellsPairsApart(cs[j].from, cs[j].to, s, t);
    }
  }

  /** Every contribution comes from one of the reporting shards. */
  lemma {:induction false} ContributionSources(shards: seq<Shard>, nodes: set<string>, parse: string -> Num)
    ensures forall i :: 0 <= i < |Contributions(shards, nodes, parse)| ==>
              exists k :: 0 <= k < |shards| && shards[k].shardId == Contributions(shards, nodes, parse)[i].from
    decreases |shards|
  {
    if |shards| > 0 {
      var front := shards[..|shards| - 1];
      var last := shards[|shards| - 1];
      ContributionSources(front, nodes, parse);
      var init := Contributions(front, nodes, parse);
      var own := ShardContributions(last.shardId, last.connections, nodes, parse);
      var all: seq<Contribution> := init + own;
      assert Contributions(shards, nodes, parse) == all;
      forall i | 0 <= i < |all|
        ensures exists k :: 0 <= k < |shards| && shards[k].shardId == all[i].from
      {
        if i < |init| {
          var k :| 0 <= k < |front| && front[k].shardId == init[i].from;
          assert shards[k] == front[k];
        } else {
          assert shards[|shards| - 1].shardId == own[i - |init|].from;
        }
      }
    } else {
      assert Contributions(shards, nodes, parse) == [];
    }
  }

  /**
   * When no shard id holds "->", the panel as written draws the per-pair sums:
   * its edge from `s` to `t` exists exactly when some connection contributes
   * between them, and carries the sum of all their rates.
   */
  lemma ArrowFreeGraphEdgesArePerPairSums(shards: seq<Shard>, parse: string -> Num, s: string, t: string)
    requires ArrowFree(s) && forall k :: 0 <= k < |shards| ==> ArrowFree(shards[k].shardId)
    ensures var g := GraphWith(shards, parse, ArrowKey);
            var cs := PanelContributions(shards, parse);
            && ((exists i :: 0 <= i < |g.edges| && g.edges[i].from == s && g.edges[i].to == t)
                <==> (exists j :: 0 <= j < |cs| && cs[j].from == s && cs[j].to == t))
            && forall i :: 0 <= i < |g.edges| && g.edges[i].from == s && g.edges[i].to == t ==>
                 Some(g.edges[i]) == Expected(cs, s, t)
  {
    var cs := PanelContributions(shards, parse);
    ContributionSources(shards, NodeSet(NodeIds(shards)), parse);
    forall j | 0 <= j < |cs| ensures ArrowFree(cs[j].from) {
      var k :| 0 <= k < |shards| && shards[k].shardId == cs[j].from;
    }
    ArrowFreeSourcesSeparate(cs, s, t);
    GraphEdgesArePerPairSums(shards, parse, ArrowKey, s, t);
  }

  /**
   * The panel draws an edge from `s` to `t` exactly when some connection
   * contributes between them, and that edge carries the sum of all their
   * rates.
   */
  lemma PanelEdgesArePerPairSums(shards: seq<Shard>, parse: string -> Num, s: string, t: string)
    ensures var g := PanelGraph(shards, parse);
            var cs := PanelContributions(shards, parse);
            && ((exists i :: 0 <= i < |g.edges| && g.edges[i].from == s && g.edges[i].to == t)
                <==> (exists j :: 0 <= j < |cs| && cs[j].from == s && cs[j].to == t))
            && forall i :: 0 <= i < |g.edges| && g.edges[i].from == s && g.edges[i].to == t ==>
                 Some(g.edges[i]) == Expected(cs, s, t)
  {
    assert PanelGraph(shards, parse) == GraphWith(shards, parse, PairKey);
    PairKeyIsInjective();
    InjectiveSeparates(PanelContributions(shards, parse), PairKey, s, t);
    GraphEdgesArePerPairSums(shards, parse, PairKey, s, t);
  }

  /**
   * In a keyed map with distinct keys, an edge joining (`s`, `t`) is the entry
   * looked up under their key, and an entry under that key for that pair is
   * one of the edges.
   */
  lemma EdgesOfKeyedEntries<K(!new)>(entries: seq<(K, Edge)>, key: (string, string) -> K, s: string, t: string)
    requires DistinctKeys(entries) && Keyed(entries, key)
    ensures forall i :: 0 <= i < |Values(entries)| && Values(entries)[i].from == s && Values(entries)[i].to == t ==>
              Some(Values(entries)[i]) == Lookup(entries, key(s, t))
    ensures Lookup(entries, key(s, t)).Some? && Lookup(entries, key(s, t)).value.from == s && Lookup(entries, key(s, t)).value.to == t ==>
              exists i :: 0 <= i < |Values(entries)| && Values(entries)[i].from == s && Values(entries)[i].to == t
  {
    var edges := Values(entries);
    forall i | 0 <= i < |edges| && edges[i].from == s && edges[i].to == t
      ensures Some(edges[i]) == Lookup(entries, key(s, t))
    {
      assert entries[i].0 == key(s, t);
      LookupFindsEntry(entries, i);
    }
    var found := Lookup(entries, key(s, t));
    if found.Some? && found.value.from == s && found.value.to == t {
      var i :| 0 <= i < |entries| && entries[i].0 == key(s, t);
      LookupFindsEntry(entries, i);
      assert edges[i].from == s && edges[i].to == t;
    }
  }

  /** Whatever the key, no two edges of the graph join the same ordered pair. */
  lemma GraphEdgesAreDistinctPairs<K(!new)>(shards: seq<Shard>, parse: string -> Num, key: (string, string) -> K)
    ensures var g := GraphWith(shards, parse, key);
            forall i, j :: 0 <= i < j < |g.edges| ==> (g.edges[i].from, g.edges[i].to) != (g.edges[j].from, g.edges[j].to)
  {
    var entries := Aggregate(PanelContributions(shards, parse), key);
    var edges := GraphWith(shards, parse, key).edges;
    forall i, j | 0 <= i < j < |edges| ensures (edges[i].from, edges[i].to) != (edges[j].from, edges[j].to) {
      assert entries[i].0 != entries[j].0;
    }
  }

  /** No two edges of the panel's graph join the same ordered pair. */
  lemma PanelEdgesAreDistinctPairs(shards: seq<Shard>, parse: string -> Num)
    ensures var g := PanelGraph(shards, parse);
            forall i, j :: 0 <= i < j < |g.edges| ==> (g.edges[i].from, g.edges[i].to) != (g.edges[j].from, g.edges[j].to)
  {
    GraphEdgesAreDistinctPairs(shards, parse, PairKey);
  }

  /** The arrow key gives two different ordered pairs the same key. */
  lemma ArrowKeyCollides()
    ensures ArrowKey("a->b", "c") == ArrowKey("a", "b->c")
  {
  }

  /** Two shards each linking to one of two more, with no rates reported. */
  function TwoLinks(s1: string, t1: string, s2: string, t2: string): seq<Shard> {
    [Shard(s1, [Fields("", Some(t1), None, None)]), Shard(s2, [Fields("", Some(t2), None, None)]), Shard(t1, []), Shard(t2, [])]
  }

  /** Two links between four distinct named shards contribute one share each, in order. */
  lemma TwoLinksContribute(s1: string, t1: string, s2: string, t2: string, parse: string -> Num)
    requires s1 != "" && t1 != "" && s2 != "" && t2 != ""
    requires s1 != t1 && s2 != t2
    ensures PanelContributions(TwoLinks(s1, t1, s2, t2), parse)
              == [Contribution(s1, t1, Finite(0.0), Finite(0.0)), Contribution(s2, t2, Finite(0.0), Finite(0.0))]
  {
    var shards := TwoLinks(s1, t1, s2, t2);
    var one := Fields("", Some(t1), None, None);
    var two := Fields("", Some(t2), None, None);
    var ids := NodeIds(shards);
    assert ids == [s1, s2, t1, t2];
    var nodes := NodeSet(ids);
    assert ids[2] in nodes && ids[3] in nodes;
    var c1 := Contribution(s1, t1, Finite(0.0), Finite(0.0));
    var c2 := Contribution(s2, t2, Finite(0.0), Finite(0.0));
    assert [one][..0] == [] && [two][..0] == [];
    assert ShardContributions(s1, [one], nodes, parse) == [c1];
    assert ShardContributions(s2, [two], nodes, parse) == [c2];
    assert shards[..1][..0] == [];
    assert Contributions(shards[..1], nodes, parse) == [c1];
    assert shards[..2][..1] == shards[..1];
    assert Contributions(shards[..2], nodes, parse) == [c1, c2];
    assert shards[..3][..2] == shards[..2];
    assert Contributions(shards[..3], nodes, parse) == [c1, c2] + ShardContributions(t1, [], nodes, parse);
    assert shards[..3] == shards[..|shards| - 1];
  }

  /** Two shares land on one edge exactly when their keys coincide. */
  lemma TwoSharesEdgeCount<K(!new)>(c1: Contribution, c2: Contribution, key: (string, string) -> K)
    ensures |Aggregate([c1, c2], key)| == if key(c1.from, c1.to) == key(c2.from, c2.to) then 1 else 2
  {
    assert [c1, c2][..1] == [c1];
    assert [c1][..0] == [];
    assert Aggregate([c1], key) == [(key(c1.from, c1.to), NewEdge(c1))];
  }

  /**
   * Keyed by the arrow text, as the panel does, a connection from "a" to
   * "b->c" and one from "a->b" to "c" end up as a single edge, so one of the
   * two directed links is not drawn; keyed by the pair, both are.
   */
  lemma ArrowKeyMergesDistinctPairs(parse: string -> Num, a: string, bc: string, ab: string, c: string)
    requires a == "a" && bc == "b->c" && ab == "a->b" && c == "c"
    ensures |GraphWith(TwoLinks(a, bc, ab, c), parse, ArrowKey).edges| == 1
    ensures |PanelGraph(TwoLinks(a, bc, ab, c), parse).edges| == 2
  {
    assert a != bc && ab != c && a != ab by {
      assert |a| != |bc| && |ab| != |c| && |a| != |ab|;
    }
    TwoLinksContribute(a, bc, ab, c, parse);
    var c1 := Contribution(a, bc, Finite(0.0), Finite(0.0));
    var c2 := Contribution(ab, c, Finite(0.0), Finite(0.0));
    ArrowKeyCollides();
    TwoSharesEdgeCount(c1, c2, ArrowKey);
    TwoSharesEdgeCount(c1, c2, PairKey);
  }
}

=== FILE: redis_connect.dfy ===
/**
 * Connecting to Redis: connections are cached per set of options and reused
 * while still alive elsewhere; otherwise connection attempts are made until
 * one succeeds or the retry budget is spent, sleeping a fixed interval after
 * each failure. Each attempt's outcome is an input: `attempts(i)` is the
 * connection the i-th attempt yields, or `None` when it throws.
 */
module RedisConnect {
  import opened Wrappers
  import opened Text

  /** An unsigned 32-bit count, as the retry parameters are declared. */
  newtype u32 = x: int | 0 <= x < 0x1_0000_0000

  datatype Options = Options(host: string, port: int, isCluster: bool)

  /** A connection object, identified by its number. */
  type ConnectionId = nat

  /**
   * The connection cache: the options each connection was made for. Entries
   * are weak references, so a cached connection counts only while it is in
   * `alive`.
   */
  type Cache = map<Options, ConnectionId>

  /** The cached connection for `options`, if it is still alive. */
  function Cached(cache: Cache, alive: set<ConnectionId>, options: Options): (r: Option<ConnectionId>)
    ensures r.Some? <==> options in cache && cache[options] in alive
    ensures r.Some? ==> r.value == cache[options]
  {
    if options in cache && cache[options] in alive then Some(cache[options]) else None
  }

  // ---------------------------------------------------------------------------
  // LooksLikeNotClusterError
  // ---------------------------------------------------------------------------

  /**
   * LooksLikeNotClusterError: the message, lower-cased, mentions disabled
   * cluster support or an unknown command.
   */
  predicate LooksLikeNotClusterError(message: string) {
    var lowered := ToLower(message);
    Contains(lowered, "cluster support disabled") || Contains(lowered, "unknown command")
  }

  /** Contains means an occurrence at some index. */
  lemma ContainsIsOccurrence(s: string, t: string)
    ensures Contains(s, t) <==> exists i :: OccursAt(s, t, i)
  {
    if exists i :: OccursAt(s, t, i) {
      var i :| OccursAt(s, t, i);
      assert FindSub(s, t, 0).Some?;
    }
  }

  /** Lower-casing twice is lower-casing once. */
  lemma ToLowerIsIdempotent(s: string)
    ensures ToLower(ToLower(s)) == ToLower(s)
  {
  }

  /**
   * The test ignores letter case: a message and its lower-cased form are
   * classified alike, and the classification is exactly an occurrence of one
   * of the two phrases in the lower-cased message.
   */
  lemma NotClusterErrorIgnoresCase(message: string)
    ensures LooksLikeNotClusterError(message) == LooksLikeNotClusterError(ToLower(message))
    ensures LooksLikeNotClusterError(message) <==>
              (exists i :: OccursAt(ToLower(message), "cluster support disabled", i))
              || (exists i :: OccursAt(ToLower(message), "unknown command", i))
  {
    ToLowerIsIdempotent(message);
    ContainsIsOccurrence(ToLower(message), "cluster support disabled");
    ContainsIsOccurrence(ToLower(message), "unknown command");
  }

  /** A message that carries one of the phrases, in any case, between other text, is recognised. */
  lemma PhraseAnywhereIsRecognised(before: string, phrase: string, after: string)
    requires ToLower(phrase) == "cluster support disabled" || ToLower(phrase) == "unknown command"
    ensures LooksLikeNotClusterError(before + phrase + after)
  {
    var m := before + phrase + after;
    assert ToLower(m)[|before|..|before| + |phrase|] == ToLower(phrase);
    NotClusterErrorIgnoresCase(m);
    assert OccursAt(ToLower(m), ToLower(phrase), |before|);
  }

  // ---------------------------------------------------------------------------
  // The retry loop
  // ---------------------------------------------------------------------------

  /** The index of the first attempt that succeeds among attempts `from`..`maxRetries`. */
  function FirstSuccess(attempts: nat -> Option<ConnectionId>, from: nat, maxRetries: nat): (r: Option<nat>)
    decreases maxRetries + 1 - from
    ensures r.Some? ==> from <= r.value <= maxRetries && attempts(r.value).Some?
    ensures r.Some? ==> forall j :: from <= j < r.value ==> attempts(j).None?
    ensures r.None? ==> forall j :: from <= j <= maxRetries ==> attempts(j).None?
  {
    if from > maxRetries then None
    else if attempts(from).Some? then Some(from)
    else FirstSuccess(attempts, from + 1, maxRetries)
  }

  /** `count` copies of `x`. */
  function Repeat(x: nat, count: nat): (r: seq<nat>)
    ensures |r| == count && forall i :: 0 <= i < count ==> r[i] == x
  {
    if count == 0 then [] else Repeat(x, count - 1) + [x]
  }

  /**
   * The attempt loop of Connect: try, and on failure either give up (once
   * `maxRetries` retries have been made) or count the retry and sleep for
   * `retryIntervalMs` when that is positive. Reports the connection made (or
   * `None` for the rethrown error), the number of attempts and the sleeps.
   */
  method RetryLoop(maxRetries: u32, retryIntervalMs: u32, attempts: nat -> Option<ConnectionId>)
    returns (made: Option<ConnectionId>, attemptCount: nat, sleeps: seq<nat>)
    ensures var first := FirstSuccess(attempts, 0, maxRetries as nat);
            && (first.Some? ==> made == attempts(first.value) && attemptCount == first.value + 1)
            && (first.None? ==> made.None? && attemptCount == maxRetries as nat + 1)
    ensures 1 <= attemptCount <= maxRetries as nat + 1
    ensures sleeps == if retryIntervalMs > 0 then Repeat(retryIntervalMs as nat, attemptCount - 1) else []
  {
    var attempt: u32 := 0;
    sleeps := [];
    while true
      invariant attempt <= maxRetries
      invariant forall j :: 0 <= j < attempt as nat ==> attempts(j).None?
      invariant FirstSuccess(attempts, 0, maxRetries as nat) == FirstSuccess(attempts, attempt as nat, maxRetries as nat)
      invariant sleeps == if retryIntervalMs > 0 then Repeat(retryIntervalMs as nat, attempt as nat) else []
      decreases maxRetries - attempt
    {
      var outcome := attempts(attempt as nat);
      if outcome.Some? {
        return outcome, attempt as nat + 1, sleeps;
      }
      if attempt >= maxRetries {
        return None, attempt as nat + 1, sleeps;
      }
      attempt := attempt + 1;
      if retryIntervalMs > 0 {
        sleeps := sleeps + [retryIntervalMs as nat];
      }
    }
  }

  /** What a Connect call returns: a connection, or the last attempt's error rethrown. */
  datatype Outcome = Connected(connection: ConnectionId) | Thrown

  /** `map::emplace`: the entry is added only when the key is absent; an existing entry stays. */
  function Emplace(cache: Cache, options: Options, connection: ConnectionId): (r: Cache)
    ensures options in r && r.Keys == cache.Keys + {options}
    ensures options in cache ==> r == cache
  {
    if options in cache then cache else cache[options := connection]
  }

  /** Storing the new connection, replacing whatever entry was there. */
  function Store(cache: Cache, options: Options, connection: ConnectionId): (r: Cache)
    ensures r.Keys == cache.Keys + {options} && r[options] == connection
    ensures forall o :: o in cache && o != options ==> r[o] == cache[o]
  {
    cache[options := connection]
  }

  /**
   * Connect as written: a live cached connection is returned at once;
   * otherwise the retry loop runs and a new connection is put in the cache
   * with `emplace`.
   */
  method ConnectAsWritten(cache: Cache, alive: set<ConnectionId>, options: Options, maxRetries: u32, retryIntervalMs: u32,
                          attempts: nat -> Option<ConnectionId>)
    returns (outcome: Outcome, cache': Cache, attemptCount: nat, sleeps: seq<nat>)
    ensures Cached(cache, alive, options).Some? ==>
              outcome == Connected(cache[options]) && cache' == cache && attemptCount == 0 && sleeps == []
    ensures Cached(cache, alive, options).None? ==> 1 <= attemptCount <= maxRetries as nat + 1
    ensures outcome.Connected? && Cached(cache, alive, options).None? ==> cache' == Emplace(cache, options, outcome.connection)
    ensures outcome.Thrown? ==> cache' == cache
  {
    var hit := Cached(cache, alive, options);
    if hit.Some? {
      return Connected(hit.value), cache, 0, [];
    }
    var made;
    made, attemptCount, sleeps := RetryLoop(maxRetries, retryIntervalMs, attempts);
    if made.Some? {
      return Connected(made.value), Emplace(cache, options, made.value), attemptCount, sleeps;
    }
    return Thrown, cache, attemptCount, sleeps;
  }

  /**
   * Connect: a live cached connection is returned at once with no attempt;
   * otherwise at most `maxRetries + 1` attempts are made, the first success
   * is cached and returned, and when every attempt fails the error is
   * rethrown and the cache is left alone.
   */
  method Connect(cache: Cache, alive: set<ConnectionId>, options: Options, maxRetries: u32, retryIntervalMs: u32,
                 attempts: nat -> Option<ConnectionId>)
    returns (outcome: Outcome, cache': Cache, attemptCount: nat, sleeps: seq<nat>)
    ensures Cached(cache, alive, options).Some? ==>
              outcome == Connected(cache[options]) && cache' == cache && attemptCount == 0 && sleeps == []
    ensures Cached(cache, alive, options).None? ==>
              var first := FirstSuccess(attempts, 0, maxRetries as nat);
              && (first.Some? <==> outcome.Connected?)
              && (first.Some? ==> outcome == Connected(attempts(first.value).value) && attemptCount == first.value + 1
                                  && cache' == Store(cache, options, outcome.connection))
              && (first.None? ==> cache' == cache && attemptCount == maxRetries as nat + 1)
    ensures Cached(cache, alive, options).None? && retryIntervalMs == 0 ==> sleeps == []
    ensures Cached(cache, alive, options).None? && retryIntervalMs > 0 ==> sleeps == Repeat(retryIntervalMs as nat, attemptCount - 1)
    ensures outcome.Connected? ==> Cached(cache', alive + {outcome.connection}, options) == Some(outcome.connection)
  {
    var hit := Cached(cache, alive, options);
    if hit.Some? {
      return Connected(hit.value), cache, 0, [];
    }
    var made;
    made, attemptCount, sleeps := RetryLoop(maxRetries, retryIntervalMs, attempts);
    if made.Some? {
      return Connected(made.value), Store(cache, options, made.value), attemptCount, sleeps;
    }
    return Thrown, cache, attemptCount, sleeps;
  }

  /**
   * With `emplace`, once the cached connection for some options has died a
   * new connection is never cached for them: the dead entry stays, so the
   * next call finds nothing and connects again.
   */
  lemma EmplaceKeepsDeadEntry(cache: Cache, alive: set<ConnectionId>, options: Options, connection: ConnectionId)
    requires options in cache && cache[options] !in alive && cache[options] != connection
    ensures Cached(Emplace(cache, options, connection), alive + {connection}, options).None?
  {
  }

  /** Storing with replacement makes the new connection the one the next call reuses. */
  lemma StoreCachesNewConnection(cache: Cache, alive: set<ConnectionId>, options: Options, connection: ConnectionId)
    ensures Cached(Store(cache, options, connection), alive + {connection}, options) == Some(connection)
    ensures forall o :: o != options ==> Cached(Store(cache, options, connection), alive, o) == Cached(cache, alive, o)
  {
  }

  /** ConnectNonCluster: Connect with the options of a standalone server. */
  function NonClusterOptions(address: string, port: int): (r: Options)
    ensures r.host == address && r.port == port && !r.isCluster
  {
    Options(address, port, false)
  }
}

=== FILE: snapshot_format.dfy ===
/**
 * Payload previews of the keyspace snapshot (databaseSnapshot.js): the
 * truncation step every payload passes through, and the per-type formatters
 * for hashes, sets, lists and sorted sets. Each formatter is paired with a
 * parser that reads its output back.
 */
module SnapshotFormat {
  import opened Wrappers
  import opened Text
  import opened Sorting
  import opened JsText

  // ---------------------------------------------------------------------------
  // Truncation
  // ---------------------------------------------------------------------------

  const MarkerHead: string := "\n...[truncated "
  const MarkerTail: string := " bytes]"

  /** The note appended to a payload that lost `elided` code units. */
  function Marker(elided: nat): string {
    MarkerHead + NatToString(elided) + MarkerTail
  }

  /**
   * truncatePayload: a non-string gives "", a string whose `length` is within
   * the budget is kept, a longer one keeps its first `maxChars` code units
   * (`slice`) and gains a marker counting the code units cut. `payload` is
   * None for a non-string argument; the result is the stored JavaScript
   * string, as code units.
   */
  function TruncatePayload(payload: Option<string>, maxChars: nat): (r: seq<CodeUnit>)
    ensures payload.None? ==> r == []
    ensures payload.Some? && |Utf16(payload.value)| <= maxChars ==> r == Utf16(payload.value)
    ensures payload.Some? && |Utf16(payload.value)| > maxChars ==>
              |r| > maxChars && r[..maxChars] == Utf16(payload.value)[..maxChars]
    ensures WithinBudget(r, maxChars)
  {
    match payload
    case None => []
    case Some(s) => Truncate(Utf16(s), maxChars)
  }

  /** The truncation step on the code units of a string payload. */
  function Truncate(u: seq<CodeUnit>, maxChars: nat): (r: seq<CodeUnit>)
    ensures |u| <= maxChars ==> r == u
    ensures |u| > maxChars ==> |r| > maxChars && r[..maxChars] == u[..maxChars]
    ensures WithinBudget(r, maxChars)
  {
    if |u| <= maxChars then u
    else
      var r := u[..maxChars] + Utf16(Marker(|u| - maxChars));
      MarkerCountReadBack(u[..maxChars], |u| - maxChars);
      r
  }

  /** The count a marker's text carries; None when the text is not a marker. */
  function MarkerCount(tail: string): Option<nat> {
    if |tail| < |MarkerHead| + |MarkerTail| + 1 then None
    else if tail[..|MarkerHead|] != MarkerHead then None
    else if tail[|tail| - |MarkerTail|..] != MarkerTail then None
    else
      var digits := tail[|MarkerHead|..|tail| - |MarkerTail|];
      if AllDigits(digits) then Some(DigitsValue(digits)) else None
  }

  /**
   * The number of code units a truncated payload reports as cut, read back
   * from its marker; None when the units past the budget are not a marker.
   */
  function ElidedCount(p: seq<CodeUnit>, maxChars: nat): Option<nat> {
    if |p| <= maxChars then None
    else
      match AsciiText(p[maxChars..])
      case None => None
      case Some(tail) => MarkerCount(tail)
  }

  /**
   * A payload that fits the budget, or a budget-sized prefix followed by a
   * marker; `MarkerCountReadBack` shows `ElidedCount` reads that marker's count.
   */
  ghost predicate WithinBudget(p: seq<CodeUnit>, maxChars: nat) {
    |p| <= maxChars || exists k: nat :: p[maxChars..] == Utf16(Marker(k))
  }

  /** The marker text is plain ASCII. */
  lemma MarkerIsAscii(k: nat)
    ensures IsAscii(Marker(k))
  {
    var m := Marker(k);
    var digits := NatToString(k);
    forall i | 0 <= i < |m| ensures m[i] as int < 0x80 {
      if |MarkerHead| <= i < |MarkerHead| + |digits| {
        assert m[i] == digits[i - |MarkerHead|];
        assert IsDigit(digits[i - |MarkerHead|]);
      }
    }
  }

  /** A marker's text reads back as its count. */
  lemma MarkerTextReadBack(k: nat)
    ensures MarkerCount(Marker(k)) == Some(k)
  {
    var tail := Marker(k);
    var digits := NatToString(k);
    assert tail[..|MarkerHead|] == MarkerHead;
    assert tail[|tail| - |MarkerTail|..] == MarkerTail;
    assert tail[|MarkerHead|..|tail| - |MarkerTail|] == digits;
  }

  /** Whatever precedes it, a marker placed at the budget reads back as its count. */
  lemma MarkerCountReadBack(prefix: seq<CodeUnit>, k: nat)
    ensures ElidedCount(prefix + Utf16(Marker(k)), |prefix|) == Some(k)
  {
    var m := Utf16(Marker(k));
    MarkerIsAscii(k);
    AsciiTextOfUtf16(Marker(k));
    MarkerTextReadBack(k);
    assert |m| > 0 by {
      Utf16Length(Marker(k));
    }
    assert (prefix + m)[|prefix|..] == m;
  }

  /**
   * The marker of a truncated payload says exactly how many code units were
   * cut, and a payload within the budget carries no marker at all.
   */
  lemma TruncationIsRecoverable(s: string, maxChars: nat)
    ensures |Utf16(s)| <= maxChars ==> ElidedCount(TruncatePayload(Some(s), maxChars), maxChars).None?
    ensures |Utf16(s)| > maxChars ==>
              ElidedCount(TruncatePayload(Some(s), maxChars), maxChars) == Some(|Utf16(s)| - maxChars)
  {
    PayloadIsCut(s, maxChars);
    if |Utf16(s)| > maxChars {
      CutIsRecoverable(Utf16(s), maxChars);
    }
  }

  lemma PayloadIsCut(s: string, maxChars: nat)
    ensures TruncatePayload(Some(s), maxChars) == Truncate(Utf16(s), maxChars)
  {
  }

  /** The count read back from a cut sequence of code units is the number cut. */
  lemma CutIsRecoverable(u: seq<CodeUnit>, maxChars: nat)
    requires |u| > maxChars
    ensures ElidedCount(Truncate(u, maxChars), maxChars) == Some(|u| - maxChars)
  {
    CutForm(u, maxChars);
    MarkerCountReadBack(u[..maxChars], |u| - maxChars);
  }

  /** A cut sequence is its first `maxChars` code units followed by the marker. */
  lemma CutForm(u: seq<CodeUnit>, maxChars: nat)
    requires |u| > maxChars
    ensures Truncate(u, maxChars) == u[..maxChars] + Utf16(Marker(|u| - maxChars))
  {
  }

  /** For text below U+10000 the budget counts characters, one code unit each. */
  lemma BmpPayloadCountsCharacters(s: string, maxChars: nat)
    requires IsBmp(s)
    ensures |Utf16(s)| == |s|
    ensures |s| > maxChars ==> ElidedCount(TruncatePayload(Some(s), maxChars), maxChars) == Some(|s| - maxChars)
  {
    Utf16Length(s);
    assert IsBmp(s);
    PayloadIsCut(s, maxChars);
    if |s| > maxChars {
      CutIsRecoverable(Utf16(s), maxChars);
    }
  }

  /**
   * A character above U+FFFF counts as two code units: with a budget of one,
   * "\U{1F600}" keeps only its high surrogate and reports one unit cut.
   */
  lemma AstralCharacterCountsTwice()
    ensures TruncatePayload(Some("\U{1F600}"), 1) == [0xD83D as CodeUnit] + Utf16(Marker(1))
    ensures ElidedCount(TruncatePayload(Some("\U{1F600}"), 1), 1) == Some(1)
  {
    var s := "\U{1F600}";
    assert s[..0] == [];
    assert CharUnits(s[0]) == [0xD83D as CodeUnit, 0xDE00 as CodeUnit];
    var u := Utf16(s);
    assert u == [0xD83D as CodeUnit, 0xDE00 as CodeUnit];
    assert u[..1] == [0xD83D as CodeUnit];
    assert TruncatePayload(Some(s), 1) == Truncate(u, 1);
    CutForm(u, 1);
    CutIsRecoverable(u, 1);
  }

  // ---------------------------------------------------------------------------
  // Tab-separated lines
  // ---------------------------------------------------------------------------

  function PairLine(p: (string, string)): string {
    p.0 + "\t" + p.1
  }

  /** One `left\tright` line per pair, joined with newlines. */
  function PairPayload(pairs: seq<(string, string)>): string {
    Join(Map(pairs, PairLine), "\n")
  }

  /** Cuts a line at its first tab. */
  function CutAtTab(line: string): (r: Option<(string, string)>)
    ensures r.Some? ==> PairLine(r.value) == line && Excludes(r.value.0, '\t')
  {
    match FindChar(line, '\t', 0)
    case None => None
    case Some(i) =>
      assert line == line[..i] + "\t" + line[i + 1..];
      Some((line[..i], line[i + 1..]))
  }

  function AllSome<T>(xs: seq<Option<T>>): (r: Option<seq<T>>)
    ensures r.Some? ==> |r.value| == |xs| && forall i :: 0 <= i < |xs| ==> xs[i] == Some(r.value[i])
  {
    if |xs| == 0 then Some([])
    else if xs[0].None? then None
    else match AllSome(xs[1..])
      case None => None
      case Some(rest) => Some([xs[0].value] + rest)
  }

  /** Reads a payload of tab-separated lines back into its pairs. */
  function ParsePairPayload(payload: string): Option<seq<(string, string)>> {
    if payload == "" then Some([]) else AllSome(Map(Split(payload, '\n'), CutAtTab))
  }

  /** A pair that prints as one line and cuts back at the right tab. */
  predicate PrintablePair(p: (string, string)) {
    Excludes(p.0, '\t') && Excludes(p.0, '\n') && Excludes(p.1, '\n')
  }

  lemma {:induction false} AllSomeOfSomes<T>(xs: seq<T>)
    ensures AllSome(Map(xs, (x: T) => Some(x))) == Some(xs)
  {
    if |xs| > 0 {
      AllSomeOfSomes(xs[1..]);
      assert Map(xs, (x: T) => Some(x))[1..] == Map(xs[1..], (x: T) => Some(x));
      assert [xs[0]] + xs[1..] == xs;
    }
  }

  lemma CutPairLine(p: (string, string))
    requires Excludes(p.0, '\t')
    ensures CutAtTab(PairLine(p)) == Some(p)
  {
    var line := PairLine(p);
    assert line[|p.0|] == '\t';
    assert forall i :: 0 <= i < |p.0| ==> line[i] == p.0[i];
    assert FindChar(line, '\t', 0) == Some(|p.0|);
    assert line[..|p.0|] == p.0;
    assert line[|p.0| + 1..] == p.1;
  }

  /** Parsing a pair payload gives back exactly the pairs it was printed from. */
  lemma PairPayloadRoundTrip(pairs: seq<(string, string)>)
    requires forall i :: 0 <= i < |pairs| ==> PrintablePair(pairs[i])
    ensures ParsePairPayload(PairPayload(pairs)) == Some(pairs)
  {
    if |pairs| > 0 {
      var lines := Map(pairs, PairLine);
      forall k | 0 <= k < |lines| ensures Excludes(lines[k], '\n') {
        assert lines[k] == pairs[k].0 + "\t" + pairs[k].1;
      }
      SplitJoin(lines, '\n');
      assert PairPayload(pairs) != "" by {
        assert |lines[0]| >= 1;
        assert Join(lines, "\n") == lines[0] || Join(lines, "\n")[..|lines[0]|] == lines[0];
      }
      forall k | 0 <= k < |pairs| ensures CutAtTab(lines[k]) == Some(pairs[k]) {
        CutPairLine(pairs[k]);
      }
      assert Map(lines, CutAtTab) == Map(pairs, (x: (string, string)) => Some(x));
      AllSomeOfSomes(pairs);
    }
  }

  // ---------------------------------------------------------------------------
  // Per-type formatters
  // ---------------------------------------------------------------------------

  /** Orders hash entries by field name with the string order `le`. */
  function ByField(le: (string, string) -> bool): ((string, string), (string, string)) -> bool {
    (a: (string, string), b: (string, string)) => le(a.0, b.0)
  }

  lemma ByFieldIsTotalPreorder(le: (string, string) -> bool)
    requires TotalPreorder(le)
    ensures TotalPreorder(ByField(le))
  {
    var f := ByField(le);
    forall a: (string, string), b: (string, string) ensures f(a, b) || f(b, a) {
      assert le(a.0, b.0) || le(b.0, a.0);
    }
    forall a: (string, string), b: (string, string), c: (string, string) | f(a, b) && f(b, c)
      ensures f(a, c)
    {
      assert le(a.0, b.0) && le(b.0, c.0);
    }
  }

  /** formatHashPayload: entries sorted by field name, one `field\tvalue` per line. */
  function FormatHashPayload(fields: seq<(string, string)>, le: (string, string) -> bool): string
    requires TotalPreorder(le)
  {
    ByFieldIsTotalPreorder(le);
    PairPayload(Sort(fields, ByField(le)))
  }

  /**
   * The hash payload reads back as the same entries, reordered so that field
   * names ascend.
   */
  lemma HashPayloadReadsBack(fields: seq<(string, string)>, le: (string, string) -> bool)
    requires TotalPreorder(le)
    requires forall i :: 0 <= i < |fields| ==> PrintablePair(fields[i])
    ensures var parsed := ParsePairPayload(FormatHashPayload(fields, le));
            && parsed.Some?
            && multiset(parsed.value) == multiset(fields)
            && forall i, j :: 0 <= i < j < |parsed.value| ==> le(parsed.value[i].0, parsed.value[j].0)
  {
    ByFieldIsTotalPreorder(le);
    var sorted := Sort(fields, ByField(le));
    forall i | 0 <= i < |sorted| ensures PrintablePair(sorted[i]) {
      assert sorted[i] in multiset(fields);
    }
    PairPayloadRoundTrip(sorted);
  }

  /** formatSetPayload: members sorted, one per line. */
  function FormatSetPayload(members: seq<string>, le: (string, string) -> bool): string
    requires TotalPreorder(le)
  {
    Join(Sort(members, le), "\n")
  }

  /** A non-empty set payload splits back into the members, in ascending order. */
  lemma SetPayloadReadsBack(members: seq<string>, le: (string, string) -> bool)
    requires TotalPreorder(le)
    requires |members| >= 1
    requires forall i :: 0 <= i < |members| ==> Excludes(members[i], '\n')
    ensures var lines := Split(FormatSetPayload(members, le), '\n');
            && multiset(lines) == multiset(members)
            && Sorted(lines, le)
  {
    var sorted := Sort(members, le);
    forall k | 0 <= k < |sorted| ensures Excludes(sorted[k], '\n') {
      assert sorted[k] in multiset(members);
    }
    SplitJoin(sorted, '\n');
  }

  /** The `i\tvalue` pairs of a list, numbered from 0 in stored order. */
  function ListPairs(values: seq<string>): (r: seq<(string, string)>)
    ensures |r| == |values|
    ensures forall i :: 0 <= i < |values| ==> r[i] == (NatToString(i), values[i])
  {
    seq(|values|, i requires 0 <= i < |values| => (NatToString(i), values[i]))
  }

  /** formatListPayload */
  function FormatListPayload(values: seq<string>): string {
    PairPayload(ListPairs(values))
  }

  /** Reads a list payload back: every line must be numbered with its own position. */
  function ParseListPayload(payload: string): Option<seq<string>> {
    match ParsePairPayload(payload)
    case None => None
    case Some(pairs) =>
      if forall i :: 0 <= i < |pairs| ==> pairs[i].0 == NatToString(i)
      then Some(Map(pairs, (p: (string, string)) => p.1))
      else None
  }

  /** The list payload gives back the stored values in stored order. */
  lemma ListPayloadRoundTrip(values: seq<string>)
    requires forall i :: 0 <= i < |values| ==> Excludes(values[i], '\n')
    ensures ParseListPayload(FormatListPayload(values)) == Some(values)
  {
    var pairs := ListPairs(values);
    forall i | 0 <= i < |pairs| ensures PrintablePair(pairs[i]) {
      var d := NatToString(i);
      assert forall k :: 0 <= k < |d| ==> IsDigit(d[k]);
    }
    PairPayloadRoundTrip(pairs);
    assert Map(pairs, (p: (string, string)) => p.1) == values;
  }

  /** The `score\tmember` pairs of a flat [member, score, ...] reply; a trailing odd element is dropped. */
  function ZSetPairs(flat: seq<string>): (r: seq<(string, string)>)
    ensures |r| == |flat| / 2
    ensures forall i :: 0 <= i < |r| ==> r[i] == (flat[2 * i + 1], flat[2 * i])
  {
    seq(|flat| / 2, i requires 0 <= i < |flat| / 2 => (flat[2 * i + 1], flat[2 * i]))
  }

  /** formatZSetPayload */
  function FormatZSetPayload(flat: seq<string>): string {
    PairPayload(ZSetPairs(flat))
  }

  /** Rebuilds the flat [member, score, ...] reply from the parsed `score\tmember` lines. */
  function Unpair(pairs: seq<(string, string)>): (r: seq<string>)
    ensures |r| == 2 * |pairs|
    ensures forall i :: 0 <= i < |pairs| ==> r[2 * i] == pairs[i].1 && r[2 * i + 1] == pairs[i].0
  {
    if |pairs| == 0 then []
    else
      var rest := Unpair(pairs[1..]);
      var r := [pairs[0].1, pairs[0].0] + rest;
      assert forall i :: 1 <= i < |pairs| ==> r[2 * i] == rest[2 * (i - 1)] && r[2 * i + 1] == rest[2 * (i - 1) + 1] by {
        forall i | 1 <= i < |pairs|
          ensures r[2 * i] == rest[2 * (i - 1)] && r[2 * i + 1] == rest[2 * (i - 1) + 1]
        {
          assert 2 * i == 2 + 2 * (i - 1);
        }
      }
      r
  }

  /**
   * The sorted-set payload gives back the reply without its unpaired trailing
   * element, provided scores hold no tab and nothing holds a newline.
   */
  lemma ZSetPayloadRoundTrip(flat: seq<string>)
    requires forall i :: 0 <= i < |flat| ==> Excludes(flat[i], '\n')
    requires forall i :: 0 <= i < |flat| / 2 ==> Excludes(flat[2 * i + 1], '\t')
    ensures var parsed := ParsePairPayload(FormatZSetPayload(flat));
            parsed.Some? && Unpair(parsed.value) == flat[..2 * (|flat| / 2)]
  {
    var pairs := ZSetPairs(flat);
    forall i | 0 <= i < |pairs| ensures PrintablePair(pairs[i]) {
      assert pairs[i] == (flat[2 * i + 1], flat[2 * i]);
    }
    PairPayloadRoundTrip(pairs);
    UnpairOfZSetPairs(flat);
  }

  /** Unpairing the pairs of a flat reply gives back its paired part. */
  lemma UnpairOfZSetPairs(flat: seq<string>)
    ensures Unpair(ZSetPairs(flat)) == flat[..2 * (|flat| / 2)]
  {
    var pairs := ZSetPairs(flat);
    var u := Unpair(pairs);
    forall k | 0 <= k < |u| ensures u[k] == flat[k] {
      var j := k / 2;
      assert k == 2 * j || k == 2 * j + 1;
      assert j < |pairs|;
      if k == 2 * j {
        assert u[2 * j] == pairs[j].1;
      } else {
        assert u[2 * j + 1] == pairs[j].0;
      }
    }
  }
}

=== FILE: snapshot_populate.dfy ===
/**
 * Filling in the records' payloads (populateRecordPayloads): keys are sorted
 * into buckets by type, each bucket is read with one batched request, and a
 * bucket whose request throws marks only its own keys with a read error.
 */
module SnapshotPopulate {
  import opened Wrappers
  import opened Sorting
  import opened SnapshotReplies
  import opened SnapshotFormat
  import opened SnapshotScan
  import opened SnapshotRecords

  // ---------------------------------------------------------------------------
  // Buckets
  // ---------------------------------------------------------------------------

  /** Where a key's payload comes from: nowhere (a fixed marker), or one of the six batched reads. */
  datatype Bucket = NoFetch | Strings | Hashes | Sets | ZSets | Lists | JsonFallback

  /** The switch on the reported type; any type not listed goes to the JSON fallback. */
  function BucketOf(keyType: string): Bucket {
    match keyType
    case "none" => NoFetch
    case "stream" => NoFetch
    case "vectorset" => NoFetch
    case "string" => Strings
    case "hash" => Hashes
    case "set" => Sets
    case "zset" => ZSets
    case "list" => Lists
    case _ => JsonFallback
  }

  /** The marker a no-fetch type gets in place of its contents. */
  function NoFetchText(keyType: string): string {
    if keyType == "none" then "<key expired>"
    else if keyType == "stream" then "<stream preview not implemented>"
    else "<vectorset preview not implemented>"
  }

  /** The bucket's keys in metadata order, skipping keys that have no record. */
  function BucketItems(metadata: seq<KeyMetadata>, tracked: set<string>, b: Bucket): (r: seq<KeyMetadata>)
    ensures |r| <= |metadata|
    ensures forall j :: 0 <= j < |r| ==> r[j] in metadata && r[j].key in tracked && BucketOf(r[j].keyType) == b
    decreases |metadata|
  {
    if |metadata| == 0 then []
    else
      var init := BucketItems(metadata[..|metadata| - 1], tracked, b);
      var last := metadata[|metadata| - 1];
      if last.key in tracked && BucketOf(last.keyType) == b then init + [last] else init
  }

  function KeysOf(items: seq<KeyMetadata>): (r: seq<string>)
    ensures |r| == |items| && forall j :: 0 <= j < |items| ==> r[j] == items[j].key
  {
    seq(|items|, j requires 0 <= j < |items| => items[j].key)
  }

  predicate DistinctKeys(metadata: seq<KeyMetadata>) {
    forall i, j :: 0 <= i < j < |metadata| ==> metadata[i].key != metadata[j].key
  }

  // ---------------------------------------------------------------------------
  // Readings
  // ---------------------------------------------------------------------------

  /** The MGET reply for the string bucket: one value per key, or a thrown error. */
  datatype MgetReply = MgetThrew(thrown: Thrown) | Values(values: seq<Value>)

  /** The replies of the six batched reads; a bucket with no keys sends nothing and its entry is never read. */
  datatype BucketReplies = BucketReplies(
    strings: MgetReply,
    hashes: Batch,
    sets: Batch,
    zsets: Batch,
    lists: Batch,
    json: Batch)

  predicate IsPipelined(b: Bucket) {
    b.Hashes? || b.Sets? || b.ZSets? || b.Lists? || b.JsonFallback?
  }

  function BatchOf(replies: BucketReplies, b: Bucket): Batch
    requires IsPipelined(b)
  {
    match b
    case Hashes => replies.hashes
    case Sets => replies.sets
    case ZSets => replies.zsets
    case Lists => replies.lists
    case JsonFallback => replies.json
  }

  /** Two sets of replies that differ at most in bucket `b`'s request. */
  predicate AgreeOutside(x: BucketReplies, y: BucketReplies, b: Bucket) {
    && (!b.Strings? ==> x.strings == y.strings)
    && (!b.Hashes? ==> x.hashes == y.hashes)
    && (!b.Sets? ==> x.sets == y.sets)
    && (!b.ZSets? ==> x.zsets == y.zsets)
    && (!b.Lists? ==> x.lists == y.lists)
    && (!b.JsonFallback? ==> x.json == y.json)
  }

  /** A string key's value: nil reads as an empty payload with no entries, anything else as one entry. */
  function StringOutcome(v: Value): (r: Outcome)
    ensures r.newType.None?
    ensures r.count == 0 <==> IsNullish(v)
    ensures IsNullish(v) ==> r.text == ""
    ensures !IsNullish(v) ==> r.text == JsString(v)
  {
    if IsNullish(v) then Payload("", 0) else Payload(JsString(v), 1)
  }

  /** The JSON fallback: an error or nil reads as unsupported; any other value renames the type to 'json'. */
  function JsonOutcome(reply: Reply): (r: Outcome)
    ensures reply.err.Some? || IsNullish(reply.value) ==> r == Payload("<unsupported type>", 0)
    ensures reply.err.None? && !IsNullish(reply.value) ==>
              && r.newType == Some("json")
              && r.text == JsString(reply.value)
              && (r.count == 0 <==> r.text == "null" || r.text == "")
  {
    if reply.err.Some? || IsNullish(reply.value) then Payload("<unsupported type>", 0)
    else
      var payload := JsString(reply.value);
      Outcome(Some("json"), payload, if payload == "null" || |payload| == 0 then 0 else 1)
  }

  /** One pipelined reply read according to its bucket; a per-key error is a read error except in the JSON fallback. */
  function ReplyOutcome(b: Bucket, reply: Reply, le: (string, string) -> bool): (r: Outcome)
    requires IsPipelined(b) && TotalPreorder(le)
    ensures !b.JsonFallback? && reply.err.Some? ==> r == ReadErrorOutcome(reply.err.value)
    ensures b.Hashes? && reply.err.None? ==>
              r == Payload(FormatHashPayload(FieldsOf(reply.value), le), |FieldsOf(reply.value)|)
    ensures b.Sets? && reply.err.None? ==>
              r == Payload(FormatSetPayload(ArrayOf(reply.value), le), |ArrayOf(reply.value)|)
    ensures b.ZSets? && reply.err.None? ==>
              r == Payload(FormatZSetPayload(ArrayOf(reply.value)), |ArrayOf(reply.value)| / 2)
    ensures b.Lists? && reply.err.None? ==>
              r == Payload(FormatListPayload(ArrayOf(reply.value)), |ArrayOf(reply.value)|)
    ensures b.JsonFallback? ==> r == JsonOutcome(reply)
  {
    if b.JsonFallback? then JsonOutcome(reply)
    else if reply.err.Some? then ReadErrorOutcome(reply.err.value)
    else match b
      case Hashes =>
        var fields := FieldsOf(reply.value);
        Payload(FormatHashPayload(fields, le), |fields|)
      case Sets =>
        var members := ArrayOf(reply.value);
        Payload(FormatSetPayload(members, le), |members|)
      case ZSets =>
        var flat := ArrayOf(reply.value);
        Payload(FormatZSetPayload(flat), |flat| / 2)
      case Lists =>
        var members := ArrayOf(reply.value);
        Payload(FormatListPayload(members), |members|)
  }

  /**
   * The readings of one bucket of `n` keys: all read errors when its request
   * threw, otherwise the j-th key's reading comes from the j-th reply.
   */
  function OutcomesFor(b: Bucket, items: seq<KeyMetadata>, replies: BucketReplies, le: (string, string) -> bool): (r: seq<Outcome>)
    requires TotalPreorder(le)
    ensures |r| == |items|
    ensures b.NoFetch? ==> forall j :: 0 <= j < |items| ==> r[j] == Payload(NoFetchText(items[j].keyType), 0)
    ensures b.Strings? && replies.strings.MgetThrew? ==>
              forall j :: 0 <= j < |items| ==> r[j] == ReadErrorOutcome(replies.strings.thrown)
    ensures b.Strings? && replies.strings.Values? ==>
              forall j :: 0 <= j < |items| ==> r[j] == StringOutcome(ValueAt(replies.strings.values, j))
    ensures IsPipelined(b) && BatchOf(replies, b).Threw? ==>
              forall j :: 0 <= j < |items| ==> r[j] == ReadErrorOutcome(BatchOf(replies, b).thrown)
    ensures IsPipelined(b) && BatchOf(replies, b).Results? ==>
              forall j :: 0 <= j < |items| ==> r[j] == ReplyOutcome(b, ReplyAt(BatchOf(replies, b).replies, j), le)
  {
    var n := |items|;
    match b
    case NoFetch => seq(n, j requires 0 <= j < n => Payload(NoFetchText(items[j].keyType), 0))
    case Strings =>
      (match replies.strings
       case MgetThrew(t) => seq(n, j => ReadErrorOutcome(t))
       case Values(vs) => seq(n, j requires 0 <= j < n => StringOutcome(ValueAt(vs, j))))
    case _ =>
      (match BatchOf(replies, b)
       case Threw(t) => seq(n, j => ReadErrorOutcome(t))
       case Results(rs) => seq(n, j requires 0 <= j < n => ReplyOutcome(b, ReplyAt(rs, j), le)))
  }

  // ---------------------------------------------------------------------------
  // The pass over all buckets
  // ---------------------------------------------------------------------------

  /** The order the buckets are written in: the fixed markers first (during classification), then the six reads. */
  function StageOrder(): seq<Bucket> {
    [NoFetch, Strings, Hashes, Sets, ZSets, Lists, JsonFallback]
  }

  /** One bucket's readings written into the table. */
  function Stage(records: Records, metadata: seq<KeyMetadata>, tracked: set<string>, b: Bucket,
                 replies: BucketReplies, le: (string, string) -> bool, maxChars: nat): (r: Records)
    requires TotalPreorder(le)
    ensures r.Keys == records.Keys
  {
    var items := BucketItems(metadata, tracked, b);
    ApplyOutcomes(records, KeysOf(items), OutcomesFor(b, items, replies, le), maxChars)
  }

  /** The reference reading of one key through the given buckets. */
  function RecordAfter(rec: Record, k: string, metadata: seq<KeyMetadata>, tracked: set<string>, stages: seq<Bucket>,
                       replies: BucketReplies, le: (string, string) -> bool, maxChars: nat): (r: Record)
    requires TotalPreorder(le)
    ensures r.source == rec.source && r.key == rec.key && r.ttlSeconds == rec.ttlSeconds
    ensures WithinBudget(rec.payload, maxChars) ==> WithinBudget(r.payload, maxChars)
    decreases |stages|
  {
    if |stages| == 0 then rec
    else
      var items := BucketItems(metadata, tracked, stages[0]);
      var next := ApplyAllTo(rec, k, KeysOf(items), OutcomesFor(stages[0], items, replies, le), maxChars);
      RecordAfter(next, k, metadata, tracked, stages[1..], replies, le, maxChars)
  }

  /** The buckets written one after the other; each record ends up as its own reference reading. */
  function RunStages(records: Records, metadata: seq<KeyMetadata>, tracked: set<string>, stages: seq<Bucket>,
                     replies: BucketReplies, le: (string, string) -> bool, maxChars: nat): (r: Records)
    requires TotalPreorder(le)
    ensures r.Keys == records.Keys
    ensures forall k :: k in records ==> r[k] == RecordAfter(records[k], k, metadata, tracked, stages, replies, le, maxChars)
    decreases |stages|
  {
    if |stages| == 0 then records
    else RunStages(Stage(records, metadata, tracked, stages[0], replies, le, maxChars),
                   metadata, tracked, stages[1..], replies, le, maxChars)
  }

  /**
   * populateRecordPayloads: buckets are fixed from the records present at the
   * start; no record is added or dropped, and a record's source, key and
   * lifetime are never changed.
   */
  function Populate(metadata: seq<KeyMetadata>, records: Records, replies: BucketReplies,
                    le: (string, string) -> bool, maxChars: nat): (r: Records)
    requires TotalPreorder(le)
    ensures r.Keys == records.Keys
    ensures forall k :: k in records ==>
              && r[k].source == records[k].source
              && r[k].key == records[k].key
              && r[k].ttlSeconds == records[k].ttlSeconds
    ensures forall k :: k in records && WithinBudget(records[k].payload, maxChars) ==> WithinBudget(r[k].payload, maxChars)
  {
    RunStages(records, metadata, records.Keys, StageOrder(), replies, le, maxChars)
  }

  // ---------------------------------------------------------------------------
  // What each key ends up with
  // ---------------------------------------------------------------------------

  /** A prefix of the metadata gives a prefix of each bucket. */
  lemma {:induction false} BucketItemsOfPrefix(metadata: seq<KeyMetadata>, tracked: set<string>, b: Bucket, i: nat)
    requires i <= |metadata|
    ensures var whole := BucketItems(metadata, tracked, b);
            var part := BucketItems(metadata[..i], tracked, b);
            |part| <= |whole| && whole[..|part|] == part
    decreases |metadata| - i
  {
    if i < |metadata| {
      BucketItemsOfPrefix(metadata, tracked, b, i + 1);
      BucketItemsStep(metadata, tracked, b, i);
      PrefixOfPrefix(BucketItems(metadata, tracked, b), BucketItems(metadata[..i + 1], tracked, b), BucketItems(metadata[..i], tracked, b));
    } else {
      assert metadata[..i] == metadata;
    }
  }

  /** One more metadata entry extends each bucket by at most that entry. */
  lemma BucketItemsStep(metadata: seq<KeyMetadata>, tracked: set<string>, b: Bucket, i: nat)
    requires i < |metadata|
    ensures var part := BucketItems(metadata[..i], tracked, b);
            var next := BucketItems(metadata[..i + 1], tracked, b);
            |part| <= |next| && next[..|part|] == part
  {
    assert metadata[..i + 1][..i] == metadata[..i];
  }

  /** A prefix of a prefix is a prefix. */
  lemma PrefixOfPrefix<T>(whole: seq<T>, next: seq<T>, part: seq<T>)
    requires |part| <= |next| <= |whole| && whole[..|next|] == next && next[..|part|] == part
    ensures whole[..|part|] == part
  {
    assert whole[..|part|] == whole[..|next|][..|part|];
  }

  /** An item of the bucket sits in it at the position counting the bucket's earlier items. */
  lemma BucketPosition(metadata: seq<KeyMetadata>, tracked: set<string>, i: nat)
    requires i < |metadata| && metadata[i].key in tracked
    ensures var b := BucketOf(metadata[i].keyType);
            var items := BucketItems(metadata, tracked, b);
            var j := |BucketItems(metadata[..i], tracked, b)|;
            j < |items| && items[j] == metadata[i]
  {
    var b := BucketOf(metadata[i].keyType);
    BucketItemsOfPrefix(metadata, tracked, b, i + 1);
    assert metadata[..i + 1][..i] == metadata[..i];
    assert metadata[..i + 1][i] == metadata[i];
  }

  /** Each item of a bucket is an item of the metadata at some position. */
  lemma {:induction false} BucketItemsFromMetadata(metadata: seq<KeyMetadata>, tracked: set<string>, b: Bucket)
    ensures var items := BucketItems(metadata, tracked, b);
            forall j :: 0 <= j < |items| ==> exists p :: 0 <= p < |metadata| && items[j] == metadata[p]
  {
    var items := BucketItems(metadata, tracked, b);
    forall j | 0 <= j < |items| ensures exists p :: 0 <= p < |metadata| && items[j] == metadata[p] {
      assert items[j] in metadata;
    }
  }

  /** Distinct metadata keys give distinct bucket keys. */
  lemma {:induction false} BucketKeysDistinct(metadata: seq<KeyMetadata>, tracked: set<string>, b: Bucket)
    requires DistinctKeys(metadata)
    ensures DistinctKeys(BucketItems(metadata, tracked, b))
    decreases |metadata|
  {
    if |metadata| > 0 {
      var front := metadata[..|metadata| - 1];
      var last := metadata[|metadata| - 1];
      assert DistinctKeys(front) by {
        forall i, j | 0 <= i < j < |front| ensures front[i].key != front[j].key {
          assert front[i] == metadata[i] && front[j] == metadata[j];
        }
      }
      BucketKeysDistinct(front, tracked, b);
      var init := BucketItems(front, tracked, b);
      forall j | 0 <= j < |init| ensures init[j].key != last.key {
        assert init[j] in front;
        var p :| 0 <= p < |front| && front[p] == init[j];
        assert metadata[p] == init[j];
      }
      var items := BucketItems(metadata, tracked, b);
      if last.key in tracked && BucketOf(last.keyType) == b {
        assert items == init + [last];
        forall j, j' | 0 <= j < j' < |items| ensures items[j].key != items[j'].key {
          assert items[j] == init[j];
          if j' < |init| {
            assert items[j'] == init[j'];
            assert init[j].key != init[j'].key;
          } else {
            assert items[j'] == last;
            assert init[j].key != last.key;
          }
        }
      }
    }
  }

  /** With distinct keys, a key outside a bucket is never addressed by it. */
  lemma KeyOutsideBucket(metadata: seq<KeyMetadata>, tracked: set<string>, i: nat, b: Bucket)
    requires DistinctKeys(metadata) && i < |metadata|
    requires BucketOf(metadata[i].keyType) != b
    ensures var keys := KeysOf(BucketItems(metadata, tracked, b));
            forall j :: 0 <= j < |keys| ==> keys[j] != metadata[i].key
  {
    var items := BucketItems(metadata, tracked, b);
    forall j | 0 <= j < |items| ensures items[j].key != metadata[i].key {
      assert items[j] in metadata;
      var p :| 0 <= p < |metadata| && metadata[p] == items[j];
      assert p != i;
    }
  }

  /** The position of item `i` in its own bucket. */
  function BucketIndex(metadata: seq<KeyMetadata>, tracked: set<string>, i: nat): nat
    requires i <= |metadata|
  {
    if i == |metadata| then 0 else |BucketItems(metadata[..i], tracked, BucketOf(metadata[i].keyType))|
  }

  /** The reading item `i` gets from its bucket. */
  function OutcomeOfItem(metadata: seq<KeyMetadata>, tracked: set<string>, i: nat, replies: BucketReplies,
                         le: (string, string) -> bool): (r: Outcome)
    requires TotalPreorder(le)
    requires i < |metadata| && metadata[i].key in tracked
  {
    var b := BucketOf(metadata[i].keyType);
    var items := BucketItems(metadata, tracked, b);
    BucketPosition(metadata, tracked, i);
    OutcomesFor(b, items, replies, le)[BucketIndex(metadata, tracked, i)]
  }

  /** Through one bucket, a key is either untouched or, in its own bucket, given its own reading. */
  lemma StageOfDistinctKey(rec: Record, metadata: seq<KeyMetadata>, tracked: set<string>, i: nat, s: Bucket,
                           replies: BucketReplies, le: (string, string) -> bool, maxChars: nat)
    requires TotalPreorder(le)
    requires DistinctKeys(metadata) && i < |metadata| && metadata[i].key in tracked
    ensures var items := BucketItems(metadata, tracked, s);
            var after := ApplyAllTo(rec, metadata[i].key, KeysOf(items), OutcomesFor(s, items, replies, le), maxChars);
            && (s != BucketOf(metadata[i].keyType) ==> after == rec)
            && (s == BucketOf(metadata[i].keyType) ==> after == ApplyOutcome(rec, OutcomeOfItem(metadata, tracked, i, replies, le), maxChars))
  {
    var k := metadata[i].key;
    var items := BucketItems(metadata, tracked, s);
    var keys := KeysOf(items);
    var outs := OutcomesFor(s, items, replies, le);
    if s != BucketOf(metadata[i].keyType) {
      KeyOutsideBucket(metadata, tracked, i, s);
      ApplyAllToAbsent(rec, k, keys, outs, maxChars);
    } else {
      BucketPosition(metadata, tracked, i);
      BucketKeysDistinct(metadata, tracked, s);
      var j := BucketIndex(metadata, tracked, i);
      ApplyAllToOnce(rec, k, keys, outs, j, maxChars);
    }
  }

  /** Through a list of distinct buckets, a key is given its own reading once if its bucket is among them. */
  lemma {:induction false} RecordAfterOfDistinctKey(rec: Record, metadata: seq<KeyMetadata>, tracked: set<string>, i: nat,
                                                    stages: seq<Bucket>, replies: BucketReplies,
                                                    le: (string, string) -> bool, maxChars: nat)
    requires TotalPreorder(le)
    requires DistinctKeys(metadata) && i < |metadata| && metadata[i].key in tracked
    requires forall p, q :: 0 <= p < q < |stages| ==> stages[p] != stages[q]
    ensures var after := RecordAfter(rec, metadata[i].key, metadata, tracked, stages, replies, le, maxChars);
            && (BucketOf(metadata[i].keyType) !in stages ==> after == rec)
            && (BucketOf(metadata[i].keyType) in stages ==>
                  after == ApplyOutcome(rec, OutcomeOfItem(metadata, tracked, i, replies, le), maxChars))
    decreases |stages|
  {
    var b := BucketOf(metadata[i].keyType);
    if b !in stages {
      RecordAfterOfOtherBuckets(rec, metadata, tracked, i, stages, replies, le, maxChars);
    } else {
      var j :| 0 <= j < |stages| && stages[j] == b;
      assert forall q :: 0 <= q < |stages| && q != j ==> stages[q] != b by {
        forall q | 0 <= q < |stages| && q != j ensures stages[q] != b {
          if q < j { assert stages[q] != stages[j]; } else { assert stages[j] != stages[q]; }
        }
      }
      RecordAfterOfOwnBucket(rec, metadata, tracked, i, stages, j, replies, le, maxChars);
    }
  }

  /** A key whose bucket stands once in the list, at `j`, is given that bucket's reading for it. */
  lemma {:induction false} RecordAfterOfOwnBucket(rec: Record, metadata: seq<KeyMetadata>, tracked: set<string>, i: nat,
                                                  stages: seq<Bucket>, j: nat, replies: BucketReplies,
                                                  le: (string, string) -> bool, maxChars: nat)
    requires TotalPreorder(le)
    requires DistinctKeys(metadata) && i < |metadata| && metadata[i].key in tracked
    requires j < |stages| && stages[j] == BucketOf(metadata[i].keyType)
    requires forall q :: 0 <= q < |stages| && q != j ==> stages[q] != BucketOf(metadata[i].keyType)
    ensures RecordAfter(rec, metadata[i].key, metadata, tracked, stages, replies, le, maxChars)
            == ApplyOutcome(rec, OutcomeOfItem(metadata, tracked, i, replies, le), maxChars)
    decreases |stages|
  {
    var b := BucketOf(metadata[i].keyType);
    var next := ApplyOutcome(rec, OutcomeOfItem(metadata, tracked, i, replies, le), maxChars);
    StageStep(rec, metadata, tracked, i, stages, replies, le, maxChars);
    if j == 0 {
      assert b !in stages[1..] by {
        forall q | 0 <= q < |stages[1..]| ensures stages[1..][q] != b {
          assert stages[1..][q] == stages[q + 1];
        }
      }
      RecordAfterOfOtherBuckets(next, metadata, tracked, i, stages[1..], replies, le, maxChars);
    } else {
      assert forall q :: 0 <= q < |stages[1..]| ==> stages[1..][q] == stages[q + 1];
      RecordAfterOfOwnBucket(rec, metadata, tracked, i, stages[1..], j - 1, replies, le, maxChars);
    }
  }

  /** One bucket's pass gives a key its own reading when the bucket is its own, and leaves it alone otherwise. */
  lemma StageStep(rec: Record, metadata: seq<KeyMetadata>, tracked: set<string>, i: nat,
                  stages: seq<Bucket>, replies: BucketReplies, le: (string, string) -> bool, maxChars: nat)
    requires TotalPreorder(le)
    requires DistinctKeys(metadata) && i < |metadata| && metadata[i].key in tracked && |stages| > 0
    ensures stages[0] == BucketOf(metadata[i].keyType) ==>
              RecordAfter(rec, metadata[i].key, metadata, tracked, stages, replies, le, maxChars)
              == RecordAfter(ApplyOutcome(rec, OutcomeOfItem(metadata, tracked, i, replies, le), maxChars),
                             metadata[i].key, metadata, tracked, stages[1..], replies, le, maxChars)
    ensures stages[0] != BucketOf(metadata[i].keyType) ==>
              RecordAfter(rec, metadata[i].key, metadata, tracked, stages, replies, le, maxChars)
              == RecordAfter(rec, metadata[i].key, metadata, tracked, stages[1..], replies, le, maxChars)
  {
    StageOfDistinctKey(rec, metadata, tracked, i, stages[0], replies, le, maxChars);
  }

  /** Buckets other than a key's own leave its record alone. */
  lemma {:induction false} RecordAfterOfOtherBuckets(rec: Record, metadata: seq<KeyMetadata>, tracked: set<string>, i: nat,
                                                     stages: seq<Bucket>, replies: BucketReplies,
                                                     le: (string, string) -> bool, maxChars: nat)
    requires TotalPreorder(le)
    requires DistinctKeys(metadata) && i < |metadata| && metadata[i].key in tracked
    requires BucketOf(metadata[i].keyType) !in stages
    ensures RecordAfter(rec, metadata[i].key, metadata, tracked, stages, replies, le, maxChars) == rec
    decreases |stages|
  {
    if |stages| > 0 {
      StageStep(rec, metadata, tracked, i, stages, replies, le, maxChars);
      assert BucketOf(metadata[i].keyType) !in stages[1..] by {
        assert forall q :: 0 <= q < |stages[1..]| ==> stages[1..][q] == stages[q + 1];
      }
      RecordAfterOfOtherBuckets(rec, metadata, tracked, i, stages[1..], replies, le, maxChars);
    }
  }

  /**
   * With distinct keys, every key's final record is its initial record with
   * exactly one reading applied: the one its own bucket produced for it.
   */
  lemma PopulateOfDistinctKey(metadata: seq<KeyMetadata>, records: Records, replies: BucketReplies,
                              le: (string, string) -> bool, maxChars: nat, i: nat)
    requires TotalPreorder(le)
    requires DistinctKeys(metadata) && i < |metadata| && metadata[i].key in records
    ensures Populate(metadata, records, replies, le, maxChars)[metadata[i].key]
            == ApplyOutcome(records[metadata[i].key], OutcomeOfItem(metadata, records.Keys, i, replies, le), maxChars)
  {
    var stages := StageOrder();
    var k := metadata[i].key;
    assert BucketOf(metadata[i].keyType) in stages;
    RecordAfterOfDistinctKey(records[k], metadata, records.Keys, i, stages, replies, le, maxChars);
  }

  /** A key of a no-fetch type gets its fixed marker and no entries. */
  lemma NoFetchMarker(metadata: seq<KeyMetadata>, records: Records, replies: BucketReplies,
                      le: (string, string) -> bool, maxChars: nat, i: nat)
    requires TotalPreorder(le)
    requires DistinctKeys(metadata) && i < |metadata| && metadata[i].key in records
    requires metadata[i].keyType in {"none", "stream", "vectorset"}
    ensures var rec := Populate(metadata, records, replies, le, maxChars)[metadata[i].key];
            && rec.entryCount == 0
            && rec.payload == TruncatePayload(Some(NoFetchText(metadata[i].keyType)), maxChars)
            && rec.keyType == records[metadata[i].key].keyType
  {
    PopulateOfDistinctKey(metadata, records, replies, le, maxChars, i);
    NoFetchItemOutcome(metadata, records.Keys, i, replies, le);
  }

  /** A key of a no-fetch type gets its type's marker as its reading. */
  lemma NoFetchItemOutcome(metadata: seq<KeyMetadata>, tracked: set<string>, i: nat, replies: BucketReplies,
                           le: (string, string) -> bool)
    requires TotalPreorder(le)
    requires i < |metadata| && metadata[i].key in tracked
    requires metadata[i].keyType in {"none", "stream", "vectorset"}
    ensures OutcomeOfItem(metadata, tracked, i, replies, le) == Payload(NoFetchText(metadata[i].keyType), 0)
  {
    ItemOutcomeInBucket(metadata, tracked, i, replies, le);
    assert BucketOf(metadata[i].keyType) == NoFetch;
  }

  /** A string key reads its own MGET value: nil gives an empty payload with no entries, a value one entry. */
  lemma StringValue(metadata: seq<KeyMetadata>, records: Records, values: seq<Value>, replies: BucketReplies,
                    le: (string, string) -> bool, maxChars: nat, i: nat)
    requires TotalPreorder(le)
    requires DistinctKeys(metadata) && i < |metadata| && metadata[i].key in records
    requires metadata[i].keyType == "string" && replies.strings == Values(values)
    ensures var rec := Populate(metadata, records, replies, le, maxChars)[metadata[i].key];
            var v := ValueAt(values, BucketIndex(metadata, records.Keys, i));
            && (IsNullish(v) ==> rec.entryCount == 0 && rec.payload == [])
            && (!IsNullish(v) ==> rec.entryCount == 1 && rec.payload == TruncatePayload(Some(JsString(v)), maxChars))
  {
    PopulateOfDistinctKey(metadata, records, replies, le, maxChars, i);
    StringItemOutcome(metadata, records.Keys, i, values, replies, le);
  }

  /** A string key's reading is made from the MGET value at its position among the string keys. */
  lemma StringItemOutcome(metadata: seq<KeyMetadata>, tracked: set<string>, i: nat, values: seq<Value>, replies: BucketReplies,
                          le: (string, string) -> bool)
    requires TotalPreorder(le)
    requires i < |metadata| && metadata[i].key in tracked
    requires metadata[i].keyType == "string" && replies.strings == Values(values)
    ensures OutcomeOfItem(metadata, tracked, i, replies, le) == StringOutcome(ValueAt(values, BucketIndex(metadata, tracked, i)))
  {
    ItemOutcomeInBucket(metadata, tracked, i, replies, le);
    assert BucketOf(metadata[i].keyType) == Strings;
  }

  /** Item `i`'s reading is the one at its position among its bucket's readings. */
  lemma ItemOutcomeInBucket(metadata: seq<KeyMetadata>, tracked: set<string>, i: nat, replies: BucketReplies,
                            le: (string, string) -> bool)
    requires TotalPreorder(le)
    requires i < |metadata| && metadata[i].key in tracked
    ensures var b := BucketOf(metadata[i].keyType);
            var items := BucketItems(metadata, tracked, b);
            && BucketIndex(metadata, tracked, i) < |items|
            && items[BucketIndex(metadata, tracked, i)] == metadata[i]
            && OutcomeOfItem(metadata, tracked, i, replies, le) == OutcomesFor(b, items, replies, le)[BucketIndex(metadata, tracked, i)]
  {
    BucketPosition(metadata, tracked, i);
  }

  /** When a bucket's batched request throws, each of its keys gets the read-error marker and no entries. */
  lemma BucketFailureMarksItsKeys(metadata: seq<KeyMetadata>, records: Records, replies: BucketReplies,
                                  le: (string, string) -> bool, maxChars: nat, i: nat, t: Thrown)
    requires TotalPreorder(le)
    requires DistinctKeys(metadata) && i < |metadata| && metadata[i].key in records
    requires var b := BucketOf(metadata[i].keyType);
             (b.Strings? && replies.strings == MgetThrew(t)) || (IsPipelined(b) && BatchOf(replies, b) == Threw(t))
    ensures var rec := Populate(metadata, records, replies, le, maxChars)[metadata[i].key];
            && rec.entryCount == 0
            && rec.payload == TruncatePayload(Some("<read error: " + MessageOf(t) + ">"), maxChars)
            && rec.keyType == records[metadata[i].key].keyType
  {
    PopulateOfDistinctKey(metadata, records, replies, le, maxChars, i);
    FailedItemOutcome(metadata, records.Keys, i, replies, le, t);
  }

  /** A key whose bucket's request threw gets the read-error reading. */
  lemma FailedItemOutcome(metadata: seq<KeyMetadata>, tracked: set<string>, i: nat, replies: BucketReplies,
                          le: (string, string) -> bool, t: Thrown)
    requires TotalPreorder(le)
    requires i < |metadata| && metadata[i].key in tracked
    requires var b := BucketOf(metadata[i].keyType);
             (b.Strings? && replies.strings == MgetThrew(t)) || (IsPipelined(b) && BatchOf(replies, b) == Threw(t))
    ensures OutcomeOfItem(metadata, tracked, i, replies, le) == ReadErrorOutcome(t)
  {
    ItemOutcomeInBucket(metadata, tracked, i, replies, le);
  }

  /**
   * A key of a pipelined bucket whose request succeeded is read from its own
   * reply: the one at its position in the bucket (an undefined reply when the
   * results run short).
   */
  lemma PipelinedKeyReadsItsReply(metadata: seq<KeyMetadata>, records: Records, replies: BucketReplies,
                                  le: (string, string) -> bool, maxChars: nat, i: nat, rs: seq<Reply>)
    requires TotalPreorder(le)
    requires DistinctKeys(metadata) && i < |metadata| && metadata[i].key in records
    requires var b := BucketOf(metadata[i].keyType);
             IsPipelined(b) && BatchOf(replies, b) == Results(rs)
    ensures var b := BucketOf(metadata[i].keyType);
            Populate(metadata, records, replies, le, maxChars)[metadata[i].key]
            == ApplyOutcome(records[metadata[i].key], ReplyOutcome(b, ReplyAt(rs, BucketIndex(metadata, records.Keys, i)), le), maxChars)
  {
    PopulateOfDistinctKey(metadata, records, replies, le, maxChars, i);
    ItemOutcomeInBucket(metadata, records.Keys, i, replies, le);
  }

  /** Changing one bucket's reply changes nothing for a key outside that bucket. */
  lemma {:induction false} RecordAfterIgnoresOtherBucket(rec: Record, k: string, metadata: seq<KeyMetadata>, tracked: set<string>,
                                                         stages: seq<Bucket>, replies: BucketReplies, other: BucketReplies, b: Bucket,
                                                         le: (string, string) -> bool, maxChars: nat)
    requires TotalPreorder(le) && AgreeOutside(replies, other, b)
    requires forall j :: 0 <= j < |BucketItems(metadata, tracked, b)| ==> BucketItems(metadata, tracked, b)[j].key != k
    ensures RecordAfter(rec, k, metadata, tracked, stages, replies, le, maxChars)
            == RecordAfter(rec, k, metadata, tracked, stages, other, le, maxChars)
    decreases |stages|
  {
    if |stages| > 0 {
      var s := stages[0];
      var items := BucketItems(metadata, tracked, s);
      var keys := KeysOf(items);
      var outs := OutcomesFor(s, items, replies, le);
      var outs' := OutcomesFor(s, items, other, le);
      if s == b {
        ApplyAllToAbsent(rec, k, keys, outs, maxChars);
        ApplyAllToAbsent(rec, k, keys, outs', maxChars);
      } else {
        assert outs == outs';
      }
      var next := ApplyAllTo(rec, k, keys, outs, maxChars);
      assert next == ApplyAllTo(rec, k, keys, outs', maxChars);
      RecordAfterIgnoresOtherBucket(next, k, metadata, tracked, stages[1..], replies, other, b, le, maxChars);
    }
  }

  /**
   * Failure isolation: whatever one bucket's request returns or throws, the
   * MGET of the string bucket included, it does not affect any key that is
   * not in that bucket.
   */
  lemma BucketIsolation(metadata: seq<KeyMetadata>, records: Records, replies: BucketReplies, other: BucketReplies, b: Bucket,
                        le: (string, string) -> bool, maxChars: nat, k: string)
    requires TotalPreorder(le) && AgreeOutside(replies, other, b)
    requires k in records
    requires forall i :: 0 <= i < |metadata| && metadata[i].key == k ==> BucketOf(metadata[i].keyType) != b
    ensures Populate(metadata, records, replies, le, maxChars)[k] == Populate(metadata, records, other, le, maxChars)[k]
  {
    var items := BucketItems(metadata, records.Keys, b);
    forall j | 0 <= j < |items| ensures items[j].key != k {
      assert items[j] in metadata;
    }
    RecordAfterIgnoresOtherBucket(records[k], k, metadata, records.Keys, StageOrder(), replies, other, b, le, maxChars);
  }

  /** In particular a throwing MGET leaves every key outside the string bucket as the succeeding one would. */
  lemma StringBucketIsolation(metadata: seq<KeyMetadata>, records: Records, replies: BucketReplies, t: Thrown,
                              le: (string, string) -> bool, maxChars: nat, k: string)
    requires TotalPreorder(le)
    requires k in records
    requires forall i :: 0 <= i < |metadata| && metadata[i].key == k ==> !BucketOf(metadata[i].keyType).Strings?
    ensures Populate(metadata, records, replies, le, maxChars)[k]
            == Populate(metadata, records, replies.(strings := MgetThrew(t)), le, maxChars)[k]
  {
    BucketIsolation(metadata, records, replies, replies.(strings := MgetThrew(t)), Strings, le, maxChars, k);
  }
}

=== FILE: snapshot_read.dfy ===
/**
 * Reading one database into records (readDatabaseRecords) and choosing which
 * running database a request refers to (resolveSelectedSource).
 */
module SnapshotRead {
  import opened Wrappers
  import opened JsNumber
  import opened Sorting
  import opened SnapshotReplies
  import opened SnapshotFormat
  import opened SnapshotScan
  import opened SnapshotRecords
  import opened SnapshotPopulate

  // ---------------------------------------------------------------------------
  // Records of one database
  // ---------------------------------------------------------------------------

  /** `buildRecord`: a fresh record with no payload and no entries yet. */
  function BuildRecord(sourceName: string, item: KeyMetadata): Record {
    Record(sourceName, item.key, item.keyType, 0, item.ttlSeconds, [])
  }

  /** The set of keys the metadata mentions. */
  function MetadataKeys(metadata: seq<KeyMetadata>): set<string> {
    set i | 0 <= i < |metadata| :: metadata[i].key
  }

  /** Item `i` is the last one with its key. */
  predicate LastWithKey(metadata: seq<KeyMetadata>, i: nat)
    requires i < |metadata|
  {
    forall j :: i < j < |metadata| ==> metadata[j].key != metadata[i].key
  }

  lemma MetadataKeysSnoc(metadata: seq<KeyMetadata>)
    requires |metadata| > 0
    ensures MetadataKeys(metadata) == MetadataKeys(metadata[..|metadata| - 1]) + {metadata[|metadata| - 1].key}
  {
    var front := metadata[..|metadata| - 1];
    forall k | k in MetadataKeys(metadata) ensures k in MetadataKeys(front) + {metadata[|metadata| - 1].key} {
      var i :| 0 <= i < |metadata| && metadata[i].key == k;
      if i < |front| {
        assert front[i] == metadata[i];
      }
    }
    forall k | k in MetadataKeys(front) ensures k in MetadataKeys(metadata) {
      var i :| 0 <= i < |front| && front[i].key == k;
      assert metadata[i] == front[i];
    }
  }

  /** The table of fresh records, one per key the metadata mentions; a later item with the same key overwrites. */
  function BuildRecords(sourceName: string, metadata: seq<KeyMetadata>): (r: Records)
    ensures r.Keys == MetadataKeys(metadata)
    ensures forall k :: k in r ==> r[k].key == k && r[k].source == sourceName && r[k].payload == []
    decreases |metadata|
  {
    if |metadata| == 0 then map[]
    else
      var last := metadata[|metadata| - 1];
      MetadataKeysSnoc(metadata);
      BuildRecords(sourceName, metadata[..|metadata| - 1])[last.key := BuildRecord(sourceName, last)]
  }

  /** When a key is listed more than once, the record kept is the one built from its last item. */
  lemma {:induction false} BuildRecordsKeepsLast(sourceName: string, metadata: seq<KeyMetadata>, i: nat)
    requires i < |metadata| && LastWithKey(metadata, i)
    ensures BuildRecords(sourceName, metadata)[metadata[i].key] == BuildRecord(sourceName, metadata[i])
    decreases |metadata|
  {
    var n := |metadata|;
    if i < n - 1 {
      var front := metadata[..n - 1];
      assert front[i] == metadata[i];
      assert LastWithKey(front, i) by {
        forall j | i < j < |front| ensures front[j].key != front[i].key {
          assert front[j] == metadata[j];
        }
      }
      BuildRecordsKeepsLast(sourceName, front, i);
      assert metadata[n - 1].key != metadata[i].key;
    }
  }

  /** Why a database could not be read: the connection, the scan or the metadata batch failed. */
  datatype ReadError = ConnectFailed(thrown: Thrown) | ScanFailed(error: ScanError) | MetadataFailed(thrown: Thrown)

  /** The keys of a list of records, in order. */
  function RecordKeys(records: seq<Record>): (r: seq<string>)
    ensures |r| == |records| && forall i :: 0 <= i < |records| ==> r[i] == records[i].key
  {
    Map(records, (rec: Record) => rec.key)
  }

  /** The records of a successful read: the filled-in table looked up in metadata order. */
  function RecordsInOrder(metadata: seq<KeyMetadata>, filled: Records): (r: seq<Record>)
    requires forall i :: 0 <= i < |metadata| ==> metadata[i].key in filled
    ensures |r| == |metadata| && forall i :: 0 <= i < |metadata| ==> r[i] == filled[metadata[i].key]
  {
    seq(|metadata|, i requires 0 <= i < |metadata| => filled[metadata[i].key])
  }

  /**
   * The tail of readDatabaseRecords once the metadata is known: build the
   * table, fill in the payloads, and look the records up in metadata order.
   */
  function AssembleRecords(sourceName: string, metadata: seq<KeyMetadata>, replies: BucketReplies,
                           le: (string, string) -> bool, maxChars: nat): (r: seq<Record>)
    requires TotalPreorder(le)
    ensures RecordKeys(r) == KeysOf(metadata)
    ensures forall i :: 0 <= i < |r| ==> r[i].source == sourceName && WithinBudget(r[i].payload, maxChars)
  {
    var built := BuildRecords(sourceName, metadata);
    assert forall i :: 0 <= i < |metadata| ==> metadata[i].key in MetadataKeys(metadata);
    assert WellFormedTable(built, sourceName, maxChars);
    PopulateKeepsTableWellFormed(sourceName, metadata, built, replies, le, maxChars);
    var filled := Populate(metadata, built, replies, le, maxChars);
    AssembledRecords(sourceName, metadata, filled, maxChars);
    RecordsInOrder(metadata, filled)
  }

  /**
   * readDatabaseRecords: scan, load metadata, build the records, fill in the
   * payloads, and return them in metadata order. The connection outcome is an
   * input; an error in any of the three steps before filling-in fails the
   * call. A successful read has one record per scanned key, in the scan's
   * sorted order, each from this source and within the payload budget.
   */
  function ReadDatabaseRecords(sourceName: string, connect: Option<Thrown>, scan: seq<ScanReply>, maxKeys: nat,
                               metadataBatch: Batch, replies: BucketReplies,
                               le: (string, string) -> bool, parse: string -> Num, maxChars: nat)
    : (r: Result<seq<Record>, ReadError>)
    requires TotalPreorder(le)
    ensures connect.Some? ==> r == Failure(ConnectFailed(connect.value))
    ensures connect.None? && ScanKeys(scan, maxKeys, le).Failure? ==> r == Failure(ScanFailed(ScanKeys(scan, maxKeys, le).error))
    ensures connect.None? && ScanKeys(scan, maxKeys, le).Success? ==>
              var m := LoadKeyMetadata(ScanKeys(scan, maxKeys, le).value, metadataBatch, parse);
              && (m.Failure? ==> r == Failure(MetadataFailed(m.error)))
              && (m.Success? ==> r.Success?)
    ensures r.Success? ==> ScanKeys(scan, maxKeys, le).Success? && RecordKeys(r.value) == ScanKeys(scan, maxKeys, le).value
    ensures r.Success? ==> Sorted(RecordKeys(r.value), le) && |r.value| <= Limit(maxKeys)
    ensures r.Success? ==> forall i :: 0 <= i < |r.value| ==>
              r.value[i].source == sourceName && WithinBudget(r.value[i].payload, maxChars)
  {
    if connect.Some? then Failure(ConnectFailed(connect.value))
    else match ScanKeys(scan, maxKeys, le)
      case Failure(e) => Failure(ScanFailed(e))
      case Success(keys) =>
        ScanKeysShape(scan, maxKeys, le);
        match LoadKeyMetadata(keys, metadataBatch, parse)
        case Failure(t) => Failure(MetadataFailed(t))
        case Success(metadata) =>
          assert KeysOf(metadata) == keys;
          Success(AssembleRecords(sourceName, metadata, replies, le, maxChars))
  }

  /** A table whose records sit under their own key, from one source and within the budget. */
  ghost predicate WellFormedTable(table: Records, sourceName: string, maxChars: nat) {
    forall k :: k in table ==> table[k].key == k && table[k].source == sourceName && WithinBudget(table[k].payload, maxChars)
  }

  /** Filling in the payloads keeps a table well formed. */
  lemma PopulateKeepsTableWellFormed(sourceName: string, metadata: seq<KeyMetadata>, built: Records, replies: BucketReplies,
                                     le: (string, string) -> bool, maxChars: nat)
    requires TotalPreorder(le)
    requires WellFormedTable(built, sourceName, maxChars)
    ensures WellFormedTable(Populate(metadata, built, replies, le, maxChars), sourceName, maxChars)
  {
  }

  /** Records looked up in metadata order from a well-formed table follow the metadata's keys. */
  lemma AssembledRecords(sourceName: string, metadata: seq<KeyMetadata>, filled: Records, maxChars: nat)
    requires forall i :: 0 <= i < |metadata| ==> metadata[i].key in filled
    requires WellFormedTable(filled, sourceName, maxChars)
    ensures var out := RecordsInOrder(metadata, filled);
            && RecordKeys(out) == KeysOf(metadata)
            && forall i :: 0 <= i < |out| ==> out[i].source == sourceName && WithinBudget(out[i].payload, maxChars)
  {
    var out := RecordsInOrder(metadata, filled);
    forall i | 0 <= i < |out|
      ensures out[i].key == metadata[i].key && out[i].source == sourceName && WithinBudget(out[i].payload, maxChars)
    {
      assert out[i] == filled[metadata[i].key];
    }
  }

  // ---------------------------------------------------------------------------
  // Source selection
  // ---------------------------------------------------------------------------

  /** A database the server knows of; the running ones are offered for selection. */
  datatype DatabaseSource = DatabaseSource(id: string, name: string, host: string, port: int)

  /** `if (requestedSource)`: an absent or empty request selects nothing by name. */
  predicate IsRequested(requested: Option<string>) {
    requested.Some? && requested.value != ""
  }

  predicate MatchesRequest(source: DatabaseSource, request: string) {
    source.id == request || source.name == request
  }

  /** The position of the first source whose id or name is the request. */
  function FirstMatch(sources: seq<DatabaseSource>, request: string): (r: Option<nat>)
    ensures r.Some? ==> r.value < |sources| && MatchesRequest(sources[r.value], request)
    ensures r.Some? ==> forall j :: 0 <= j < r.value ==> !MatchesRequest(sources[j], request)
    ensures r.None? ==> forall j :: 0 <= j < |sources| ==> !MatchesRequest(sources[j], request)
  {
    if |sources| == 0 then None
    else if MatchesRequest(sources[0], request) then Some(0)
    else match FirstMatch(sources[1..], request)
      case None => None
      case Some(j) => Some(j + 1)
  }

  /**
   * resolveSelectedSource: the first running source named by the request,
   * else the first running source, else none.
   */
  function ResolveSelectedSource(running: seq<DatabaseSource>, requested: Option<string>): (r: Option<DatabaseSource>)
    ensures r.None? <==> |running| == 0
    ensures r.Some? ==> r.value in running
    ensures IsRequested(requested) && (exists i :: 0 <= i < |running| && MatchesRequest(running[i], requested.value)) ==>
              exists i :: 0 <= i < |running| && r == Some(running[i]) && MatchesRequest(running[i], requested.value)
                          && forall j :: 0 <= j < i ==> !MatchesRequest(running[j], requested.value)
    ensures !(IsRequested(requested) && exists i :: 0 <= i < |running| && MatchesRequest(running[i], requested.value)) ==>
              r == (if |running| > 0 then Some(running[0]) else None)
  {
    var found := if IsRequested(requested) then FirstMatch(running, requested.value) else None;
    if found.Some? then Some(running[found.value])
    else if |running| > 0 then Some(running[0])
    else None
  }
}

=== FILE: snapshot_records.dfy ===
/**
 * The snapshot's record of one key, and the way a reply's reading is written
 * into the record table: every write truncates the payload and sets the
 * entry count, and a JSON reading also renames the type.
 */
module SnapshotRecords {
  import opened Wrappers
  import opened SnapshotReplies
  import opened SnapshotFormat
  import opened JsText

  /** One key of the keyspace as the snapshot reports it. */
  datatype Record = Record(
    source: string,
    key: string,
    keyType: string,
    entryCount: nat,
    ttlSeconds: real,
    payload: seq<CodeUnit>)

  /** The records being filled in, by key. */
  type Records = map<string, Record>

  /** What a reading does to its key's record: a new payload and entry count, and possibly a new type name. */
  datatype Outcome = Outcome(newType: Option<string>, text: string, count: nat)

  /** `setRecordReadError`: the message of an `Error`, or 'unknown', inside the read-error marker. */
  function ReadErrorOutcome(t: Thrown): (r: Outcome)
    ensures r.newType.None? && r.count == 0
    ensures r.text == "<read error: " + MessageOf(t) + ">"
  {
    Outcome(None, "<read error: " + MessageOf(t) + ">", 0)
  }

  /** A reading that leaves the type alone. */
  function Payload(text: string, count: nat): (r: Outcome)
    ensures r.newType.None? && r.text == text && r.count == count
  {
    Outcome(None, text, count)
  }

  /** `setRecordPayload` (plus the JSON type rename): the payload is stored truncated. */
  function ApplyOutcome(rec: Record, o: Outcome, maxChars: nat): (r: Record)
    ensures r.source == rec.source && r.key == rec.key && r.ttlSeconds == rec.ttlSeconds
    ensures o.newType.None? ==> r.keyType == rec.keyType
    ensures o.newType.Some? ==> r.keyType == o.newType.value
    ensures r.payload == TruncatePayload(Some(o.text), maxChars) && WithinBudget(r.payload, maxChars)
    ensures r.entryCount == o.count
  {
    var keyType := if o.newType.Some? then o.newType.value else rec.keyType;
    rec.(keyType := keyType, payload := TruncatePayload(Some(o.text), maxChars), entryCount := o.count)
  }

  /** `recordsByKey.get(key)` then a write: keys without a record are skipped. */
  function Update(records: Records, key: string, o: Outcome, maxChars: nat): (r: Records)
    ensures r.Keys == records.Keys
    ensures key in records ==> r[key] == ApplyOutcome(records[key], o, maxChars)
    ensures forall k :: k in records && k != key ==> r[k] == records[k]
  {
    if key in records then records[key := ApplyOutcome(records[key], o, maxChars)] else records
  }

  /**
   * The reference reading for a single key: the outcomes addressed to it,
   * applied in order to its record.
   */
  function ApplyAllTo(rec: Record, k: string, keys: seq<string>, outcomes: seq<Outcome>, maxChars: nat): (r: Record)
    requires |keys| == |outcomes|
    ensures r.source == rec.source && r.key == rec.key && r.ttlSeconds == rec.ttlSeconds
    ensures WithinBudget(rec.payload, maxChars) ==> WithinBudget(r.payload, maxChars)
    decreases |keys|
  {
    if |keys| == 0 then rec
    else
      var next := if keys[0] == k then ApplyOutcome(rec, outcomes[0], maxChars) else rec;
      ApplyAllTo(next, k, keys[1..], outcomes[1..], maxChars)
  }

  /**
   * The readings of one batch written into the table in key order. Each
   * record ends up as its own outcomes applied in order, whatever happens to
   * the other keys; no key is added or dropped.
   */
  function ApplyOutcomes(records: Records, keys: seq<string>, outcomes: seq<Outcome>, maxChars: nat): (r: Records)
    requires |keys| == |outcomes|
    ensures r.Keys == records.Keys
    ensures forall k :: k in records ==> r[k] == ApplyAllTo(records[k], k, keys, outcomes, maxChars)
    decreases |keys|
  {
    if |keys| == 0 then records
    else ApplyOutcomes(Update(records, keys[0], outcomes[0], maxChars), keys[1..], outcomes[1..], maxChars)
  }

  /** A key that no outcome is addressed to keeps its record. */
  lemma {:induction false} ApplyAllToAbsent(rec: Record, k: string, keys: seq<string>, outcomes: seq<Outcome>, maxChars: nat)
    requires |keys| == |outcomes|
    requires forall j :: 0 <= j < |keys| ==> keys[j] != k
    ensures ApplyAllTo(rec, k, keys, outcomes, maxChars) == rec
    decreases |keys|
  {
    if |keys| > 0 {
      assert keys[0] != k;
      ApplyAllToAbsent(rec, k, keys[1..], outcomes[1..], maxChars);
    }
  }

  /** A key addressed exactly once gets exactly that outcome. */
  lemma {:induction false} ApplyAllToOnce(rec: Record, k: string, keys: seq<string>, outcomes: seq<Outcome>, i: nat, maxChars: nat)
    requires |keys| == |outcomes|
    requires i < |keys| && keys[i] == k
    requires forall j :: 0 <= j < |keys| && j != i ==> keys[j] != k
    ensures ApplyAllTo(rec, k, keys, outcomes, maxChars) == ApplyOutcome(rec, outcomes[i], maxChars)
    decreases |keys|
  {
    if i == 0 {
      ApplyAllToAbsent(ApplyOutcome(rec, outcomes[0], maxChars), k, keys[1..], outcomes[1..], maxChars);
    } else {
      assert keys[0] != k;
      ApplyAllToOnce(rec, k, keys[1..], outcomes[1..], i - 1, maxChars);
    }
  }

  /** Two batches whose outcomes agree wherever they are addressed to `k` give `k` the same record. */
  lemma {:induction false} ApplyAllToDependsOnOwnOutcomes(rec: Record, k: string, keys: seq<string>, a: seq<Outcome>, b: seq<Outcome>, maxChars: nat)
    requires |keys| == |a| == |b|
    requires forall j :: 0 <= j < |keys| && keys[j] == k ==> a[j] == b[j]
    ensures ApplyAllTo(rec, k, keys, a, maxChars) == ApplyAllTo(rec, k, keys, b, maxChars)
    decreases |keys|
  {
    if |keys| > 0 {
      var next := if keys[0] == k then ApplyOutcome(rec, a[0], maxChars) else rec;
      assert next == if keys[0] == k then ApplyOutcome(rec, b[0], maxChars) else rec;
      ApplyAllToDependsOnOwnOutcomes(next, k, keys[1..], a[1..], b[1..], maxChars);
    }
  }
}

=== FILE: snapshot_replies.dfy ===
/**
 * Replies of the key-value store as the snapshot code receives them from its
 * client library, and the two JS conversions it applies to them: `String(v)`
 * and `Number(v)`. Number parsing of text is locale-free but its grammar is
 * not modelled: it is the abstract `parse` every caller passes in.
 */
module SnapshotReplies {
  import opened Wrappers
  import opened JsNumber
  import opened Text

  /** One reply value: nothing, nil, a bulk/status string, an integer, an array of strings, or a field map. */
  datatype Value =
    | Undefined
    | Null
    | Str(s: string)
    | Int(i: int)
    | Arr(items: seq<string>)
    | Fields(entries: seq<(string, string)>)

  /** Something thrown: an `Error` carries a message, anything else reads as 'unknown'. */
  datatype Thrown = ErrorObject(message: string) | NonError

  /** One `[err, value]` entry of a pipeline's results. */
  datatype Reply = Reply(err: Option<Thrown>, value: Value)

  /** The outcome of one batched request: it threw, or it produced per-command results. */
  datatype Batch = Threw(thrown: Thrown) | Results(replies: seq<Reply>)

  /** `results[i] || []`: a missing entry destructures to an undefined error and value. */
  function ReplyAt(replies: seq<Reply>, i: nat): (r: Reply)
    ensures i < |replies| ==> r == replies[i]
    ensures i >= |replies| ==> r == Reply(None, Undefined)
  {
    if i < |replies| then replies[i] else Reply(None, Undefined)
  }

  /** `values[i]` of an array reply, undefined past its end. */
  function ValueAt(values: seq<Value>, i: nat): (r: Value)
    ensures i < |values| ==> r == values[i]
    ensures i >= |values| ==> r == Undefined
  {
    if i < |values| then values[i] else Undefined
  }

  /** `v == null` in JS: true of both null and undefined. */
  predicate IsNullish(v: Value) {
    v.Undefined? || v.Null?
  }

  /** `err instanceof Error ? err.message : 'unknown'` */
  function MessageOf(t: Thrown): string {
    match t
    case ErrorObject(m) => m
    case NonError => "unknown"
  }

  /** JS `String(v)`. */
  function JsString(v: Value): string {
    match v
    case Undefined => "undefined"
    case Null => "null"
    case Str(s) => s
    case Int(i) => IntToString(i)
    case Arr(items) => Join(items, ",")
    case Fields(_) => "[object Object]"
  }

  /** JS `Number(v)`, with the text grammar delegated to `parse`. */
  function JsNumberOf(v: Value, parse: string -> Num): (r: Num)
    ensures v.Undefined? ==> r.NaN?
    ensures v.Null? ==> r == Finite(0.0)
    ensures v.Int? ==> r == Finite(v.i as real)
    ensures v.Str? ==> r == parse(v.s)
  {
    match v
    case Undefined => NaN
    case Null => Finite(0.0)
    case Int(i) => FromInt(i)
    case _ => parse(JsString(v))
  }

  /** `Array.isArray(value) ? value.map(String) : []` */
  function ArrayOf(v: Value): (r: seq<string>)
    ensures v.Arr? ==> r == v.items
    ensures !v.Arr? ==> r == []
  {
    if v.Arr? then v.items else []
  }

  /**
   * `value && typeof value === 'object' ? value : {}` seen through
   * `Object.entries`: a field map gives its entries, an array its indexed
   * elements, anything else no entries.
   */
  function FieldsOf(v: Value): (r: seq<(string, string)>)
    ensures v.Fields? ==> r == v.entries
    ensures v.Arr? ==> |r| == |v.items| && forall i :: 0 <= i < |r| ==> r[i] == (NatToString(i), v.items[i])
    ensures !v.Fields? && !v.Arr? ==> r == []
  {
    match v
    case Fields(es) => es
    case Arr(items) => seq(|items|, i requires 0 <= i < |items| => (NatToString(i), items[i]))
    case _ => []
  }
}

=== FILE: snapshot_scan.dfy ===
/**
 * Enumerating a keyspace with the cursor protocol (scanAllKeys) and loading
 * each key's type and remaining lifetime in one batch (loadKeyMetadata).
 */
module SnapshotScan {
  import opened Wrappers
  import opened JsNumber
  import opened SnapshotReplies
  import opened Sorting

  // ---------------------------------------------------------------------------
  // Cursor scan
  // ---------------------------------------------------------------------------

  /** One SCAN reply: the next cursor and a page of keys, or a thrown error. */
  datatype ScanReply = Page(cursor: string, keys: seq<string>) | ScanThrew(thrown: Thrown)

  /**
   * Why a scan produced no key list. The store's replies are an input list;
   * running out of them stands for a scan that never reaches cursor "0".
   */
  datatype ScanError = ReplyError(thrown: Thrown) | RepliesExhausted

  /** The most keys a scan keeps: the check runs after a push, so a cap of 0 still keeps one key. */
  function Limit(maxKeys: nat): (r: nat)
    ensures r >= 1 && r >= maxKeys
  {
    if maxKeys == 0 then 1 else maxKeys
  }

  function PageKeys(reply: ScanReply): seq<string> {
    if reply.Page? then reply.keys else []
  }

  /** Every key of every page, in reply order. */
  function AllKeys(replies: seq<ScanReply>): seq<string> {
    if |replies| == 0 then [] else PageKeys(replies[0]) + AllKeys(replies[1..])
  }

  /** Ends the iteration: a reply that threw, or a page returning cursor "0". */
  predicate Stops(reply: ScanReply) {
    reply.ScanThrew? || reply.cursor == "0"
  }

  /** The index of the first reply that ends the iteration. */
  function StopIndex(replies: seq<ScanReply>): (r: Option<nat>)
    ensures r.Some? ==> r.value < |replies| && Stops(replies[r.value])
    ensures r.Some? ==> forall k :: 0 <= k < r.value ==> !Stops(replies[k])
    ensures r.None? ==> forall k :: 0 <= k < |replies| ==> !Stops(replies[k])
  {
    if |replies| == 0 then None
    else if Stops(replies[0]) then Some(0)
    else match StopIndex(replies[1..])
      case None => None
      case Some(k) => Some(k + 1)
  }

  /** Pushes the keys of one page, stopping right after the push that reaches the cap. */
  function AddPage(acc: seq<string>, page: seq<string>, maxKeys: nat): (r: (seq<string>, bool))
    requires |acc| < Limit(maxKeys)
    decreases |page|
    ensures |acc| <= |r.0| <= |acc| + |page|
    ensures r.0 == acc + page[..|r.0| - |acc|]
    ensures |r.0| <= Limit(maxKeys)
    ensures r.1 <==> |r.0| == Limit(maxKeys)
    ensures !r.1 ==> r.0 == acc + page
  {
    if |page| == 0 then
      assert acc + page[..0] == acc;
      (acc, false)
    else
      var next := acc + [page[0]];
      if |next| >= maxKeys then
        assert page[..1] == [page[0]];
        (next, true)
      else
        var r := AddPage(next, page[1..], maxKeys);
        assert page[..|r.0| - |acc|] == [page[0]] + page[1..][..|r.0| - |next|];
        assert page == [page[0]] + page[1..];
        r
  }

  lemma AllKeysOfPrefix(replies: seq<ScanReply>, n: nat)
    requires 0 < n <= |replies|
    ensures AllKeys(replies[..n]) == PageKeys(replies[0]) + AllKeys(replies[1..][..n - 1])
  {
    assert replies[..n][1..] == replies[1..][..n - 1];
  }

  /**
   * The reference scan: keys gathered page by page on top of `acc` until a page
   * returns cursor "0" or the cap is reached.
   */
  function ScanSpec(replies: seq<ScanReply>, acc: seq<string>, maxKeys: nat): (r: Result<seq<string>, ScanError>)
    requires |acc| < Limit(maxKeys)
    ensures r.Success? ==> |acc| <= |r.value| <= Limit(maxKeys)
    decreases |replies|
  {
    if |replies| == 0 then Failure(RepliesExhausted)
    else match replies[0]
      case ScanThrew(t) => Failure(ReplyError(t))
      case Page(cursor, page) =>
        var step := AddPage(acc, page, maxKeys);
        if step.1 || cursor == "0" then Success(step.0) else ScanSpec(replies[1..], step.0, maxKeys)
  }

  /** Whatever the scan keeps is a prefix of the keys the store offered, on top of `acc`. */
  lemma {:induction false} ScanSpecKeepsOfferedPrefix(replies: seq<ScanReply>, acc: seq<string>, maxKeys: nat)
    requires |acc| < Limit(maxKeys)
    ensures var r := ScanSpec(replies, acc, maxKeys);
            r.Success? ==>
              && |r.value| <= |acc| + |AllKeys(replies)|
              && r.value == (acc + AllKeys(replies))[..|r.value|]
    decreases |replies|
  {
    var r := ScanSpec(replies, acc, maxKeys);
    if |replies| > 0 && replies[0].Page? && r.Success? {
      var page := replies[0].keys;
      var rest := AllKeys(replies[1..]);
      var step := AddPage(acc, page, maxKeys);
      var next, full := step.0, step.1;
      assert AllKeys(replies) == page + rest;
      if full || replies[0].cursor == "0" {
        assert r.value == next;
        FrontOfConcat(acc, page, rest, |next| - |acc|);
      } else {
        ScanSpecPastPage(replies, acc, maxKeys);
        ScanSpecKeepsOfferedPrefix(replies[1..], next, maxKeys);
        assert acc + (page + rest) == next + rest;
      }
    }
  }

  /** The first `k` keys of a page after `acc` are a prefix of everything offered. */
  lemma FrontOfConcat(acc: seq<string>, page: seq<string>, rest: seq<string>, k: nat)
    requires k <= |page|
    ensures (acc + (page + rest))[..|acc| + k] == acc + page[..k]
  {
  }

  /** One step of the reference scan past a page that neither fills the cap nor ends the iteration. */
  lemma ScanSpecPastPage(replies: seq<ScanReply>, acc: seq<string>, maxKeys: nat)
    requires |acc| < Limit(maxKeys)
    requires |replies| > 0 && replies[0].Page? && replies[0].cursor != "0"
    requires !AddPage(acc, replies[0].keys, maxKeys).1
    ensures ScanSpec(replies, acc, maxKeys) == ScanSpec(replies[1..], acc + replies[0].keys, maxKeys)
  {
  }

  /** The reference scan on a page returning cursor "0": the page is the last one read. */
  lemma ScanSpecLastPage(replies: seq<ScanReply>, acc: seq<string>, maxKeys: nat)
    requires |acc| < Limit(maxKeys)
    requires |replies| > 0 && replies[0].Page? && replies[0].cursor == "0"
    ensures ScanSpec(replies, acc, maxKeys) == Success(AddPage(acc, replies[0].keys, maxKeys).0)
    ensures StopIndex(replies) == Some(0)
    ensures AllKeys(replies[..1]) == replies[0].keys
  {
    assert replies[..1] == [replies[0]];
    assert AllKeys(replies[..1]) == replies[0].keys + AllKeys([]);
  }

  lemma StopIndexPastPage(replies: seq<ScanReply>)
    requires |replies| > 0 && !Stops(replies[0])
    ensures StopIndex(replies).Some? <==> StopIndex(replies[1..]).Some?
    ensures StopIndex(replies).Some? ==> StopIndex(replies).value == StopIndex(replies[1..]).value + 1
  {
  }

  /**
   * A scan that stops short of the cap went through the replies up to the first
   * page returning cursor "0", and kept exactly their keys.
   */
  lemma {:induction false} ScanSpecShortOfCapCompleted(replies: seq<ScanReply>, acc: seq<string>, maxKeys: nat)
    requires |acc| < Limit(maxKeys)
    ensures var r := ScanSpec(replies, acc, maxKeys);
            r.Success? && |r.value| < Limit(maxKeys) ==>
              && StopIndex(replies).Some?
              && replies[StopIndex(replies).value].Page?
              && r.value == acc + AllKeys(replies[..StopIndex(replies).value + 1])
    decreases |replies|
  {
    var r := ScanSpec(replies, acc, maxKeys);
    if |replies| > 0 && replies[0].Page? && r.Success? && |r.value| < Limit(maxKeys) {
      var page := replies[0].keys;
      if replies[0].cursor == "0" {
        ScanSpecLastPage(replies, acc, maxKeys);
      } else {
        assert !AddPage(acc, page, maxKeys).1;
        ScanSpecPastPage(replies, acc, maxKeys);
        ScanSpecShortOfCapCompleted(replies[1..], acc + page, maxKeys);
        ShortOfCapPastPage(replies, acc, maxKeys);
      }
    }
  }

  /** A short scan past a first page that neither stops nor fills the cap completes as the rest of the replies do. */
  lemma ShortOfCapPastPage(replies: seq<ScanReply>, acc: seq<string>, maxKeys: nat)
    requires |acc| < Limit(maxKeys)
    requires |replies| > 0 && replies[0].Page? && replies[0].cursor != "0"
    requires StopIndex(replies[1..]).Some? && replies[1..][StopIndex(replies[1..]).value].Page?
    ensures var n := StopIndex(replies[1..]).value;
            && StopIndex(replies) == Some(n + 1)
            && replies[n + 1].Page?
            && (acc + replies[0].keys) + AllKeys(replies[1..][..n + 1]) == acc + AllKeys(replies[..n + 2])
  {
    var n := StopIndex(replies[1..]).value;
    StopIndexPastPage(replies);
    assert replies[n + 1] == replies[1..][n];
    AllKeysOfPrefix(replies, n + 2);
  }

  /** scanAllKeys as a function: the reference scan, sorted with the string order `le`. */
  function ScanKeys(replies: seq<ScanReply>, maxKeys: nat, le: (string, string) -> bool): Result<seq<string>, ScanError>
    requires TotalPreorder(le)
  {
    match ScanSpec(replies, [], maxKeys)
    case Success(keys) => Success(Sort(keys, le))
    case Failure(e) => Failure(e)
  }

  /** The reference scan's result is sorted, capped, and a permutation of a prefix of the offered keys. */
  lemma ScanKeysShape(replies: seq<ScanReply>, maxKeys: nat, le: (string, string) -> bool)
    requires TotalPreorder(le)
    ensures var r := ScanKeys(replies, maxKeys, le);
            r.Success? ==>
              && Sorted(r.value, le)
              && |r.value| <= Limit(maxKeys)
              && |r.value| <= |AllKeys(replies)|
              && multiset(r.value) == multiset(AllKeys(replies)[..|r.value|])
    ensures var r := ScanKeys(replies, maxKeys, le);
            r.Success? && |r.value| < Limit(maxKeys) ==>
              && StopIndex(replies).Some?
              && replies[StopIndex(replies).value].Page?
              && multiset(r.value) == multiset(AllKeys(replies[..StopIndex(replies).value + 1]))
  {
    var s := ScanSpec(replies, [], maxKeys);
    ScanSpecKeepsOfferedPrefix(replies, [], maxKeys);
    ScanSpecShortOfCapCompleted(replies, [], maxKeys);
    if s.Success? {
      assert [] + AllKeys(replies) == AllKeys(replies);
      if |s.value| < Limit(maxKeys) {
        var n := StopIndex(replies).value;
        assert [] + AllKeys(replies[..n + 1]) == AllKeys(replies[..n + 1]);
      }
    }
  }

  /**
   * scanAllKeys: issues SCAN from cursor "0" until a reply returns cursor "0",
   * returning early once `maxKeys` keys are collected. The result is sorted,
   * capped, and a permutation of a prefix of the keys the store offered.
   */
  method ScanAllKeys(replies: seq<ScanReply>, maxKeys: nat, le: (string, string) -> bool)
    returns (r: Result<seq<string>, ScanError>)
    requires TotalPreorder(le)
    ensures r == ScanKeys(replies, maxKeys, le)
    ensures r.Success? ==> Sorted(r.value, le) && |r.value| <= Limit(maxKeys)
    ensures r.Success? ==> |r.value| <= |AllKeys(replies)|
    ensures r.Success? ==> multiset(r.value) == multiset(AllKeys(replies)[..|r.value|])
    ensures r.Success? && |r.value| < Limit(maxKeys) ==>
              && StopIndex(replies).Some?
              && replies[StopIndex(replies).value].Page?
              && multiset(r.value) == multiset(AllKeys(replies[..StopIndex(replies).value + 1]))
  {
    ScanKeysShape(replies, maxKeys, le);
    var keys: seq<string> := [];
    var i := 0;
    while true
      invariant 0 <= i <= |replies|
      invariant |keys| < Limit(maxKeys)
      invariant ScanSpec(replies, [], maxKeys) == ScanSpec(replies[i..], keys, maxKeys)
      decreases |replies| - i
    {
      if i == |replies| {
        return Failure(RepliesExhausted);
      }
      assert replies[i..][0] == replies[i] && replies[i..][1..] == replies[i + 1..];
      match replies[i]
      case ScanThrew(t) =>
        return Failure(ReplyError(t));
      case Page(cursor, page) =>
        ghost var start := keys;
        var j := 0;
        while j < |page|
          invariant 0 <= j <= |page|
          invariant |keys| < Limit(maxKeys)
          invariant AddPage(start, page, maxKeys) == AddPage(keys, page[j..], maxKeys)
          decreases |page| - j
        {
          assert page[j..][0] == page[j] && page[j..][1..] == page[j + 1..];
          keys := keys + [page[j]];
          if |keys| >= maxKeys {
            return Success(Sort(keys, le));
          }
          j := j + 1;
        }
        assert page[j..] == [];
        if cursor == "0" {
          return Success(Sort(keys, le));
        }
        i := i + 1;
    }
  }

  // ---------------------------------------------------------------------------
  // Key metadata
  // ---------------------------------------------------------------------------

  /** A key with its reported type name and remaining lifetime in seconds. */
  datatype KeyMetadata = KeyMetadata(key: string, keyType: string, ttlSeconds: real)

  /** `toFiniteNumber(value, fallback)`: the value as a number when finite, else the fallback. */
  function ToFiniteNumber(v: Value, fallback: real, parse: string -> Num): (r: real)
    ensures JsNumberOf(v, parse).Finite? ==> r == JsNumberOf(v, parse).value
    ensures !JsNumberOf(v, parse).Finite? ==> r == fallback
  {
    var n := JsNumberOf(v, parse);
    if n.Finite? then n.value else fallback
  }

  /** The TYPE reply's reading: 'unknown' for an error or a nil reply, else the reply as text. */
  function TypeOfReply(reply: Reply): (r: string)
    ensures reply.err.Some? || IsNullish(reply.value) ==> r == "unknown"
    ensures reply.err.None? && reply.value.Str? ==> r == reply.value.s
  {
    if reply.err.Some? then "unknown"
    else if IsNullish(reply.value) then "unknown"
    else JsString(reply.value)
  }

  /** The TTL reply's reading: -2 (no such key) for an error or anything not a finite number. */
  function TtlOfReply(reply: Reply, parse: string -> Num): (r: real)
    ensures reply.err.Some? ==> r == -2.0
    ensures reply.err.None? && reply.value.Int? ==> r == reply.value.i as real
    ensures reply.err.None? && !JsNumberOf(reply.value, parse).Finite? ==> r == -2.0
  {
    if reply.err.Some? then -2.0 else ToFiniteNumber(reply.value, -2.0, parse)
  }

  /**
   * loadKeyMetadata: one batch holding TYPE then TTL for every key; the i-th
   * key reads results 2i and 2i+1. No batch is sent for an empty key list,
   * and a batch that throws fails the whole call.
   */
  function LoadKeyMetadata(keys: seq<string>, batch: Batch, parse: string -> Num): (r: Result<seq<KeyMetadata>, Thrown>)
    ensures |keys| == 0 ==> r == Success([])
    ensures |keys| > 0 && batch.Threw? ==> r == Failure(batch.thrown)
    ensures r.Success? ==> |r.value| == |keys|
    ensures r.Success? ==> forall i :: 0 <= i < |keys| ==> r.value[i].key == keys[i]
  {
    if |keys| == 0 then Success([])
    else match batch
      case Threw(t) => Failure(t)
      case Results(replies) =>
        Success(seq(|keys|, i requires 0 <= i < |keys| =>
          KeyMetadata(keys[i], TypeOfReply(ReplyAt(replies, 2 * i)), TtlOfReply(ReplyAt(replies, 2 * i + 1), parse))))
  }

  /**
   * Each key's entry depends on its own two results only: two result lists that
   * agree at positions 2i and 2i+1 give the same entry for key i, and a list
   * cut short reads the missing results as an undefined reply.
   */
  lemma MetadataIsPerKey(keys: seq<string>, a: seq<Reply>, b: seq<Reply>, i: nat, parse: string -> Num)
    requires i < |keys|
    requires ReplyAt(a, 2 * i) == ReplyAt(b, 2 * i) && ReplyAt(a, 2 * i + 1) == ReplyAt(b, 2 * i + 1)
    ensures LoadKeyMetadata(keys, Results(a), parse).Success?
    ensures LoadKeyMetadata(keys, Results(a), parse).value[i] == LoadKeyMetadata(keys, Results(b), parse).value[i]
  {
  }

  /**
   * Key i reads its type from result 2i and its lifetime from result 2i+1,
   * whatever the results hold: a failed or nullish TYPE result reads
   * 'unknown' and a text one reads as that text; a failed or non-finite TTL
   * result reads -2 and an integer one reads as itself; a result the list
   * is too short to hold reads as a failed one would.
   */
  lemma MetadataReadsOwnReplies(keys: seq<string>, replies: seq<Reply>, i: nat, parse: string -> Num)
    requires i < |keys|
    ensures var r := LoadKeyMetadata(keys, Results(replies), parse);
            && r.Success?
            && r.value[i].key == keys[i]
            && (2 * i < |replies| && (replies[2 * i].err.Some? || IsNullish(replies[2 * i].value)) ==> r.value[i].keyType == "unknown")
            && (2 * i < |replies| && replies[2 * i].err.None? && replies[2 * i].value.Str? ==>
                  r.value[i].keyType == replies[2 * i].value.s)
            && (2 * i >= |replies| ==> r.value[i].keyType == "unknown")
            && (2 * i + 1 < |replies| && (replies[2 * i + 1].err.Some? || !JsNumberOf(replies[2 * i + 1].value, parse).Finite?) ==>
                  r.value[i].ttlSeconds == -2.0)
            && (2 * i + 1 < |replies| && replies[2 * i + 1].err.None? && replies[2 * i + 1].value.Int? ==>
                  r.value[i].ttlSeconds == replies[2 * i + 1].value.i as real)
            && (2 * i + 1 >= |replies| ==> r.value[i].ttlSeconds == -2.0)
  {
  }
}

=== FILE: sorting.dfy ===
/**
 * An insertion sort parameterised by a comparison. The snapshot code
 * sorts with JS `localeCompare`, whose collation is locale data; the model
 * takes it as an abstract total preorder `le(a, b)` ("a sorts no later than b").
 */
module Sorting {

  ghost predicate TotalPreorder<T(!new)>(le: (T, T) -> bool) {
    && (forall a, b :: le(a, b) || le(b, a))
    && (forall a, b, c :: le(a, b) && le(b, c) ==> le(a, c))
  }

  predicate Sorted<T>(xs: seq<T>, le: (T, T) -> bool) {
    forall i, j :: 0 <= i < j < |xs| ==> le(xs[i], xs[j])
  }

  /** Inserts `x` after every element of `s` that sorts no later than it. */
  function Insert<T(!new)>(x: T, s: seq<T>, le: (T, T) -> bool): (r: seq<T>)
    requires TotalPreorder(le)
    requires Sorted(s, le)
    ensures Sorted(r, le)
    ensures multiset(r) == multiset(s) + multiset{x}
    ensures |r| == |s| + 1
  {
    if |s| == 0 then [x]
    else if !le(s[0], x) then
      assert forall k :: 0 <= k < |s| ==> le(x, s[k]) by {
        forall k | 0 <= k < |s| ensures le(x, s[k]) {
          if k > 0 { assert le(s[0], s[k]); }
        }
      }
      [x] + s
    else
      var tail := Insert(x, s[1..], le);
      assert s == [s[0]] + s[1..];
      assert forall k :: 0 <= k < |tail| ==> le(s[0], tail[k]) by {
        forall k | 0 <= k < |tail| ensures le(s[0], tail[k]) {
          assert tail[k] in multiset(tail);
          assert tail[k] in multiset(s[1..]) || tail[k] == x;
          if tail[k] != x {
            var j :| 0 <= j < |s[1..]| && s[1..][j] == tail[k];
            assert s[j + 1] == tail[k];
          }
        }
      }
      [s[0]] + tail
  }

  /** Array.prototype.sort with the comparator `le`: sorted, with the same elements. */
  function Sort<T(!new)>(xs: seq<T>, le: (T, T) -> bool): (r: seq<T>)
    requires TotalPreorder(le)
    ensures Sorted(r, le)
    ensures multiset(r) == multiset(xs)
    ensures |r| == |xs|
  {
    if |xs| == 0 then []
    else
      assert xs == xs[..|xs| - 1] + [xs[|xs| - 1]];
      Insert(xs[|xs| - 1], Sort(xs[..|xs| - 1], le), le)
  }

  /** `map` over a sequence; kept here so that every module spells it the same way. */
  function Map<T, U>(xs: seq<T>, f: T -> U): (r: seq<U>)
    ensures |r| == |xs|
    ensures forall i :: 0 <= i < |xs| ==> r[i] == f(xs[i])
  {
    seq(|xs|, i requires 0 <= i < |xs| => f(xs[i]))
  }
}

=== FILE: text.dfy ===
/**
 * String helpers shared by the parsers and formatters: decimal digits,
 * joining and splitting on a separator, C++ `std::string` ordering,
 * `find`/`rfind`, and ASCII lower-casing.
 */
module Text {
  import opened Wrappers

  // ---------------------------------------------------------------------------
  // Decimal digits
  // ---------------------------------------------------------------------------

  predicate IsDigit(c: char) {
    '0' <= c <= '9'
  }

  predicate AllDigits(s: string) {
    forall i :: 0 <= i < |s| ==> IsDigit(s[i])
  }

  function DigitValue(c: char): nat
    requires IsDigit(c)
  {
    (c as int - '0' as int) as nat
  }

  function DigitChar(d: nat): (c: char)
    requires d < 10
    ensures IsDigit(c) && DigitValue(c) == d
  {
    ('0' as int + d) as char
  }

  /** The value of a string of decimal digits, read left to right (leading zeros allowed). */
  function DigitsValue(s: string): nat
    requires AllDigits(s)
  {
    if |s| == 0 then 0 else DigitsValue(s[..|s| - 1]) * 10 + DigitValue(s[|s| - 1])
  }

  /** The shortest decimal spelling of `n`, as JS template literals and C++ formatting print it. */
  function NatToString(n: nat): (r: string)
    ensures |r| >= 1 && AllDigits(r)
    ensures DigitsValue(r) == n
    ensures r[0] == '0' ==> n == 0
  {
    if n < 10 then [DigitChar(n)]
    else
      var prefix := NatToString(n / 10);
      assert (prefix + [DigitChar(n % 10)])[..|prefix|] == prefix;
      prefix + [DigitChar(n % 10)]
  }

  /** JS `String(i)` / `${i}` of an integer. */
  function IntToString(i: int): (r: string)
    ensures |r| >= 1
    ensures i >= 0 ==> r == NatToString(i)
    ensures i < 0 ==> r == "-" + NatToString(-i)
  {
    if i >= 0 then NatToString(i) else "-" + NatToString(-i)
  }

  // ---------------------------------------------------------------------------
  // Joining and splitting
  // ---------------------------------------------------------------------------

  /** JS `lines.join(sep)` */
  function Join(lines: seq<string>, sep: string): string {
    if |lines| == 0 then ""
    else if |lines| == 1 then lines[0]
    else lines[0] + sep + Join(lines[1..], sep)
  }

  predicate Excludes(s: string, c: char) {
    forall i :: 0 <= i < |s| ==> s[i] != c
  }

  /** The first index at or after `from` holding `c` (C++ `s.find(c, from)`). */
  function FindChar(s: string, c: char, from: nat): (r: Option<nat>)
    decreases |s| - from
    ensures r.Some? ==> from <= r.value < |s| && s[r.value] == c
    ensures r.Some? ==> forall i :: from <= i < r.value ==> s[i] != c
    ensures r.None? ==> forall i :: from <= i < |s| ==> s[i] != c
  {
    if from >= |s| then None
    else if s[from] == c then Some(from)
    else FindChar(s, c, from + 1)
  }

  /** The last index holding `c` (C++ `s.rfind(c)`). */
  function RFindChar(s: string, c: char): (r: Option<nat>)
    ensures r.Some? ==> r.value < |s| && s[r.value] == c
    ensures r.Some? ==> forall i :: r.value < i < |s| ==> s[i] != c
    ensures r.None? ==> Excludes(s, c)
  {
    if |s| == 0 then None
    else if s[|s| - 1] == c then Some(|s| - 1)
    else RFindChar(s[..|s| - 1], c)
  }

  /** Cuts `s` at every `sep` (JS `s.split(sep)` for a one-character separator). */
  function Split(s: string, sep: char): (r: seq<string>)
    decreases |s|
    ensures |r| >= 1
  {
    match FindChar(s, sep, 0)
    case None => [s]
    case Some(i) => [s[..i]] + Split(s[i + 1..], sep)
  }

  /** Splitting undoes joining when no piece contains the separator. */
  lemma {:induction false} SplitJoin(lines: seq<string>, sep: char)
    requires |lines| >= 1
    requires forall k :: 0 <= k < |lines| ==> Excludes(lines[k], sep)
    ensures Split(Join(lines, [sep]), sep) == lines
    decreases |lines|
  {
    if |lines| == 1 {
      assert FindChar(lines[0], sep, 0).None?;
    } else {
      var rest := Join(lines[1..], [sep]);
      var s := lines[0] + [sep] + rest;
      assert Join(lines, [sep]) == s;
      var f := FindChar(s, sep, 0);
      assert s[|lines[0]|] == sep;
      assert forall i :: 0 <= i < |lines[0]| ==> s[i] == lines[0][i];
      assert f == Some(|lines[0]|);
      assert s[..|lines[0]|] == lines[0];
      assert s[|lines[0]| + 1..] == rest;
      SplitJoin(lines[1..], sep);
      assert [lines[0]] + lines[1..] == lines;
    }
  }

  // ---------------------------------------------------------------------------
  // C++ std::string ordering (lexicographic by character)
  // ---------------------------------------------------------------------------

  /** `a < b` on `std::string`: lexicographic, a proper prefix comes first. */
  predicate LexLess(a: string, b: string) {
    if |a| == 0 then |b| > 0
    else if |b| == 0 then false
    else if a[0] != b[0] then a[0] < b[0]
    else LexLess(a[1..], b[1..])
  }

  lemma {:induction false} LexLessIrreflexive(a: string)
    ensures !LexLess(a, a)
  {
    if |a| > 0 {
      LexLessIrreflexive(a[1..]);
    }
  }

  lemma {:induction false} LexLessTransitive(a: string, b: string, c: string)
    requires LexLess(a, b) && LexLess(b, c)
    ensures LexLess(a, c)
  {
    if |a| > 0 && |b| > 0 && |c| > 0 && a[0] == b[0] && b[0] == c[0] {
      LexLessTransitive(a[1..], b[1..], c[1..]);
    }
  }

  /** Any two different strings are ordered one way or the other. */
  lemma {:induction false} LexLessTotal(a: string, b: string)
    ensures a == b || LexLess(a, b) || LexLess(b, a)
  {
    if |a| > 0 && |b| > 0 && a[0] == b[0] {
      LexLessTotal(a[1..], b[1..]);
      if a[1..] == b[1..] {
        assert a == [a[0]] + a[1..] && b == [b[0]] + b[1..];
      }
    }
  }

  lemma {:induction false} LexLessAsymmetric(a: string, b: string)
    requires LexLess(a, b)
    ensures !LexLess(b, a)
  {
    if |a| > 0 && |b| > 0 && a[0] == b[0] {
      LexLessAsymmetric(a[1..], b[1..]);
    }
  }

  // ---------------------------------------------------------------------------
  // Substring search and ASCII case
  // ---------------------------------------------------------------------------

  predicate OccursAt(s: string, t: string, i: int) {
    0 <= i && i + |t| <= |s| && s[i..i + |t|] == t
  }

  /** The first index at or after `from` where `t` occurs in `s` (C++ `s.find(t, from)`). */
  function FindSub(s: string, t: string, from: nat): (r: Option<nat>)
    decreases |s| - from
    ensures r.Some? ==> from <= r.value && OccursAt(s, t, r.value)
    ensures r.Some? ==> forall i :: from <= i < r.value ==> !OccursAt(s, t, i)
    ensures r.None? ==> forall i :: from <= i ==> !OccursAt(s, t, i)
  {
    if from + |t| > |s| then None
    else if s[from..from + |t|] == t then Some(from)
    else FindSub(s, t, from + 1)
  }

  predicate Contains(s: string, t: string) {
    FindSub(s, t, 0).Some?
  }

  /** C `tolower` in the "C" locale: only 'A'..'Z' change. */
  function LowerChar(c: char): char {
    if 'A' <= c <= 'Z' then (c as int + 32) as char else c
  }

  function ToLower(s: string): (r: string)
    ensures |r| == |s|
    ensures forall i :: 0 <= i < |s| ==> r[i] == LowerChar(s[i])
  {
    seq(|s|, i requires 0 <= i < |s| => LowerChar(s[i]))
  }

  /** C `isspace` in the "C" locale. */
  predicate IsSpace(c: char) {
    c == ' ' || c == '\t' || c == '\n' || c == '\r' || c == '\U{0B}' || c == '\U{0C}'
  }
}

=== FILE: transfer_mailbox.dfy ===
/**
 * The server-handoff transfer mailbox: one slot for an entity arriving from
 * another shard and one for an entity leaving, each acted on once the local
 * authority tick reaches the transfer tick agreed for it. What acting does to
 * the simulator, the authority tracker and the telemetry publisher is
 * reported as a list of effects.
 */
module TransferMailbox {
  import opened Wrappers
  import opened NetworkIdentities
  import opened EntityAuthorityTracker

  /** An entity on its way in, to be adopted at `transferTick`. */
  datatype PendingIncoming = PendingIncoming(entity: AtlasEntity, sender: NetworkIdentity, transferTick: nat)

  /** An entity on its way out, to be given up at `transferTick`. */
  datatype PendingOutgoing = PendingOutgoing(entityId: EntityId, targetIdentity: NetworkIdentity, targetClaimKey: string, transferTick: nat)

  /** The two slots; each holds at most one handoff. */
  datatype Mailbox = Mailbox(incoming: Option<PendingIncoming>, outgoing: Option<PendingOutgoing>)

  /** What acting on a slot does outside the mailbox, in order. */
  datatype Effect = AdoptEntity(entity: AtlasEntity) | ResetSimulator | ClearTracker | PublishTelemetry

  /** Reset: both slots empty. */
  function Reset(m: Mailbox): (r: Mailbox)
    ensures r.incoming.None? && r.outgoing.None?
  {
    Mailbox(None, None)
  }

  /** QueueIncoming: the incoming slot now holds this handoff, whatever it held; the outgoing slot is untouched. */
  function QueueIncoming(m: Mailbox, entity: AtlasEntity, sender: NetworkIdentity, transferTick: nat): (r: Mailbox)
    ensures r.incoming == Some(PendingIncoming(entity, sender, transferTick))
    ensures r.outgoing == m.outgoing
  {
    m.(incoming := Some(PendingIncoming(entity, sender, transferTick)))
  }

  /** SetPendingOutgoing: the outgoing slot now holds this handoff; the incoming slot is untouched. */
  function SetPendingOutgoing(m: Mailbox, handoff: PendingOutgoing): (r: Mailbox)
    ensures r.outgoing == Some(handoff) && r.incoming == m.incoming
  {
    m.(outgoing := Some(handoff))
  }

  /** ClearPendingOutgoing: the outgoing slot is emptied; the incoming slot is untouched. */
  function ClearPendingOutgoing(m: Mailbox): (r: Mailbox)
    ensures r.outgoing.None? && r.incoming == m.incoming
  {
    m.(outgoing := None)
  }

  /** HasPendingOutgoing. */
  predicate HasPendingOutgoing(m: Mailbox) {
    m.outgoing.Some?
  }

  /** A handoff is due once the local tick has reached its transfer tick. */
  predicate Due(transferTick: nat, tick: nat) {
    tick >= transferTick
  }

  /**
   * AdoptIncomingIfDue: with nothing queued, or before the transfer tick,
   * nothing happens and the answer is false; otherwise the queued entity is
   * adopted, the slot emptied and the answer is true.
   */
  function AdoptIncomingIfDue(m: Mailbox, tick: nat): (r: (Mailbox, bool, seq<Effect>))
    ensures r.1 <==> m.incoming.Some? && Due(m.incoming.value.transferTick, tick)
    ensures !r.1 ==> r.0 == m && r.2 == []
    ensures r.1 ==> r.0 == m.(incoming := None) && r.2 == [AdoptEntity(m.incoming.value.entity)]
  {
    if m.incoming.None? || tick < m.incoming.value.transferTick then (m, false, [])
    else (m.(incoming := None), true, [AdoptEntity(m.incoming.value.entity)])
  }

  /**
   * CommitOutgoingIfDue: the same due test on the outgoing slot; when due,
   * the simulator is reset, the tracker emptied, telemetry published (in
   * that order), the slot emptied and the answer is true.
   */
  function CommitOutgoingIfDue(m: Mailbox, tick: nat): (r: (Mailbox, bool, seq<Effect>))
    ensures r.1 <==> m.outgoing.Some? && Due(m.outgoing.value.transferTick, tick)
    ensures !r.1 ==> r.0 == m && r.2 == []
    ensures r.1 ==> r.0 == m.(outgoing := None) && r.2 == [ResetSimulator, ClearTracker, PublishTelemetry]
  {
    if m.outgoing.None? || tick < m.outgoing.value.transferTick then (m, false, [])
    else (m.(outgoing := None), true, [ResetSimulator, ClearTracker, PublishTelemetry])
  }

  /** A queued entity is adopted at most once: a second adoption finds the slot empty. */
  lemma AdoptsAtMostOnce(m: Mailbox, tick: nat, later: nat)
    requires AdoptIncomingIfDue(m, tick).1
    ensures AdoptIncomingIfDue(AdoptIncomingIfDue(m, tick).0, later) == (AdoptIncomingIfDue(m, tick).0, false, [])
  {
  }

  /** The latest queued handoff is the one adopted, once its tick has come. */
  lemma LatestQueuedIsAdopted(m: Mailbox, first: AtlasEntity, second: AtlasEntity, sender: NetworkIdentity,
                              t1: nat, t2: nat, tick: nat)
    requires tick >= t2
    ensures var queued := QueueIncoming(QueueIncoming(m, first, sender, t1), second, sender, t2);
            AdoptIncomingIfDue(queued, tick).2 == [AdoptEntity(second)]
  {
  }

  /** Once due, a handoff stays due: waiting longer never turns a true answer false. */
  lemma DueIsMonotonic(m: Mailbox, tick: nat, later: nat)
    requires tick <= later
    ensures AdoptIncomingIfDue(m, tick).1 ==> AdoptIncomingIfDue(m, later).1
    ensures CommitOutgoingIfDue(m, tick).1 ==> CommitOutgoingIfDue(m, later).1
  {
  }

  /** The two slots never interfere: acting on one leaves the other as it was. */
  lemma SlotsAreIndependent(m: Mailbox, tick: nat)
    ensures AdoptIncomingIfDue(m, tick).0.outgoing == m.outgoing
    ensures CommitOutgoingIfDue(m, tick).0.incoming == m.incoming
  {
  }

  /** After a commit, a clear or a reset, no outgoing handoff is pending. */
  lemma NothingPendingAfterCommit(m: Mailbox, tick: nat)
    ensures CommitOutgoingIfDue(m, tick).1 ==> !HasPendingOutgoing(CommitOutgoingIfDue(m, tick).0)
    ensures !HasPendingOutgoing(ClearPendingOutgoing(m)) && !HasPendingOutgoing(Reset(m))
  {
  }
}

=== FILE: wrappers.dfy ===
/** Option and Result types shared by every module of the model. */
module Wrappers {

  /** A value that may be absent: a C++ `std::optional`, or a JS `null`/`undefined`. */
  datatype Option<+T> = None | Some(value: T) {
    function GetOr(default: T): T {
      match this
      case Some(v) => v
      case None => default
    }
  }

  /** The outcome of an operation that can fail with an error of type `E`. */
  datatype Result<+R, +E> = Success(value: R) | Failure(error: E) {
    predicate IsFailure() {
      Failure?
    }

    function PropagateFailure<U>(): Result<U, E>
      requires Failure?
    {
      Failure(error)
    }

    function Extract(): R
      requires Success?
    {
      value
    }
  }
}
